=== FILE: README.md ===
# BubbleTV download pipeline, modelled in Dafny

BubbleTV is a Flask application that downloads videos from Bilibili, Douyin and Toutiao. The user
posts a link. The server classifies and scrapes it, stores a task record in Redis and pushes the
task onto a queue. A worker pops tasks, downloads the media, transcodes it to `.mov` with ffmpeg and
records the result. A storage manager moves the video library to a new directory. A browser page
lists the tasks and shows the library as a folder tree.

This project models that pipeline as pure functions over immutable data:

- `Store` (store.dfy) is the Redis layer of `redis_manager.py`. Task and video hashes are maps.
  The queue is a sequence. Config keys are a map, and cookies carry their expiry time.
  The keyword-extended `update_task_status`, `task_exists` and `update_task_download_speed`, which
  the callers and unit tests use but the shown manager lacks, are modelled separately and marked
  as extensions.
- `Detect` (detect.dfy) covers both copies of the link parser. It models platform and type
  detection, `_clean_url`, `_is_valid_url` as the part of `urlsplit` it depends on, the scraper's
  own platform test and `create_task`'s classification.
- `Naming` and `Progress` model safe file names, the speed unit and the download-progress
  arithmetic of both downloaders.
- `Transcode` models both transcoders: reading ffmpeg's `time=` markers, the progress each copy
  writes, and batch transcoding.
- `Download` models both `download_video` functions as the sequence of status writes they make.
  yt-dlp, the HTTP stream and ffmpeg are outcome parameters.
- `Json` and `Scrape` model the pure helpers of `video_scraper.py`. `Json` interprets Python's
  `dict.get`/`in`/indexing over a JSON datatype. `Scrape` models the regular expressions the helpers
  use.
- `Worker` (worker.dfy) models `app.py`: create, retry, list, search, scan, and the worker step
  that consumes the queue.
- `Storage` (storage.dfy) models the migration state machine of `storage_manager.py`.
- `Client` (client.dfy) models the pure helpers of `static/js/app.js`.

The network, yt-dlp, ffmpeg, the clock and file-system existence are parameters: either outcome
datatypes or functions. An md5 digest is a `string -> string` parameter, and so is Unicode's NFKC
normalisation, which `urlsplit` applies to a non-ASCII host. Python's Unicode `\w` is a
`char -> bool` parameter.

Two behaviours of the source that the proofs make explicit:

- `continue_migration` re-runs the migration towards the *current* storage path. The path
  therefore never changes (`Storage.ContinueKeepsPath`).
- A migration interrupted after its setup writes is not reported as unfinished. The setup records
  the current path as the old one, and the path switches only when the migration finishes, so
  the old and current paths agree and `check_migration_status` sees nothing to continue
  (`Storage.SetupIsNotUnfinished`).

## Model

| member | source | states |
|---|---|---|
| Store.RenderAll | redis_manager.py:25-28 | `hset(mapping=…)` stores every field of the dict, each value as its string form, and no other field |
| Store.RenderAsSnapshot | redis_manager.py:107-116 | a hash read from Redis and enqueued again renders back to exactly the same hash |
| Store.GetTask | redis_manager.py:30-32 | `hgetall` of a task is empty exactly when the task does not exist |
| Store.SetTask | redis_manager.py:25-28 | merges the given fields over the stored task and leaves every other field, every other task and the queue alone; an empty dict raises redis-py's `DataError` |
| Store.UpdateTaskStatus | redis_manager.py:34-39 | sets `status`, `updated_at` and, when given, the progress's decimal text; everything else in the task and the store is unchanged, and a missing task is created holding just those fields |
| Store.ProgressReadsBack | redis_manager.py:34-39 | the progress text a status update stores parses back through `int()` to the number written |
| Store.GetAllTasks | redis_manager.py:118-125 | one hash per key in Redis's (unordered) enumeration; every stored task appears |
| Store.DeleteTask | redis_manager.py:127-129 | the task is gone, the deleted-key count is 1 or 0, and every other task is untouched |
| Store.DeletedTaskNotListed | redis_manager.py:118-129 | after a delete, `get_all_tasks` no longer enumerates the id and still lists every other task |
| Store.AddTaskToQueue | redis_manager.py:107-110 | LPUSH appends the entry at the end of the pending order |
| Store.GetNextTask | redis_manager.py:112-116 | RPOP yields None exactly on an empty queue, otherwise the longest-waiting entry, and drops it from the pending order |
| Store.PushAll | redis_manager.py:107-110 | pushing several entries appends them, in order, to the pending order |
| Store.PopManyPending | redis_manager.py:112-116 | popping k entries yields the first k of the pending order |
| Store.QueueIsFifo | redis_manager.py:107-116 | entries pushed come out after everything already waiting, in push order, and a drained queue yields None |
| Store.PopManyAfter | redis_manager.py:112-116 | the (n+1)-th pop returns what `get_next_task` gives on the queue left by the first n |
| Store.SetConfig | redis_manager.py:59-66 | a config key reads back the value set, and no other key changes |
| Store.GetStoragePath | redis_manager.py:68-72 | the stored storage path, or the default when it is unset or empty; never empty |
| Store.GetMigrationStatus | redis_manager.py:74-78 | the stored status, or 'none' when it is unset or empty |
| Store.GetMigrationProgress | redis_manager.py:86-91 | 0 when unset or empty, otherwise `int()` of the text: surrounding whitespace stripped, an optional '+' or '-', ASCII digits with single '_' separators; failing exactly when the text has another form |
| Text.ParseIntSignAndBlanks | redis_manager.py:89-91 | `int(' +7 ')` is 7: blanks are stripped and a '+' sign is read |
| Text.ParseIntSeparator | redis_manager.py:89-91 | `int('1_0')` is 10: a single '_' between digits is skipped |
| Text.ParseIntBadSeparators | redis_manager.py:89-91 | `int()` refuses a doubled '_' and one at either end |
| Store.MigrationProgressRoundTrip | redis_manager.py:86-91 | a progress that was set reads back unchanged |
| Store.ConfigDefaults | redis_manager.py:68-91 | on an unconfigured store: the default path, status 'none', progress 0 and no old path |
| Store.GetCookie | redis_manager.py:99-101 | the live cookie hash, or the empty dict once it has expired |
| Store.SetCookie | redis_manager.py:93-97 | merges the fields into the live cookie and leaves the other platforms' cookies alone; an empty mapping raises |
| Store.CookieValidFor30Days | redis_manager.py:93-105 | a cookie set at t0 is valid at a later time t exactly when t is within 30 days of t0 |
| Store.SetVideo | redis_manager.py:41-44 | stores every given field of the video and leaves every other video alone; an empty dict raises |
| Store.UpdateTaskStatusExt | tests/test_unit.py:89-111 | extension: status, progress, save path and error message as given; `clear_error` removes a stale message; other fields and tasks unchanged |
| Store.ExtAgreesWithShown | redis_manager.py:34-39 | without the extra keywords, the extended update is the shown `update_task_status` |
| Store.UpdateTaskDownloadSpeed | tests/test_unit.py:203-225 | extension: stores the speed text in `download_speed` and changes nothing else |
| Store.TaskExistsLifecycle | tests/test_unit.py:113-138 | extension: a task is absent, present after `set_task`, and absent after `delete_task` |
| Detect.DetectPlatform | backend/core/video_downloader.py:14-37 | the first platform, in table order, with a matching pattern; None exactly when no pattern matches |
| Detect.DetectPlatformRoot | video_downloader.py:8-30 | the same first-match rule over the older table, which has no bangumi pattern |
| Detect.ParsersDifferOnlyOnBangumi | video_downloader.py:8-30 | the two parsers disagree only on bangumi episode links, which the backend calls bilibili |
| Detect.BangumiOnlyInBackend | backend/core/video_downloader.py:14-37 | the backend's bangumi pattern makes an `ep` episode link a bilibili link, and no pattern of the older table matches it |
| Detect.VideoType | backend/core/video_downloader.py:39-61 | non-bilibili links are short videos; a bilibili link is a drama or bangumi exactly under the BV-first, medialist-then-bangumi tests |
| Detect.VideoTypeRoot | video_downloader.py:32-52 | only a bilibili medialist link without `video/BV` is a drama |
| Detect.VideoTypesDifferOnlyOnBangumi | video_downloader.py:32-52 | the two type rules differ exactly where the backend says bangumi, which the older one calls a short video |
| Detect.ScraperPlatform | backend/core/video_scraper.py:36-43 | substring tests in order: bilibili.com or b23.tv, then douyin.com, then toutiao.com, else none |
| Detect.CreatePlatform | app.py:75-82 | 'douyin' exactly when the link contains douyin.com, then bilibili, toutiao, else 'unknown' |
| Detect.ParserAcceptedScraperDefined | backend/core/video_downloader.py:63-76 | a link the parser accepts is recognised by the scraper too, and a bilibili link stays bilibili |
| Detect.CreateBilibiliScrapedAsBilibili | app.py:75-82 | a link `create_task` files under bilibili is scraped as bilibili |
| Detect.FirstHttpRun | backend/core/video_downloader.py:78-84 | the first `https?://` run, extended greedily to the first stop character; None exactly when no match exists |
| Detect.CleanUrl | backend/core/video_downloader.py:78-84 | the first link in the trimmed text, or the trimmed text when it holds none |
| Detect.CleanUrlInside | backend/core/video_downloader.py:78-84 | the cleaned link is a piece of the original text |
| Detect.FirstRunOfRun | backend/core/video_downloader.py:78-84 | an extracted link is its own first link |
| Detect.CleanUrlIdempotent | backend/core/video_downloader.py:78-84 | cleaning a cleaned link changes nothing |
| Detect.PythonRunStopsAtParenthesis | backend/core/video_downloader.py:80 | the server's pattern stops at ')' |
| Detect.JavaScriptRunCrossesParenthesis | static/js/app.js:214 | the browser's pattern does not stop at ')' |
| Detect.UrlSplit | backend/core/video_downloader.py:86-91 | the scheme and host `urlparse` finds; the "Invalid IPv6 URL" error for an unbalanced bracket, then `_checknetloc`'s error for a non-ASCII host that NFKC turns into one holding a delimiter |
| Detect.HttpLinkIsValid | backend/core/video_downloader.py:86-91 | an http(s) link with a non-empty host free of delimiters and brackets passes `_is_valid_url` exactly when `_checknetloc` accepts the host, which is then its netloc; otherwise `urlsplit` raises the NFKC error |
| Detect.AsciiHostAccepted | backend/core/video_downloader.py:86-91 | `_checknetloc` never refuses an ASCII host |
| Detect.FullwidthColonRejected | backend/core/video_downloader.py:86-91 | a host typed with the fullwidth colon U+FF1A, which NFKC maps to ':', is refused |
| Detect.FullwidthColonHostInvalid | backend/core/video_downloader.py:86-91 | so `_is_valid_url` rejects `https://a：b/x`, and `urlsplit` raises the NFKC error for it |
| Detect.BareHostIsInvalid | backend/core/video_downloader.py:86-91 | text without ':' has no scheme and is rejected |
| Detect.ScrapeVideo | backend/core/video_scraper.py:24-34 | dispatches on the scraper's own platform test and raises 'unsupported platform' when it finds none |
| Detect.ParseVideoInfo | backend/core/video_downloader.py:63-76 | an invalid link raises the format error and an unsupported one the platform error; otherwise the scrape, with a scrape error re-raised under the parse-failure prefix |
| Detect.ParseReachesFetch | backend/core/video_downloader.py:63-76 | past the guards the scraper always finds a platform, so parsing succeeds exactly when the fetch does |
| Detect.ParseVideoInfoRoot | video_downloader.py:54-69 | an unsupported platform raises before any request; success carries the fetched title, platform name, link and root video type; a failed fetch is re-raised under the prefix |
| Naming.RemoveDisallowed | backend/core/video_downloader.py:438 | every character outside `[\w\s\-.#]` is deleted and the rest is kept in order; a title of kept characters is unchanged |
| Naming.CollapseSpaces | backend/core/video_downloader.py:439 | each run of whitespace becomes one '_'; text without whitespace is unchanged |
| Naming.SafeFilename | backend/core/video_downloader.py:434-448 | at most 80 characters, no whitespace, only allowed characters; a sanitised title of at most 80 is kept, a longer one becomes its first 65 characters, '_' and six digits of its md5 |
| Naming.SafeFilenameIdempotent | backend/core/video_downloader.py:434-448 | a safe file name is its own safe file name |
| Naming.FormatSpeed | backend/core/video_downloader.py:177-185 | amount times unit equals the rate; B/s exactly below 1024; an amount under 1024 below GB/s |
| Naming.FormatSpeedMonotone | backend/core/video_downloader.py:177-185 | a faster rate never gets a smaller unit |
| Progress.Percent | backend/core/video_downloader.py:403 | models `int(done / total * scale)` as the floor of the exact ratio: `p * total <= done * scale < (p + 1) * total` |
| Progress.PercentMonotone | backend/core/video_downloader.py:403 | more bytes never give a smaller percentage |
| Progress.PercentWithinScale | backend/core/video_downloader.py:403 | the percentage stays within the scale while the bytes stay within the announced total, and exceeds it only when more bytes arrive |
| Progress.PercentNotClamped | backend/core/video_downloader.py:403 | a body longer than its Content-Length drives the percentage past 100 |
| Progress.ChunkWritesShape | backend/core/video_downloader.py:379-405 | the streamed progress writes never decrease, one is made per non-empty chunk, and none exceeds the final percentage |
| Progress.ChunkWritesBounded | backend/core/video_downloader.py:379-405 | with the bytes within the announced length no write exceeds the scale |
| Progress.NoLengthNoWrites | backend/core/video_downloader.py:379-405 | without a Content-Length nothing is written |
| Progress.StreamBody | backend/core/video_downloader.py:388-405 | the loop's byte count is the sum of the chunks, and its writes are the streamed writes above |
| Progress.BackendHook | backend/core/video_downloader.py:450-460 | silent unless downloading with both count keys present; a None in either count raises the division TypeError, a zero total raises ZeroDivisionError, otherwise it writes the percentage, then the speed when the key is present, raising after the write when that speed is None |
| Progress.RootHook | video_downloader.py:171-175 | writes only for a truthy total and never a speed; with a truthy total a missing downloaded count raises KeyError and a None one raises the division TypeError |
| Progress.HooksAgree | video_downloader.py:171-175 | the two hooks write on exactly the same events and with the same percentage; only the backend raises on a zero or None total, and only the root raises on a missing downloaded count |
| Transcode.Marker | backend/core/video_transcoder.py:145 | the groups of the leftmost position where the `time=` marker matches, with the given number of digit groups; None exactly when no position matches |
| Transcode.ProbeDuration | backend/core/video_transcoder.py:110-139 | the value of the leftmost `Duration:` match in the probe's output, or 0 when no position matches or the probe raised |
| Transcode.FindDuration | backend/core/video_transcoder.py:129 | `re.search` of the duration pattern: the value at the leftmost matching position, None exactly when none matches |
| Transcode.EffectiveDuration | backend/core/video_transcoder.py:53-56 | a non-positive duration is replaced by one hour; a positive one is kept |
| Transcode.BackendPercent | backend/core/video_transcoder.py:183-190 | the clamped floor of position over duration, 100 exactly when the position reaches the duration, and 0 for a non-positive duration |
| Transcode.LinePercents | backend/core/video_transcoder.py:145-190 | one clamped percentage in 0..100 per line that carries an `H:M:S` marker |
| Transcode.ChangesDiffer | backend/core/video_transcoder.py:148-195 | emit-on-change: the first write differs from the start value 0, no two consecutive writes are equal, and each write is a computed percentage |
| Transcode.ChangesOfMonotone | backend/core/video_transcoder.py:148-195 | with percentages that never go back, the writes strictly increase |
| Transcode.MonitorNeverWritesZero | backend/core/video_transcoder.py:148-195 | with time markers that never go back, the monitor never writes 0 and never repeats a value |
| Transcode.ZeroWrittenAfterGoingBack | backend/core/video_transcoder.py:192-195 | a marker that falls back to the start does get 0 written, so the bound above needs monotone markers |
| Transcode.BackendResult | backend/core/video_transcoder.py:60-108 | success exactly on exit code 0; the timeout, failure and exception messages for the other ways ffmpeg ends |
| Transcode.BackendTranscode | backend/core/video_transcoder.py:32-108 | raises before any work when ffmpeg or the input is missing; otherwise the run's result, with the monitor's writes only when a task id is given |
| Transcode.RootMonitor | video_transcoder.py:69-83 | as written: the percentages it writes are never negative |
| Transcode.RootMonitorDivides | video_transcoder.py:69-83 | as written: the monitor divides by ffmpeg's hours field, so it raises exactly when some marker line has hours 0 |
| Transcode.RootMonitorDividesInFirstHour | video_transcoder.py:69-83 | a first-hour progress line, which every encode prints, makes the root monitor divide by zero |
| Transcode.RootTranscode | video_transcoder.py:24-67 | the same two raising preconditions; with a task id the writes are the monitor's, a zero-hour line gives the division-by-zero exception result, and otherwise the exit code decides with the stderr the monitor already drained; without a task nothing is written and exit 0 is success |
| Transcode.RootFailureLosesStderr | video_transcoder.py:55-64 | a failed ffmpeg run reports its stderr only when no task id is given, because the monitor reads stderr to its end first |
| Transcode.CopiesAgreeWithoutTask | video_transcoder.py:24-67 | without a task id the two copies give the same result on every run both can have |
| Transcode.BatchTranscode | backend/core/video_transcoder.py:210-244 | stops at the first call that raises; otherwise reports the total, the failures in input order, and successes plus failures equal to the transcoded count; progress written only with a task id |
| Transcode.BatchWrites | video_transcoder.py:85-115 | one write per transcoded name |
| Transcode.BatchEndsAtHundred | backend/core/video_transcoder.py:229-236 | when the last name is transcoded, the last batch write is 100 |
| Transcode.BatchWritesAtMostHundred | backend/core/video_transcoder.py:229-236 | batch progress stays within 0..100 |
| Download.ProgressWrites | backend/core/video_downloader.py:697-703 | one status write per progress value, in order |
| Download.Fail | backend/core/video_downloader.py:579-582 | a failure records 'failed' with its message and returns `(False, message)` |
| Download.PathJoin | backend/core/video_downloader.py:502 | `os.path.join` ends with its last component |
| Download.Tag | backend/core/video_scraper.py:24-34 | a scraped page becomes video info tagged with its platform; an error passes through |
| Download.TranscodeAndRecord | backend/core/video_downloader.py:752-764 | 'transcoding' 0 first; success exactly when the transcoder returned success, then 'completed' 100 with the `.mov` path; otherwise 'failed' with a message showing the link |
| Download.After | backend/core/video_downloader.py:470-775 | earlier writes are kept in front of a run's own writes |
| Download.MovPath | backend/core/video_downloader.py:636-640 | the `.mov` path ends with the stem and `.mov` |
| Download.DouyinBranch | backend/core/video_downloader.py:481-591 | the douyin branch writes 'downloading' 0 first and always ends with a settling write |
| Download.DouyinStemSafe | backend/core/video_downloader.py:501-509 | the fixed douyin stem is already a safe file name |
| Download.DouyinScraped | backend/core/video_downloader.py:538-591 | after scraping, the branch always settles, and a failure shows the scraped link |
| Download.MovFor | backend/core/video_downloader.py:635-640 | the `.mov` path for a title is never empty |
| Download.StreamMedia | backend/core/video_downloader.py:660-750 | the streaming stage writes only 'downloading' progress |
| Download.OtherBranch | backend/core/video_downloader.py:596-769 | the non-douyin branch fails at parsing exactly when the parser fails; otherwise it writes 'downloading' 0 first and settles |
| Download.MediaTail | backend/core/video_downloader.py:611-769 | after parsing: 'downloading' 0 first, then a settling write; a failure shows the parsed video link |
| Download.ParsedNotDouyin | backend/core/video_downloader.py:597-642 | a link without 'douyin.com' never parses as douyin, so the yt-dlp douyin path is unreachable |
| Download.BackendDownloadAsWritten | backend/core/video_downloader.py:771-775 | as written: a parse failure escapes as UnboundLocalError with nothing recorded, exactly for non-douyin links the parser rejects |
| Download.BackendDownload | backend/core/video_downloader.py:470-775 | corrected: every run returns and settles the task with its last write |
| Download.SchemelessLinkEscapes | backend/core/video_downloader.py:771-775 | a link with no ':' and no 'douyin.com' raises as written, and is recorded as failed once corrected |
| Download.FailureShowsLink | backend/core/video_downloader.py:762-775 | every recorded failure ends by showing the link the run was working on |
| Download.ForwardConcat | backend/core/video_downloader.py:470-775 | downloading writes followed by forward writes stay forward |
| Download.TranscodeForward | backend/core/video_downloader.py:752-764 | the transcode tail's writes move forward through the phases |
| Download.DouyinForward | backend/core/video_downloader.py:481-591 | the douyin branch's writes move forward through the phases |
| Download.MediaTailForward | backend/core/video_downloader.py:611-769 | the non-douyin tail's writes move forward through the phases |
| Download.BackendPhasesForward | backend/core/video_downloader.py:470-775 | every run writes 'downloading' before 'transcoding' before the final 'completed' or 'failed', and nothing after |
| Download.HookWrites | video_downloader.py:171-175 | the hook writes only 'downloading' progress, at most one per event, and raises exactly when some event makes it raise |
| Download.RootDownload | video_downloader.py:137-169 | success exactly when parsing, the hook and yt-dlp all succeed; it then writes 'completed' 100, otherwise 'failed' without a message; no write carries a save path |
| Download.CookieFile | video_downloader.py:177-185 | the cookie file is empty exactly when there are no cookie names |
| Download.CookieEntries | video_downloader.py:181-182 | one entry per cookie name, in order |
| Download.CookieFileJoin | video_downloader.py:177-185 | the file is its entries, each ended by a newline |
| Download.CookieFileLines | video_downloader.py:177-185 | read back line by line, the file yields one entry per cookie name and never a cookie value |
| Worker.TaskRecord | app.py:143-152 | the stored task dict has exactly the eight fields, is pending with progress 0, and has no save path |
| Worker.StoreAndEnqueue | app.py:155-159 | `set_task` then `add_task_to_queue`: the task holds the dict's fields, the entry joins the end of the pending order, other tasks unchanged |
| Worker.CreateTask | app.py:52-183 | a falsy link is refused; a non-douyin link the parser rejects is answered with the create-time platform and the link, and nothing is stored; an accepted link stores a fresh pending record, queued last, whose title, platform and type are 'douyin' and '短视频' for a douyin link and the parser's otherwise |
| Worker.CreateParsed | app.py:119-170 | a parse failure changes nothing; a parsed link is stored and queued as a fresh pending entry carrying the parser's title, platform and video type |
| Worker.RetryAsWritten | app.py:233-246 | as written: the `clear_error` keyword raises before anything is written, so retry never re-queues |
| Worker.Retry | app.py:233-246 | corrected: the task is pending with its error message removed, nothing else changed, and its current record joins the end of the queue |
| Worker.RetryEntryIsStoredRecord | app.py:236-237 | the re-queued entry is field for field the record stored at retry time |
| Worker.ListTasks | app.py:27-49 | corrected: keeps exactly the listed records whose id is non-empty and still exists |
| Worker.ListTasksConcat | app.py:33-38 | the filter works record by record |
| Worker.DeletedTaskHidden | app.py:27-49 | after a delete no listed record names the deleted id |
| Worker.ListTasksAsWritten | app.py:27-49 | as written: without `task_exists` the list fails exactly when some record has a non-empty id, and is otherwise empty |
| Worker.CreatedTaskBreaksList | app.py:27-49 | once `create_task` has stored a task, the list as written fails |
| Worker.MatchingVideos | app.py:400-408 | keeps exactly the videos whose lowered title or save path contains the lowered query |
| Worker.MatchingVideosConcat | app.py:400-408 | the filter runs over the list in order: it distributes over concatenation and keeps a single video exactly when it matches, so order and duplicates are preserved |
| Worker.Search | app.py:393-421 | every video for an empty query, otherwise exactly the matching ones |
| Worker.SearchConcat | app.py:396-416 | a search over two lists of videos is the search over the first followed by the search over the second |
| Worker.EmptyQueryKeepsAll | app.py:399-415 | the empty-query shortcut answers what the filter would |
| Worker.SearchNarrows | app.py:400-408 | a longer query containing a shorter one finds only videos the shorter one finds |
| Worker.ScanFile | app.py:349-364 | a file is recorded exactly when its lowered extension is a video one; two or more components give platform and title; a bare file gives 'unknown' and its stem |
| Worker.ScanFindsDownload | app.py:349-364 | a `.mov` the downloader completed is scanned back under its platform and stem |
| Worker.ApplyWrite | backend/core/video_downloader.py:575 | one downloader write sets the status and, when it names one, the save path; other tasks unchanged |
| Worker.Apply | app.py:739-743 | after the downloader's writes the task holds the last status and the last save path given |
| Worker.SavePathKept | video_downloader.py:137-169 | writes that never name a path leave the stored one as it was |
| Worker.VideoRecord | app.py:766-775 | the video record names the task and the path |
| Worker.WorkerStep | app.py:733-806 | idle exactly on an empty queue; otherwise the oldest entry's task ends with the verdict's status, and a completed task is recorded as a video with its path |
| Worker.MarkFailed | app.py:749-751 | the task ends 'failed' |
| Worker.Process | app.py:736-806 | the entry's task ends with the verdict's status, and a completed task is recorded as a video with its path |
| Worker.AfterDownload | app.py:755-804 | crashes exactly when parsing or transcoding raises; completes exactly when the transcode succeeded or the downloaded file remains, with the transcoded or downloaded path on task and video; otherwise 'failed' |
| Worker.Record | app.py:766-789 | a video record and 'completed' 100 with the same path |
| Worker.RecordAsWritten | app.py:780-781 | against the root store manager the video is stored, then the completion write raises the unexpected-keyword TypeError and the task is left as it was |
| Worker.CompletionCrashesAsWritten | app.py:780-781 | the as-written completion and the corrected one store the same videos, but only the corrected one marks the task 'completed'; as written every task and the queue stay as they were |
| Worker.CreatedTaskHasNoPath | app.py:143-159 | a task `create_task` has just stored holds no save path |
| Worker.RootDownloaderFailsEveryTask | app.py:747-752 | as written: with the root downloader, which never writes a path, every task that had none ends 'failed' |
| Worker.BackendDownloadReachesTranscode | app.py:747-776 | corrected: a successful backend download leaves its `.mov` path on the task, so an existing file that transcodes completes the task; a failed one marks it 'failed' |
| Worker.SettledVerdict | app.py:747-806 | any settled run: success leaves its last path on the task and can complete; failure marks 'failed' |
| Worker.StatusNotConsulted | app.py:733-806 | pausing or cancelling a queued task does not change what the worker does with it |
| Json.PyIn | backend/core/video_scraper.py:501-503 | `key in v`: key membership for a dict; a TypeError exactly for values that support no `in` |
| Json.PyGet | backend/core/video_scraper.py:503-509 | `v[key]` answers exactly for a dict holding the key, with its value |
| Json.PyFirst | backend/core/video_scraper.py:505-512 | `v[0]`: the first element of a non-empty list, or the first character of a string; nothing else answers |
| Json.PyLen | backend/core/video_scraper.py:505 | `len` answers exactly for strings, lists and dicts |
| Json.NonEmpty | backend/core/video_scraper.py:505-511 | `v and len(v) > 0` on a list is its non-emptiness |
| Json.LookupConcat | backend/core/video_scraper.py:651-659 | walking `p + q` is walking `p` and then `q` |
| Json.FirstHttp | backend/core/video_scraper.py:651-662 | the first path whose walk ends at an 'http' string, and that string; None exactly when no path does |
| Json.ExtractFromSsr | backend/core/video_scraper.py:639-668 | a link exactly when the data is a dict and one of the four paths leads to an 'http' string; the link found is the one at the first such path |
| Json.FirstUrlFound | backend/core/video_scraper.py:510-512 | `urls[0]['url']` is returned only as found by that walk |
| Json.FromAddrFound | backend/core/video_scraper.py:509-516 | the address branch returns only what the walk through `url_list` finds |
| Json.FirstVideoFound | backend/core/video_scraper.py:505-508 | the first item's `video` is taken only as found by that walk |
| Json.VideoThen | backend/core/video_scraper.py:503-508 | a walk through a list's first `video` continues into that video |
| Json.DouyinUrlOnPath | backend/core/video_scraper.py:499-530 | any link `_extract_douyin_video_url` returns lies at the end of one of its three paths |
| Json.FirstPathWalked | backend/core/video_scraper.py:503-512 | when the play-address path leads somewhere, the walk returns what it finds there |
| Json.PlayAddressFirst | backend/core/video_scraper.py:503-512 | a link at the play-address path is the answer, whatever the other paths hold |
| Json.MissingUrlListHidesDownload | backend/core/video_scraper.py:509-530 | a play address without `url_list` raises and hides a valid download address |
| Json.ToutiaoPrefersVideoUrl | backend/core/video_scraper.py:930-945 | with a dict at `data.video_info` the answer is its `video_url`, else its `play_url`, else None; otherwise None |
| Scrape.RunEnd | backend/core/video_scraper.py:215 | the end of a greedy run of class characters |
| Scrape.HitAt | backend/core/video_scraper.py:215 | a match at a position starts there and ends within the text |
| Scrape.HitIsMatch | backend/core/video_scraper.py:215 | what the greedy match finds is a regular-expression match |
| Scrape.RunEndCovers | backend/core/video_scraper.py:215 | a run of class characters up to a stop character ends exactly there |
| Scrape.GapStart | backend/core/video_scraper.py:215 | the capture can start only where the computed start is |
| Scrape.CaptureInRun | backend/core/video_scraper.py:215 | a fitting capture lies within the longest run, and is all of it when a suffix follows |
| Scrape.MatchIsHit | backend/core/video_scraper.py:215 | any match of a greedy pattern at a position is found there, with the longest capture |
| Scrape.SearchFrom | backend/core/video_scraper.py:206 | `re.search`: the leftmost matching position; None exactly when none matches |
| Scrape.SearchIsLeftmost | backend/core/video_scraper.py:206 | the search finds the leftmost match and nothing when no match exists |
| Scrape.FindAllFrom | backend/core/video_scraper.py:493 | `re.findall`: the first capture is the search's; every capture is a non-empty run of class characters |
| Scrape.FirstMatch | backend/core/video_scraper.py:205-210 | the first pattern in the list that matches, and its capture; None exactly when none does |
| Scrape.FirstFindAll | backend/core/video_scraper.py:492-497 | the matches of the first matching pattern; empty exactly when none matches |
| Scrape.BilibiliId | backend/core/video_scraper.py:214-241 | a BV id wins, then an episode number; the bangumi lookup answers 'EP' and the number whatever the network does |
| Scrape.BilibiliIdShape | backend/core/video_scraper.py:214-252 | every id is 'BV' or 'EP' followed by a non-empty run of letters and digits |
| Scrape.BilibiliIdOffline | backend/core/video_scraper.py:214-241 | the network is consulted only when the link holds neither a BV id nor an episode number |
| Scrape.ItemIdsAreDigits | backend/core/video_scraper.py:485-497 | the douyin ids are digit strings; the list is empty exactly when no key occurs, else starts with the first key's first id |
| Scrape.ToutiaoItemIdIsDigits | backend/core/video_scraper.py:916-928 | the toutiao item id, when found, is a digit string |
| Scrape.CaptureInClass | backend/core/video_scraper.py:206 | a search's capture consists of class characters |
| Scrape.FindAllDigits | backend/core/video_scraper.py:485-497 | findall over digit patterns yields digit strings |
| Scrape.RemoveAbsent | backend/core/video_scraper.py:209 | removing names that do not occur changes nothing |
| Scrape.Title | backend/core/video_scraper.py:198-212 | '未知标题' when no title pattern matches |
| Scrape.CleanTitleKept | backend/core/video_scraper.py:381-395 | a stripped capture holding none of the platform's names comes back as found |
| Scrape.DouyinNameSurvives | backend/core/video_scraper.py:392 | the removal is one pass per name, so '抖抖音音' keeps '抖音' |
| Scrape.IsValidVideoUrl | backend/core/video_scraper.py:670-700 | only a non-empty string can be accepted |
| Scrape.ContainsPiece | backend/core/video_scraper.py:676-686 | a piece of a concatenation occurs in it |
| Scrape.PageLinkWins | backend/core/video_scraper.py:676-686 | every `www.douyin.com/video/` page link ending in `.mp4` is refused even though it looks like a stream |
| Scrape.VideoPatternRedundant | backend/core/video_scraper.py:690-696 | the 'video…douyinvod' pattern never decides anything, because 'v…douyinvod' matches too |
| Storage.SetStoragePath | storage_manager.py:16-23 | a missing path or a non-directory is refused with the path in the message; any other is stored and no other config key changes |
| Storage.WalkCounts | storage_manager.py:129-163 | without an exception every file counts once as a success or a failure; one progress write per copied file; writes stay within 100, and are all 100 while no copy has failed |
| Storage.MigrateFiles | storage_manager.py:129-163 | the copy loop's counters and progress writes are the walk's |
| Storage.AfterWrites | storage_manager.py:151-152 | the last progress write is what the migration progress reads back; nothing else changes |
| Storage.Setup | storage_manager.py:106-108 | records the current path as the old one, 'in_progress' and progress 0, and leaves the storage path alone |
| Storage.Finish | storage_manager.py:116-127 | success exactly when nothing raised and no file failed: then the new path, 'completed' and 100; otherwise the path is kept and, for a migration, 'failed' is recorded; the three messages |
| Storage.Migrate | storage_manager.py:97-127 | raises before writing anything exactly when the old path is missing; otherwise the old path is recorded |
| Storage.MigrateOutcome | storage_manager.py:97-127 | success exactly when files are not copied, or nothing raised and no copy failed; success switches the path and records 'completed' 100, failure keeps the path and records 'failed' |
| Storage.CheckMigrationStatus | storage_manager.py:165-183 | an unfinished migration is reported exactly while the status is 'in_progress' and a stored old path differs from the current one, with both paths |
| Storage.SetupIsNotUnfinished | storage_manager.py:165-183 | right after the setup writes, nothing is reported as unfinished |
| Storage.ContinueMigration | storage_manager.py:185-204 | refuses without an old path; a failure leaves the status as it was, and success records 'completed' |
| Storage.ContinueKeepsPath | storage_manager.py:185-204 | continuing ends with the storage path it started with, and its status is unchanged or 'completed' |
| Storage.CancelMigration | storage_manager.py:206-209 | always succeeds with 'cancelled' and progress 0, keeping both paths |
| Storage.CancelledIsNotUnfinished | storage_manager.py:165-209 | after a cancel nothing is reported as unfinished |
| Client.ExtractUrl | static/js/app.js:213-217 | the first `https?://` run ending before whitespace, ']', backtick, quote or double quote; null exactly when the text holds no such run |
| Client.Submit | static/js/app.js:189-211 | an empty trimmed field asks for a link; a field without a link is refused; otherwise the extracted link is added, and the field is rewritten exactly when the link differs from it |
| Client.ResubmitIsStable | static/js/app.js:189-211 | submitting again what the field then shows adds the same link without rewriting |
| Client.ActionButtons | static/js/app.js:364-412 | retry exactly for failed or cancelled tasks, pause exactly for downloading ones, cancel for downloading or transcoding, open for completed, delete for settled tasks; logs lead every non-empty set |
| Client.StatusBadge | static/js/app.js:352-362 | a badge exactly for the six known statuses, the danger tone exactly for 'failed' and the success tone exactly for 'completed' |
| Client.RowIsConsistent | static/js/app.js:318-412 | a progress bar shows exactly when cancel is offered; a task with buttons has a badge; a paused task shows no badge, bar or button |
| Client.RemoveFirst | static/js/app.js:535 | JavaScript's string `replace` cuts out exactly the first occurrence, and changes nothing when there is none |
| Client.TreePath | static/js/app.js:535-536 | the path components below the storage directory, at least one |
| Client.TreePathUnderStorage | static/js/app.js:535-536 | a save path under the storage directory loses exactly the directory and its separator |
| Client.StoragePathRemovedMidway | static/js/app.js:535 | the storage path is removed where it first occurs, even in the middle of the save path |
| Client.Insert | static/js/app.js:539-560 | inserting a path never removes a key, and new keys come from the path |
| Client.LeafPersists | static/js/app.js:542-560 | a file leaf already in the tree survives any later insertion unchanged |
| Client.FreshPathPlaced | static/js/app.js:539-555 | a path starting with a new component is built as folders ending in a leaf holding the video |
| Client.BuildTreeStep | static/js/app.js:531-564 | one more video is one more insertion step |
| Client.LeafSurvivesLaterVideos | static/js/app.js:531-564 | videos added after a leaf is placed leave it holding the same video |
| Client.FirstVideoWins | static/js/app.js:531-564 | the first video of the list wins its leaf, whatever follows, including videos with the same save path |
| Client.PathlessVideosSkipped | static/js/app.js:533-534 | videos without a save path contribute nothing |
| Client.FileInTheWayFlattens | static/js/app.js:556-560 | a file standing where a folder is needed is stepped over, so the rest of the path lands beside it |

## Left out

- File-system effects are not modelled: `os.walk`, copying, `makedirs`, removal of the source `.mp4` after transcoding, and the migration's file copies. Directory listings are passed in as parameters. `makedirs` during a migration is taken to succeed.
- Network, yt-dlp, ffmpeg and ffprobe are oracles passed into the model (a `World`, an `Env`, ffmpeg's progress lines as a sequence). `_resolve_douyin_short_url`, `_get_douyin_video_url_from_api`, the third-party API fallback and the Selenium scraping session are covered only through those oracles.
- `_download_douyin_with_ytdlp` is not modelled, because the parser never routes a link to it (Download.ParsedNotDouyin).
- Download speed sampling in `update_task_download_speed` depends on the wall clock. Only the stored speed field is modelled.
- Floating point: percentages are the floor of the exact ratio, where the source calls `int()` on a float. They can differ by one when the float rounds across an integer. JSON numbers are integers.
- Text: Unicode lower-casing, the Unicode `\d` class, and `str.strip` whitespace beyond the modelled space characters are not modelled. md5 is a parameter.
- `add_task_log` and the in-memory log buffer, Flask routing and HTTP status codes, threads, the monitor thread's early exit on `process.poll()`, and its sleep.
- A task entry whose url is `None`. The status route indexes the tuple returned by `migrate_storage` as if it were a dict; only the returned pair is modelled.
- `get_video_info`, `format_size`, `get_storage_info`, the directory pickers, `set_user` and `get_user`, and the pause, cancel, open and delete routes beyond the status they write.
- The order of `get_all_videos` is taken as given, as a parameter.
- Client: keys inherited from `Object.prototype` (for example `"constructor"`) in the lookups of `buildTreeData` and `getStatusBadge`, and the DOM output of `buildTreeHtml`.
- Worker.WorkerStep: the completed outcome writes `save_path` through the backend manager's `update_task_status`, which accepts it; the root manager the app builds at app.py:16 does not (see Findings and Worker.RecordAsWritten).
- Worker.Process: the same completion write as Worker.WorkerStep, modelled with the corrected `update_task_status`.
- Worker.AfterDownload: both completing branches (app.py:781 and app.py:796) are modelled with the corrected `update_task_status`; as written they raise TypeError after `set_video`.
- Worker.Record: models the intended completion write; Worker.RecordAsWritten models the write as the code makes it.
- Detect.UrlSplit: the bracketed-host check that Python 3.11.4 and later add to `urlsplit` (`_check_bracketed_host`, which parses an IPv6 or IPvFuture address) is not modelled; NFKC itself is a parameter.
- Progress.Percent: the float expression can fall one below the floor of the exact ratio, which the model returns: `int(29 / 100 * 100)` is 28, the model gives 29.
- Store.GetMigrationProgress: `int()` also reads non-ASCII decimal digits, which the model refuses; the store writes this field only as `str()` of an integer.

## Findings

| source | as written | input that shows it | evidently intended | confidence | as-written member | corrected member |
|---|---|---|---|---|---|---|
| app.py:236 | `retry_task` passes `clear_error=True` to `update_task_status`, which has no such parameter | any retry of an existing task | reset the task to pending and clear its error | not executed | Worker.RetryAsWritten | Worker.Retry |
| app.py:33-38 | `get_tasks` calls `task_exists` on each entry, and `RedisManager` defines no such method | a store holding one task made by `create_task` | list every stored task | not executed | Worker.ListTasksAsWritten, Worker.CreatedTaskBreaksList | Worker.ListTasks |
| backend/core/video_downloader.py:771-775 | a parse failure reaches the outer handler, which formats `video_url` before it is assigned | the link `"abc"` | record the parse failure on the task as 'failed' | not executed | Download.BackendDownloadAsWritten, Download.SchemelessLinkEscapes | Download.BackendDownload |
| app.py:747-752 | the root downloader that the app imports never writes `save_path`, so the worker marks every successful download 'failed' | any link the root downloader fetches | a successful download goes on to transcoding | not executed | Worker.RootDownloaderFailsEveryTask | Worker.BackendDownloadReachesTranscode |
| video_transcoder.py:69-83 | the root monitor divides by the hours field of an ffmpeg `time=` line | the line `time=00:00:01.00` | elapsed seconds over the duration, clamped to 100 | not executed | Transcode.RootMonitorDivides, Transcode.RootMonitorDividesInFirstHour | Transcode.LinePercents |
| app.py:781 | the completion write passes `save_path` to the root `update_task_status`, which takes only `progress` | any task whose download and transcode succeed | store the video and mark the task 'completed' with its path | not executed | Worker.RecordAsWritten, Worker.CompletionCrashesAsWritten | Worker.Record |

=== FILE: client.dfy ===
// The browser's pure helpers in static/js/app.js: pulling a link out of the download form, the
// per-status badge, progress bar and action buttons of the task list, and the folder tree the
// library view builds from the stored save paths.

module Client {
  import opened Wrappers
  import opened Text
  import Detect

  // ---------------------------------------------------------------- the download form

  /** `extractUrl`: the first `https?://` run, ending before whitespace, ']', '`', '\'' or '"'. */
  function ExtractUrl(text: string): (r: Option<string>)
    ensures r.None? <==> forall j: nat :: !Detect.UrlStart(Detect.JavaScript, text, j)
    ensures r.Some? ==> Contains(text, r.value)
    ensures r.Some? ==> StartsWith(r.value, "http://") || StartsWith(r.value, "https://")
    ensures r.Some? ==> forall k | 0 <= k < |r.value| :: !Detect.UrlStop(Detect.JavaScript, r.value[k])
  {
    Detect.FirstHttpRun(Detect.JavaScript, text)
  }

  /** What pressing "download" does with the form's text. */
  datatype Submission =
    | AskForLink        // nothing but whitespace was typed
    | NoLinkFound       // no `http(s)://` run in the text
    | AddTask(url: string, rewritten: bool)  // the link is posted; `rewritten` when the field is replaced

  /**
   * `handleDownloadSubmit`: trim the field; an empty field asks for a link, text without a link
   * is refused, otherwise the extracted link is submitted, replacing the field when it differs.
   */
  function Submit(field: string): (r: Submission)
    ensures r == AskForLink <==> Trim(field, IsJsSpace) == ""
    ensures r == NoLinkFound <==>
      (Trim(field, IsJsSpace) != "" && forall j: nat :: !Detect.UrlStart(Detect.JavaScript, Trim(field, IsJsSpace), j))
    ensures r.AddTask? ==> Contains(Trim(field, IsJsSpace), r.url) && ExtractUrl(Trim(field, IsJsSpace)) == Some(r.url)
    ensures r.AddTask? ==> (r.rewritten <==> r.url != Trim(field, IsJsSpace))
  {
    var url := Trim(field, IsJsSpace);
    if url == "" then AskForLink
    else
      match ExtractUrl(url)
      case None => NoLinkFound
      case Some(u) => AddTask(u, u != url)
  }

  /** The field after a submission: replaced by the extracted link when it was rewritten. */
  function FieldAfter(field: string, r: Submission): string {
    if r.AddTask? && r.rewritten then r.url else field
  }

  /**
   * Submitting again what the form now shows posts the same link and leaves the field alone:
   * an extracted link is already clean.
   */
  lemma ResubmitIsStable(field: string)
    requires Submit(field).AddTask?
    ensures var again := Submit(FieldAfter(field, Submit(field)));
      again == AddTask(Submit(field).url, false)
  {
    var t := Trim(field, IsJsSpace);
    var u := Submit(field).url;
    Detect.RunLongEnough(Detect.JavaScript, t);
    Detect.FirstRunOfRun(Detect.JavaScript, u);
    if Submit(field).rewritten {
      assert !IsJsSpace(u[0]) && !IsJsSpace(u[|u| - 1]) by {
        assert !Detect.UrlStop(Detect.JavaScript, u[0]);
        assert !Detect.UrlStop(Detect.JavaScript, u[|u| - 1]);
      }
      TrimFixed(u, IsJsSpace);
    } else {
      TrimIdempotent(field, IsJsSpace);
    }
  }

  // ---------------------------------------------------------------- the task list

  /** The buttons `getActionButtons` draws, in order. */
  datatype Action = Logs | Pause | Cancel | Open | Retry | Delete

  /** `getActionButtons`: the buttons offered for a task in the given status. */
  function ActionButtons(status: string): (r: seq<Action>)
    ensures Retry in r <==> status == "failed" || status == "cancelled"
    ensures Pause in r <==> status == "downloading"
    ensures Cancel in r <==> status == "downloading" || status == "transcoding"
    ensures Open in r <==> status == "completed"
    ensures Delete in r <==> status == "completed" || status == "failed" || status == "cancelled"
    ensures r != [] <==> Logs in r
    ensures r != [] ==> r[0] == Logs
  {
    if status == "downloading" then [Logs, Pause, Cancel]
    else if status == "transcoding" then [Logs, Cancel]
    else if status == "completed" then [Logs, Open, Delete]
    else if status == "failed" || status == "cancelled" then [Logs, Retry, Delete]
    else []
  }

  /** A badge's colour class and caption. */
  datatype Badge = Badge(tone: string, caption: string)

  /** `getStatusBadge`: the badge of a known status; an unknown one (e.g. "paused") gets none. */
  function StatusBadge(status: string): (r: Option<Badge>)
    ensures r.Some? <==> status in {"pending", "downloading", "transcoding", "completed", "failed", "cancelled"}
    ensures r.Some? && r.value.tone == "bg-danger" <==> status == "failed"
    ensures r.Some? && r.value.tone == "bg-success" <==> status == "completed"
  {
    if status == "pending" then Some(Badge("bg-secondary", "等待中"))
    else if status == "downloading" then Some(Badge("bg-info", "下载中"))
    else if status == "transcoding" then Some(Badge("bg-warning", "转码中"))
    else if status == "completed" then Some(Badge("bg-success", "已完成"))
    else if status == "failed" then Some(Badge("bg-danger", "下载失败"))
    else if status == "cancelled" then Some(Badge("bg-secondary", "已取消"))
    else None
  }

  /** The progress-bar condition of `displayTasks`. */
  predicate ShowsProgressBar(status: string) {
    status == "downloading" || status == "transcoding"
  }

  /**
   * The three renderings agree: a task with a progress bar can be cancelled, a task with buttons
   * has a badge, and a paused task shows no badge, no bar and no button at all.
   */
  lemma RowIsConsistent(status: string)
    ensures ShowsProgressBar(status) <==> Cancel in ActionButtons(status)
    ensures ActionButtons(status) != [] ==> StatusBadge(status).Some?
    ensures status == "paused" ==> StatusBadge(status).None? && !ShowsProgressBar(status) && ActionButtons(status) == []
  {
  }

  // ---------------------------------------------------------------- the library tree

  /** The fields of a stored video record the tree reads. */
  datatype Video = Video(id: string, savePath: Option<string>)

  /** A tree node: a file leaf holding its video, or a folder of named children. */
  datatype Node = File(video: Video, fullPath: string) | Folder(children: map<string, Node>)

  type Tree = map<string, Node>

  /**
   * `savePath.replace(storagePath, '')`: JavaScript's string `replace` removes the FIRST
   * occurrence of the storage path wherever it is, not only a leading one.
   */
  function RemoveFirst(s: string, sub: string): (r: string)
    ensures !Contains(s, sub) ==> r == s
    ensures Contains(s, sub) ==> |r| + |sub| == |s|
    ensures Contains(s, sub) ==>
      exists i: nat | OccursAt(s, sub, i) && (forall j: nat | j < i :: !OccursAt(s, sub, j)) ::
        r == s[..i] + s[i + |sub|..]
  {
    match IndexOf(s, sub, 0)
    case None => s
    case Some(i) => s[..i] + s[i + |sub|..]
  }

  /** The path components of a save path below the storage directory. */
  function TreePath(savePath: string, storagePath: string): (r: seq<string>)
    ensures |r| >= 1
  {
    var relative := RemoveFirst(savePath, storagePath);
    var trimmed := if |relative| > 0 && relative[0] == '/' then relative[1..] else relative;
    Split(trimmed, '/')
  }

  /** A save path under the storage directory loses exactly the directory and its separator. */
  lemma TreePathUnderStorage(savePath: string, storagePath: string)
    requires StartsWith(savePath, storagePath + "/")
    ensures TreePath(savePath, storagePath) == Split(savePath[|storagePath| + 1..], '/')
  {
    assert OccursAt(savePath, storagePath, 0) by {
      assert savePath[..|storagePath|] == (storagePath + "/")[..|storagePath|];
    }
    assert IndexOf(savePath, storagePath, 0) == Some(0);
    var relative := savePath[|storagePath|..];
    assert RemoveFirst(savePath, storagePath) == relative;
    assert relative[0] == '/' by {
      assert savePath[|storagePath|] == (storagePath + "/")[|storagePath|];
    }
    assert relative[1..] == savePath[|storagePath| + 1..];
  }

  /** The storage path is removed where it first occurs, even in the middle of the save path. */
  lemma StoragePathRemovedMidway()
    ensures RemoveFirst("x/s/a", "s") == "x//a"
  {
    var s := "x/s/a";
    assert OccursAt(s, "s", 2) by { assert s[2..3] == "s"; }
    assert !OccursAt(s, "s", 0) by { assert s[0..1] == "x"; }
    assert !OccursAt(s, "s", 1) by { assert s[1..2] == "/"; }
    assert IndexOf(s, "s", 0) == Some(2);
  }

  /**
   * One step of the `path.forEach` walk. A missing component becomes a file (last) or a new
   * folder entered (not last); an existing folder is entered; an existing file in the middle of
   * the path is stepped over WITHOUT descending, so the rest of the path lands at the same
   * level; an existing node at the last component is left as it is.
   */
  function Insert(tree: Tree, path: seq<string>, leaf: Node): (r: Tree)
    ensures tree.Keys <= r.Keys
    ensures forall k | k in r.Keys - tree.Keys :: k in path
    decreases |path|
  {
    if |path| == 0 then tree
    else
      var part := path[0];
      var isLast := |path| == 1;
      if part !in tree then
        if isLast then tree[part := leaf]
        else tree[part := Folder(Insert(map[], path[1..], leaf))]
      else if isLast then tree
      else
        match tree[part]
        case Folder(children) => tree[part := Folder(Insert(children, path[1..], leaf))]
        case File(_, _) => Insert(tree, path[1..], leaf)
  }

  /** The node reached by following `p` from the root, if every step but the last is a folder. */
  function Lookup(tree: Tree, p: seq<string>): Option<Node>
    decreases |p|
  {
    if |p| == 0 || p[0] !in tree then None
    else if |p| == 1 then Some(tree[p[0]])
    else
      match tree[p[0]]
      case Folder(children) => Lookup(children, p[1..])
      case File(_, _) => None
  }

  /** Adds one video: skipped when its save path is empty or missing. */
  function AddVideo(tree: Tree, v: Video, storagePath: string): Tree {
    if !Truthy(v.savePath) then tree
    else Insert(tree, TreePath(v.savePath.value, storagePath), File(v, v.savePath.value))
  }

  /** `buildTreeData`: the videos added in list order. */
  function BuildTree(videos: seq<Video>, storagePath: string): Tree
    decreases |videos|
  {
    if |videos| == 0 then map[]
    else AddVideo(BuildTree(videos[..|videos| - 1], storagePath), videos[|videos| - 1], storagePath)
  }

  /** Inserting never replaces a file leaf that is already reachable. */
  lemma {:induction false} LeafPersists(tree: Tree, path: seq<string>, leaf: Node, p: seq<string>)
    requires Lookup(tree, p).Some? && Lookup(tree, p).value.File?
    ensures Lookup(Insert(tree, path, leaf), p) == Lookup(tree, p)
    decreases |path|
  {
    if |path| == 0 {
    } else {
      var part := path[0];
      if part !in tree {
        assert p[0] != part;
      } else if |path| == 1 {
      } else {
        match tree[part]
        case Folder(children) =>
          if p[0] == part {
            LeafPersists(children, path[1..], leaf, p[1..]);
          }
        case File(_, _) =>
          LeafPersists(tree, path[1..], leaf, p);
      }
    }
  }

  /** A path whose first component is new is built as folders ending in the leaf. */
  lemma {:induction false} FreshPathPlaced(tree: Tree, path: seq<string>, leaf: Node)
    requires |path| >= 1 && path[0] !in tree
    ensures Lookup(Insert(tree, path, leaf), path) == Some(leaf)
    ensures forall k | 1 <= k < |path| ::
      (Lookup(Insert(tree, path, leaf), path[..k]).Some? && Lookup(Insert(tree, path, leaf), path[..k]).value.Folder?)
    decreases |path|
  {
    var r := Insert(tree, path, leaf);
    if |path| > 1 {
      var sub := Insert(map[], path[1..], leaf);
      FreshPathPlaced(map[], path[1..], leaf);
      assert r[path[0]] == Folder(sub);
      assert Lookup(r, path) == Lookup(sub, path[1..]);
      forall k | 1 <= k < |path|
        ensures Lookup(r, path[..k]).Some? && Lookup(r, path[..k]).value.Folder?
      {
        if k > 1 {
          assert path[..k][1..] == path[1..][..k - 1];
          assert Lookup(r, path[..k]) == Lookup(sub, path[1..][..k - 1]);
        }
      }
    }
  }

  /** Adding one more video to the list is one more `AddVideo` step. */
  lemma BuildTreeStep(videos: seq<Video>, v: Video, storagePath: string)
    ensures BuildTree(videos + [v], storagePath) == AddVideo(BuildTree(videos, storagePath), v, storagePath)
  {
    assert (videos + [v])[..|videos|] == videos;
  }

  /** Videos added after a leaf is placed leave it holding the same video. */
  lemma {:induction false} LeafSurvivesLaterVideos(earlier: seq<Video>, later: seq<Video>, storagePath: string, p: seq<string>)
    requires Lookup(BuildTree(earlier, storagePath), p).Some? && Lookup(BuildTree(earlier, storagePath), p).value.File?
    ensures Lookup(BuildTree(earlier + later, storagePath), p) == Lookup(BuildTree(earlier, storagePath), p)
    decreases |later|
  {
    if |later| == 0 {
      assert earlier + later == earlier;
    } else {
      var init := later[..|later| - 1];
      var v := later[|later| - 1];
      assert earlier + later == (earlier + init) + [v];
      LeafSurvivesLaterVideos(earlier, init, storagePath, p);
      var before := BuildTree(earlier + init, storagePath);
      BuildTreeStep(earlier + init, v, storagePath);
      if Truthy(v.savePath) {
        LeafPersists(before, TreePath(v.savePath.value, storagePath), File(v, v.savePath.value), p);
      }
    }
  }

  /**
   * The first video in the list wins its leaf: whatever follows, including videos with the same
   * save path, the node at its path holds it.
   */
  lemma FirstVideoWins(v: Video, later: seq<Video>, storagePath: string)
    requires Truthy(v.savePath)
    ensures Lookup(BuildTree([v] + later, storagePath), TreePath(v.savePath.value, storagePath))
      == Some(File(v, v.savePath.value))
  {
    var path := TreePath(v.savePath.value, storagePath);
    assert [v][..0] == [];
    assert BuildTree([v], storagePath) == Insert(map[], path, File(v, v.savePath.value));
    FreshPathPlaced(map[], path, File(v, v.savePath.value));
    LeafSurvivesLaterVideos([v], later, storagePath, path);
  }

  /** Videos without a save path contribute nothing: a list of only those gives an empty tree. */
  lemma {:induction false} PathlessVideosSkipped(videos: seq<Video>, storagePath: string)
    requires forall i | 0 <= i < |videos| :: !Truthy(videos[i].savePath)
    ensures BuildTree(videos, storagePath) == map[]
    decreases |videos|
  {
    if |videos| > 0 {
      PathlessVideosSkipped(videos[..|videos| - 1], storagePath);
    }
  }

  /**
   * A file standing where a folder is needed is stepped over: the rest of the path is placed
   * beside it at the same level rather than under it.
   */
  lemma FileInTheWayFlattens(a: Video, b: Video)
    ensures Insert(map["x" := File(a, "x")], ["x", "y"], File(b, "x/y"))
      == map["x" := File(a, "x"), "y" := File(b, "x/y")]
  {
    var t := map["x" := File(a, "x")];
    assert ["x", "y"][1..] == ["y"];
    assert Insert(t, ["x", "y"], File(b, "x/y")) == Insert(t, ["y"], File(b, "x/y"));
  }
}

=== FILE: detect.dfy ===
/**
 * Which platform a link belongs to, as each part of the system decides it, and how a pasted link
 * is cleaned and checked before any request:
 *  - the parsers' first-match regular-expression tables (backend/core/video_downloader.py and the
 *    older video_downloader.py that app.py imports), with their video-type rules;
 *  - the scraper's substring dispatch (backend/core/video_scraper.py);
 *  - `create_task`'s substring classification (app.py);
 *  - `_clean_url` and the browser's `extractUrl`, which share one pattern up to the stop set;
 *  - `urlparse`'s scheme and host split behind `_is_valid_url`;
 *  - the guards of both `parse_video_info` versions, with the page fetch as a parameter.
 */
module Detect {
  import opened Wrappers
  import opened Text

  datatype Platform = Bilibili | Douyin | Toutiao

  /** The platform's name as the source stores it. */
  function Name(p: Platform): (n: string)
    ensures n in {"bilibili", "douyin", "toutiao"}
  {
    match p
    case Bilibili => "bilibili"
    case Douyin => "douyin"
    case Toutiao => "toutiao"
  }

  /** Position of the platform in the parsers' pattern tables: bilibili, douyin, toutiao. */
  function Rank(p: Platform): nat {
    match p
    case Bilibili => 0
    case Douyin => 1
    case Toutiao => 2
  }

  // ---------------------------------------------------------------- the parsers' patterns

  /** `re.search(lit + "([class]+)", s)` for a literal `lit`: the literal followed by at least one class character. */
  predicate LiteralThenRun(s: string, lit: string, cls: char -> bool) {
    exists i: nat | i < |s| :: OccursAt(s, lit, i) && i + |lit| < |s| && cls(s[i + |lit|])
  }

  predicate BilibiliVideoPatterns(url: string) {
    || LiteralThenRun(url, "b23.tv/", IsAsciiAlnum)
    || LiteralThenRun(url, "bilibili.com/video/", IsAsciiAlnum)
    || LiteralThenRun(url, "bilibili.com/video/BV", IsAsciiAlnum)
  }

  predicate BangumiPattern(url: string) {
    LiteralThenRun(url, "bilibili.com/bangumi/play/ep", IsAsciiDigit)
  }

  predicate DouyinPatterns(url: string) {
    LiteralThenRun(url, "v.douyin.com/", IsAsciiAlnum) || LiteralThenRun(url, "douyin.com/video/", IsAsciiDigit)
  }

  predicate ToutiaoPatterns(url: string) {
    LiteralThenRun(url, "m.toutiao.com/is/", IsAsciiAlnum) || LiteralThenRun(url, "toutiao.com/video/", IsAsciiDigit)
  }

  /** Some pattern of `p` in the backend parser's table matches. */
  predicate Matches(p: Platform, url: string) {
    match p
    case Bilibili => BilibiliVideoPatterns(url) || BangumiPattern(url)
    case Douyin => DouyinPatterns(url)
    case Toutiao => ToutiaoPatterns(url)
  }

  /** Some pattern of `p` in the older parser's table matches; that table has no bangumi pattern. */
  predicate MatchesRoot(p: Platform, url: string) {
    match p
    case Bilibili => BilibiliVideoPatterns(url)
    case Douyin => DouyinPatterns(url)
    case Toutiao => ToutiaoPatterns(url)
  }

  /** Backend `detect_platform`: the first platform in table order with a matching pattern. */
  function DetectPlatform(url: string): (r: Option<Platform>)
    ensures r.Some? ==> Matches(r.value, url)
    ensures r.Some? ==> forall q: Platform | Rank(q) < Rank(r.value) :: !Matches(q, url)
    ensures r.None? <==> forall q: Platform :: !Matches(q, url)
  {
    if Matches(Bilibili, url) then Some(Bilibili)
    else if Matches(Douyin, url) then Some(Douyin)
    else if Matches(Toutiao, url) then Some(Toutiao)
    else None
  }

  /** Root `detect_platform`: the same first-match rule over the older table. */
  function DetectPlatformRoot(url: string): (r: Option<Platform>)
    ensures r.Some? ==> MatchesRoot(r.value, url)
    ensures r.Some? ==> forall q: Platform | Rank(q) < Rank(r.value) :: !MatchesRoot(q, url)
    ensures r.None? <==> forall q: Platform :: !MatchesRoot(q, url)
  {
    if MatchesRoot(Bilibili, url) then Some(Bilibili)
    else if MatchesRoot(Douyin, url) then Some(Douyin)
    else if MatchesRoot(Toutiao, url) then Some(Toutiao)
    else None
  }

  /** The two parsers disagree only on bangumi episode links, which only the backend recognises. */
  lemma ParsersDifferOnlyOnBangumi(url: string)
    ensures DetectPlatform(url) != DetectPlatformRoot(url) ==>
      DetectPlatform(url) == Some(Bilibili) && BangumiPattern(url) && !BilibiliVideoPatterns(url)
  {
  }

  /** A bangumi episode link: the backend parser takes it, the older parser rejects it. */
  lemma BangumiOnlyInBackend(url: string)
    requires url == "bilibili.com/bangumi/play/ep1"
    ensures DetectPlatform(url) == Some(Bilibili)
    ensures DetectPlatformRoot(url) == None
  {
    BangumiLinkMatches();
    forall k | 0 <= k < |url| ensures url[k] != '2' && url[k] != 'v' && url[k] != 't' {}
    AbsentCharNoRun(url, "b23.tv/", IsAsciiAlnum, 1);
    AbsentCharNoRun(url, "bilibili.com/video/", IsAsciiAlnum, 13);
    AbsentCharNoRun(url, "bilibili.com/video/BV", IsAsciiAlnum, 13);
    AbsentCharNoRun(url, "v.douyin.com/", IsAsciiAlnum, 0);
    AbsentCharNoRun(url, "douyin.com/video/", IsAsciiDigit, 11);
    AbsentCharNoRun(url, "m.toutiao.com/is/", IsAsciiAlnum, 2);
    AbsentCharNoRun(url, "toutiao.com/video/", IsAsciiDigit, 0);
  }

  /** A literal holding a character the text lacks never matches in it. */
  lemma AbsentCharNoRun(s: string, lit: string, cls: char -> bool, j: nat)
    requires j < |lit| && forall k | 0 <= k < |s| :: s[k] != lit[j]
    ensures !LiteralThenRun(s, lit, cls)
  {
    forall i: nat | i + |lit| <= |s|
      ensures !OccursAt(s, lit, i)
    {
      assert s[i..i + |lit|][j] == s[i + j] != lit[j];
    }
  }

  /** The episode link is the bangumi literal followed by a digit. */
  lemma BangumiLinkMatches()
    ensures BangumiPattern("bilibili.com/bangumi/play/ep1")
  {
    var lit := "bilibili.com/bangumi/play/ep";
    var url := lit + "1";
    assert url == "bilibili.com/bangumi/play/ep1";
    assert url[..|lit|] == lit;
    LiteralThenRunAt(url, lit, IsAsciiDigit, 0);
  }

  lemma LiteralThenRunAt(s: string, lit: string, cls: char -> bool, i: nat)
    requires OccursAt(s, lit, i) && i + |lit| < |s| && cls(s[i + |lit|])
    ensures LiteralThenRun(s, lit, cls)
  {
  }


  const ShortVideo: string := "短视频"
  const Drama: string := "影视剧"
  const Bangumi: string := "番剧"

  /** Backend `detect_video_type`: only bilibili links are told apart, BV first, then medialist, then bangumi. */
  function VideoType(url: string, platform: string): (t: string)
    ensures t in {ShortVideo, Drama, Bangumi}
    ensures platform != "bilibili" ==> t == ShortVideo
    ensures t == Drama <==> platform == "bilibili" && !Contains(url, "bilibili.com/video/BV") && Contains(url, "bilibili.com/medialist")
    ensures t == Bangumi <==> (platform == "bilibili" && !Contains(url, "bilibili.com/video/BV")
      && !Contains(url, "bilibili.com/medialist") && Contains(url, "bilibili.com/bangumi"))
  {
    if platform != "bilibili" then ShortVideo
    else if Contains(url, "bilibili.com/video/BV") then ShortVideo
    else if Contains(url, "bilibili.com/medialist") then Drama
    else if Contains(url, "bilibili.com/bangumi") then Bangumi
    else ShortVideo
  }

  /** Root `detect_video_type`: only a bilibili medialist link without 'video/BV' is a drama. */
  function VideoTypeRoot(url: string, platform: string): (t: string)
    ensures t in {ShortVideo, Drama}
    ensures t == Drama <==> platform == "bilibili" && !Contains(url, "bilibili.com/video/BV") && Contains(url, "bilibili.com/medialist")
  {
    if platform == "bilibili" && !Contains(url, "bilibili.com/video/BV") && Contains(url, "bilibili.com/medialist") then Drama
    else ShortVideo
  }

  /** The two type rules differ exactly where the backend says bangumi. */
  lemma VideoTypesDifferOnlyOnBangumi(url: string, platform: string)
    ensures VideoType(url, platform) != VideoTypeRoot(url, platform) <==> VideoType(url, platform) == Bangumi
    ensures VideoType(url, platform) == Bangumi ==> VideoTypeRoot(url, platform) == ShortVideo
  {
  }

  // ---------------------------------------------------------------- substring classifications

  /** The scraper's `_detect_platform`: substring tests, bilibili (or a b23.tv short link) first. */
  function ScraperPlatform(url: string): (r: Option<Platform>)
    ensures r == Some(Bilibili) <==> Contains(url, "bilibili.com") || Contains(url, "b23.tv")
    ensures r == Some(Douyin) <==> !Contains(url, "bilibili.com") && !Contains(url, "b23.tv") && Contains(url, "douyin.com")
    ensures r == Some(Toutiao) <==> (!Contains(url, "bilibili.com") && !Contains(url, "b23.tv")
      && !Contains(url, "douyin.com") && Contains(url, "toutiao.com"))
    ensures r.None? <==> (!Contains(url, "bilibili.com") && !Contains(url, "b23.tv")
      && !Contains(url, "douyin.com") && !Contains(url, "toutiao.com"))
  {
    if Contains(url, "bilibili.com") || Contains(url, "b23.tv") then Some(Bilibili)
    else if Contains(url, "douyin.com") then Some(Douyin)
    else if Contains(url, "toutiao.com") then Some(Toutiao)
    else None
  }

  /**
   * `create_task`'s classification: 'douyin' first (the 'v.douyin.com' test adds nothing, as
   * that text contains 'douyin.com'), then 'bilibili', then 'toutiao', else 'unknown'.
   */
  function CreatePlatform(url: string): (p: string)
    ensures p in {"douyin", "bilibili", "toutiao", "unknown"}
    ensures p == "douyin" <==> Contains(url, "douyin.com")
    ensures p == "bilibili" <==> !Contains(url, "douyin.com") && Contains(url, "bilibili.com")
    ensures p == "toutiao" <==> !Contains(url, "douyin.com") && !Contains(url, "bilibili.com") && Contains(url, "toutiao.com")
  {
    if Contains(url, "douyin.com") || Contains(url, "v.douyin.com") then
      assert Contains(url, "v.douyin.com") ==> Contains(url, "douyin.com") by {
        if Contains(url, "v.douyin.com") {
          var i: nat :| i <= |url| && OccursAt(url, "v.douyin.com", i);
          OccursInside(url, "v.douyin.com", i, "douyin.com", 2);
        }
      }
      "douyin"
    else if Contains(url, "bilibili.com") then "bilibili"
    else if Contains(url, "toutiao.com") then "toutiao"
    else "unknown"
  }

  /** An occurrence of `lit` carries along every occurrence inside `lit`. */
  lemma OccursInside(s: string, lit: string, i: nat, sub: string, j: nat)
    requires OccursAt(s, lit, i) && OccursAt(lit, sub, j)
    ensures Contains(s, sub)
  {
    var w := s[i..i + |lit|];
    var v := s[i + j..i + j + |sub|];
    forall m | 0 <= m < |sub|
      ensures v[m] == sub[m]
    {
      assert v[m] == s[i + j + m] == w[j + m];
      assert sub[m] == lit[j..j + |sub|][m] == lit[j + m];
    }
    assert v == sub;
    assert OccursAt(s, sub, i + j);
  }

  /** Each pattern's literal contains the host the scraper looks for. */
  lemma HostsInsidePatterns()
    ensures OccursAt("b23.tv/", "b23.tv", 0)
    ensures OccursAt("bilibili.com/video/", "bilibili.com", 0)
    ensures OccursAt("bilibili.com/video/BV", "bilibili.com", 0)
    ensures OccursAt("bilibili.com/bangumi/play/ep", "bilibili.com", 0)
    ensures OccursAt("v.douyin.com/", "douyin.com", 2)
    ensures OccursAt("douyin.com/video/", "douyin.com", 0)
    ensures OccursAt("m.toutiao.com/is/", "toutiao.com", 2)
    ensures OccursAt("toutiao.com/video/", "toutiao.com", 0)
  {
    assert "b23.tv/"[0..6] == "b23.tv";
    assert "bilibili.com/video/"[0..12] == "bilibili.com";
    assert "bilibili.com/video/BV"[0..12] == "bilibili.com";
    assert "bilibili.com/bangumi/play/ep"[0..12] == "bilibili.com";
    assert "v.douyin.com/"[2..12] == "douyin.com";
    assert "douyin.com/video/"[0..10] == "douyin.com";
    assert "m.toutiao.com/is/"[2..13] == "toutiao.com";
    assert "toutiao.com/video/"[0..11] == "toutiao.com";
  }

  lemma LiteralRunContains(s: string, lit: string, cls: char -> bool, sub: string, j: nat)
    requires LiteralThenRun(s, lit, cls) && OccursAt(lit, sub, j)
    ensures Contains(s, sub)
  {
    var i: nat :| i < |s| && OccursAt(s, lit, i) && i + |lit| < |s| && cls(s[i + |lit|]);
    OccursInside(s, lit, i, sub, j);
  }

  /**
   * Once the backend parser accepts a link, the scraper it hands the link to recognises a platform
   * too, so the scraper's own 'unsupported platform' error cannot fire on that path; and a link the
   * parser calls bilibili the scraper calls bilibili.
   */
  lemma ParserAcceptedScraperDefined(url: string)
    requires DetectPlatform(url).Some?
    ensures ScraperPlatform(url).Some?
    ensures DetectPlatform(url) == Some(Bilibili) ==> ScraperPlatform(url) == Some(Bilibili)
  {
    HostsInsidePatterns();
    if LiteralThenRun(url, "b23.tv/", IsAsciiAlnum) {
      LiteralRunContains(url, "b23.tv/", IsAsciiAlnum, "b23.tv", 0);
    } else if LiteralThenRun(url, "bilibili.com/video/", IsAsciiAlnum) {
      LiteralRunContains(url, "bilibili.com/video/", IsAsciiAlnum, "bilibili.com", 0);
    } else if LiteralThenRun(url, "bilibili.com/video/BV", IsAsciiAlnum) {
      LiteralRunContains(url, "bilibili.com/video/BV", IsAsciiAlnum, "bilibili.com", 0);
    } else if BangumiPattern(url) {
      LiteralRunContains(url, "bilibili.com/bangumi/play/ep", IsAsciiDigit, "bilibili.com", 0);
    } else if LiteralThenRun(url, "v.douyin.com/", IsAsciiAlnum) {
      LiteralRunContains(url, "v.douyin.com/", IsAsciiAlnum, "douyin.com", 2);
    } else if LiteralThenRun(url, "douyin.com/video/", IsAsciiDigit) {
      LiteralRunContains(url, "douyin.com/video/", IsAsciiDigit, "douyin.com", 0);
    } else if LiteralThenRun(url, "m.toutiao.com/is/", IsAsciiAlnum) {
      LiteralRunContains(url, "m.toutiao.com/is/", IsAsciiAlnum, "toutiao.com", 2);
    } else {
      LiteralRunContains(url, "toutiao.com/video/", IsAsciiDigit, "toutiao.com", 0);
    }
  }

  /** A link `create_task` files under bilibili is scraped as bilibili. */
  lemma CreateBilibiliScrapedAsBilibili(url: string)
    requires CreatePlatform(url) == "bilibili"
    ensures ScraperPlatform(url) == Some(Bilibili)
  {
  }

  // ---------------------------------------------------------------- pulling a link out of pasted text

  /** Which language's `\s` and stop set the link pattern uses. */
  datatype Dialect = Python | JavaScript

  /**
   * A character that ends the link run: Python's `[^\s\]\)`'"]` and JavaScript's
   * ``[^\s\]`'"]``, which does not stop at ')'.
   */
  predicate UrlStop(d: Dialect, c: char) {
    match d
    case Python => IsPySpace(c) || c == ']' || c == ')' || c == '`' || c == '\'' || c == '"'
    case JavaScript => IsJsSpace(c) || c == ']' || c == '`' || c == '\'' || c == '"'
  }

  /** `https?://` followed by at least one run character matches at `i`. */
  predicate UrlStart(d: Dialect, s: string, i: nat) {
    || (OccursAt(s, "https://", i) && i + 8 < |s| && !UrlStop(d, s[i + 8]))
    || (OccursAt(s, "http://", i) && i + 7 < |s| && !UrlStop(d, s[i + 7]))
  }

  /** Where the run starting at `j` ends: the first stop character at or after `j`, or the end. */
  function RunEnd(d: Dialect, s: string, j: nat): (k: nat)
    requires j <= |s|
    ensures j <= k <= |s|
    ensures k < |s| ==> UrlStop(d, s[k])
    ensures forall m | j <= m < k :: !UrlStop(d, s[m])
    decreases |s| - j
  {
    if j == |s| || UrlStop(d, s[j]) then j else RunEnd(d, s, j + 1)
  }

  /** The leftmost match position at or after `from`. */
  function FirstUrlStart(d: Dialect, s: string, from: nat): (r: Option<nat>)
    ensures r.Some? ==> from <= r.value < |s| && UrlStart(d, s, r.value)
    ensures r.Some? ==> forall j | from <= j < r.value :: !UrlStart(d, s, j)
    ensures r.None? ==> forall j | from <= j :: !UrlStart(d, s, j)
    decreases |s| - from
  {
    if from >= |s| then None
    else if UrlStart(d, s, from) then Some(from)
    else FirstUrlStart(d, s, from + 1)
  }

  /**
   * The group of the first `re.search` / `String.match` of `(https?://[^stop]+)`: the leftmost
   * start, extended greedily to the first stop character.
   */
  function FirstHttpRun(d: Dialect, s: string): (r: Option<string>)
    ensures r.None? <==> forall j: nat :: !UrlStart(d, s, j)
    ensures r.Some? ==> exists i: nat | i < |s| :: (UrlStart(d, s, i)
      && (forall j: nat | j < i :: !UrlStart(d, s, j))
      && r.value == s[i..RunEnd(d, s, i)])
    ensures r.Some? ==> StartsWith(r.value, "http://") || StartsWith(r.value, "https://")
    ensures r.Some? ==> forall k | 0 <= k < |r.value| :: !UrlStop(d, r.value[k])
    ensures r.Some? ==> Contains(s, r.value)
  {
    match FirstUrlStart(d, s, 0)
    case None => None
    case Some(i) =>
      RunFacts(d, s, i);
      assert forall j: nat | j < i :: !UrlStart(d, s, j);
      Some(s[i..RunEnd(d, s, i)])
  }

  /** The run from a match position starts with its scheme, holds no stop character and lies in `s`. */
  lemma RunFacts(d: Dialect, s: string, i: nat)
    requires i < |s| && UrlStart(d, s, i)
    ensures var u := s[i..RunEnd(d, s, i)];
      && (StartsWith(u, "http://") || StartsWith(u, "https://"))
      && (forall k | 0 <= k < |u| :: !UrlStop(d, u[k]))
      && Contains(s, u)
  {
    var k := RunEnd(d, s, i);
    var u := s[i..k];
    RunPastScheme(d, s, i);
    assert OccursAt(s, u, i);
    if OccursAt(s, "https://", i) {
      assert u[..8] == s[i..i + 8];
    } else {
      assert u[..7] == s[i..i + 7];
    }
    forall m | 0 <= m < |u|
      ensures !UrlStop(d, u[m])
    {
      assert u[m] == s[i + m];
    }
  }

  /** `_clean_url`: trim, then the first link in the text, or the trimmed text when there is none. */
  function CleanUrl(url: string): (r: string)
    ensures FirstHttpRun(Python, Trim(url, IsPySpace)).Some? ==> r == FirstHttpRun(Python, Trim(url, IsPySpace)).value
    ensures FirstHttpRun(Python, Trim(url, IsPySpace)).None? ==> r == Trim(url, IsPySpace)
  {
    var t := Trim(url, IsPySpace);
    match FirstHttpRun(Python, t)
    case Some(u) => u
    case None => t
  }

  /** Containment is transitive: text inside text inside `s` is inside `s`. */
  lemma ContainsTransitive(s: string, mid: string, sub: string)
    requires Contains(s, mid) && Contains(mid, sub)
    ensures Contains(s, sub)
  {
    var i: nat :| i <= |s| && OccursAt(s, mid, i);
    var j: nat :| j <= |mid| && OccursAt(mid, sub, j);
    OccursInside(s, mid, i, sub, j);
  }

  /** The cleaned link is a piece of the text it was cleaned from. */
  lemma CleanUrlInside(url: string)
    ensures Contains(url, CleanUrl(url))
  {
    var t := Trim(url, IsPySpace);
    var a, b :| 0 <= a <= b <= |url| && t == url[a..b];
    assert OccursAt(url, t, a);
    match FirstHttpRun(Python, t)
    case Some(u) => ContainsTransitive(url, t, u);
    case None =>
  }

  /** The scheme text of a match holds no stop character, so the run reaches past it. */
  lemma RunPastScheme(d: Dialect, s: string, i: nat)
    requires UrlStart(d, s, i)
    ensures OccursAt(s, "https://", i) && i + 8 < |s| && !UrlStop(d, s[i + 8]) ==> RunEnd(d, s, i) > i + 8
    ensures RunEnd(d, s, i) > i + 7
  {
    var lit := if OccursAt(s, "https://", i) && i + 8 < |s| && !UrlStop(d, s[i + 8]) then "https://" else "http://";
    forall m | i <= m <= i + |lit|
      ensures !UrlStop(d, s[m])
    {
      if m < i + |lit| {
        assert s[m] == s[i..i + |lit|][m - i] == lit[m - i];
      }
    }
    RunEndBeyond(d, s, i, i + |lit|);
  }

  lemma {:induction false} RunEndBeyond(d: Dialect, s: string, j: nat, k: nat)
    requires j <= k < |s|
    requires forall m | j <= m <= k :: !UrlStop(d, s[m])
    ensures RunEnd(d, s, j) > k
    decreases k - j
  {
    if j < k {
      RunEndBeyond(d, s, j + 1, k);
    }
  }

  lemma {:induction false} RunEndAt(d: Dialect, s: string, j: nat, k: nat)
    requires j <= k <= |s|
    requires forall m | j <= m < k :: !UrlStop(d, s[m])
    requires k < |s| ==> UrlStop(d, s[k])
    ensures RunEnd(d, s, j) == k
    decreases k - j
  {
    if j < k {
      RunEndAt(d, s, j + 1, k);
    }
  }

  /** A found link is its own first link: it starts with the scheme and holds no stop character. */
  lemma FirstRunOfRun(d: Dialect, u: string)
    requires StartsWith(u, "http://") || StartsWith(u, "https://")
    requires |u| > 8 || (StartsWith(u, "http://") && |u| > 7)
    requires forall k | 0 <= k < |u| :: !UrlStop(d, u[k])
    ensures FirstHttpRun(d, u) == Some(u)
  {
    assert UrlStart(d, u, 0) by {
      if StartsWith(u, "https://") {
        assert OccursAt(u, "https://", 0);
      } else {
        assert OccursAt(u, "http://", 0);
      }
    }
    assert FirstUrlStart(d, u, 0) == Some(0);
    assert u[0..RunEnd(d, u, 0)] == u;
  }

  /** A found run is long enough to be matched again on its own. */
  lemma RunLongEnough(d: Dialect, s: string)
    requires FirstHttpRun(d, s).Some?
    ensures var u := FirstHttpRun(d, s).value; |u| > 8 || (StartsWith(u, "http://") && |u| > 7)
  {
    var i := FirstUrlStart(d, s, 0).value;
    var k := RunEnd(d, s, i);
    var u := s[i..k];
    RunPastScheme(d, s, i);
    if !(OccursAt(s, "https://", i) && i + 8 < |s| && !UrlStop(d, s[i + 8])) {
      assert u[..7] == s[i..i + 7] == "http://";
    }
  }

  /** Cleaning a cleaned link changes nothing. */
  lemma CleanUrlIdempotent(url: string)
    ensures CleanUrl(CleanUrl(url)) == CleanUrl(url)
  {
    var t := Trim(url, IsPySpace);
    match FirstHttpRun(Python, t)
    case Some(u) =>
      assert CleanUrl(url) == u;
      TrimFixed(u, IsPySpace);
      RunLongEnough(Python, t);
      FirstRunOfRun(Python, u);
    case None =>
      assert CleanUrl(url) == t;
      TrimIdempotent(url, IsPySpace);
  }

  /** Python's link run stops at ')'. */
  lemma PythonRunStopsAtParenthesis()
    ensures FirstHttpRun(Python, "http://a)b") == Some("http://a")
  {
    var s := "http://a)b";
    assert s[0..7] == "http://";
    assert UrlStart(Python, s, 0);
    assert forall m | 0 <= m < 8 :: !UrlStop(Python, s[m]);
    RunEndAt(Python, s, 0, 8);
    assert s[0..8] == "http://a";
  }

  /** The browser's link run does not: the same text yields the whole string. */
  lemma JavaScriptRunCrossesParenthesis()
    ensures FirstHttpRun(JavaScript, "http://a)b") == Some("http://a)b")
  {
    var s := "http://a)b";
    assert s[0..7] == "http://";
    assert UrlStart(JavaScript, s, 0);
    assert forall m | 0 <= m < 10 :: !UrlStop(JavaScript, s[m]);
    RunEndAt(JavaScript, s, 0, 10);
    assert s[0..10] == s;
  }

  // ---------------------------------------------------------------- urlparse's scheme and host

  /** Characters `urlsplit` accepts in a scheme. */
  predicate SchemeChar(c: char) {
    IsAsciiAlnum(c) || c == '+' || c == '-' || c == '.'
  }

  /** `s` without its leading characters up to ' ' (the C0 controls and space). */
  function LeadingC0Stripped(s: string): (r: string)
    ensures |r| <= |s| && r == s[|s| - |r|..]
    ensures |r| > 0 ==> r[0] > ' '
  {
    if |s| > 0 && s[0] <= ' ' then LeadingC0Stripped(s[1..]) else s
  }

  /** `s` with every tab, carriage return and line feed removed. */
  function WithoutTabsAndNewlines(s: string): (r: string)
    ensures forall k | 0 <= k < |r| :: r[k] != '\t' && r[k] != '\r' && r[k] != '\n'
    ensures (forall k | 0 <= k < |s| :: s[k] != '\t' && s[k] != '\r' && s[k] != '\n') ==> r == s
  {
    if |s| == 0 then s
    else if s[0] == '\t' || s[0] == '\r' || s[0] == '\n' then WithoutTabsAndNewlines(s[1..])
    else [s[0]] + WithoutTabsAndNewlines(s[1..])
  }

  /** The text `urlsplit` works on: leading C0 controls and spaces stripped, then tabs and newlines removed. */
  function SplitInput(url: string): (u: string)
    ensures forall k | 0 <= k < |u| :: u[k] != '\t' && u[k] != '\r' && u[k] != '\n'
  {
    WithoutTabsAndNewlines(LeadingC0Stripped(url))
  }

  /** The first index of any of `/`, `?`, `#` at or after `from`, or the length. */
  function NetlocEnd(s: string, from: nat): (k: nat)
    requires from <= |s|
    ensures from <= k <= |s|
    ensures k < |s| ==> s[k] in "/?#"
    ensures forall m | from <= m < k :: s[m] !in "/?#"
    decreases |s| - from
  {
    if from == |s| || s[from] in "/?#" then from else NetlocEnd(s, from + 1)
  }

  /** `urlsplit`'s scheme step: a leading letter and scheme characters up to the first ':', lowercased. */
  function SplitScheme(u: string): (r: (string, string))
    ensures r.0 == "" ==> r.1 == u
    ensures r.0 != "" ==> exists i | 0 < i < |u| + 1 :: IndexOf(u, ":", 0) == Some(i) && r.1 == u[i + 1..]
  {
    var colon := IndexOf(u, ":", 0);
    if colon.Some? && colon.value > 0 && IsAsciiAlpha(u[0])
       && (forall k | 0 <= k < colon.value :: SchemeChar(u[k]))
    then (AsciiLower(u[..colon.value]), u[colon.value + 1..])
    else ("", u)
  }

  /** `urlsplit`'s host step: after '//', the text up to '/', '?' or '#'; an unbalanced bracket raises. */
  function SplitNetloc(rest: string): (r: Result<string, string>)
    ensures r.Err? ==> r.error == "Invalid IPv6 URL"
    ensures r.Ok? && r.value != "" ==> StartsWith(rest, "//")
  {
    if |rest| >= 2 && rest[..2] == "//" then
      var netloc := rest[2..NetlocEnd(rest, 2)];
      if ('[' in netloc) != (']' in netloc) then Err("Invalid IPv6 URL")
      else Ok(netloc)
    else Ok("")
  }

  predicate IsAscii(s: string) {
    forall k | 0 <= k < |s| :: s[k] < 128 as char
  }

  /** The text with every character of `drop` deleted, as chained `str.replace(c, '')` calls do. */
  function Without(s: string, drop: string): (r: string)
    ensures |r| <= |s|
    ensures forall k | 0 <= k < |r| :: r[k] !in drop
    ensures (forall k | 0 <= k < |s| :: s[k] !in drop) ==> r == s
  {
    if |s| == 0 then s
    else if s[0] in drop then Without(s[1..], drop)
    else [s[0]] + Without(s[1..], drop)
  }

  /** `str()` of the ValueError `_checknetloc` raises. */
  function NfkcError(netloc: string): string {
    "netloc '" + netloc + "' contains invalid characters under NFKC normalization"
  }

  /**
   * `_checknetloc`: a host that is not pure ASCII loses its '@', ':', '#' and '?', is normalised
   * with NFKC (a parameter: Unicode's tables are not modelled), and is refused when normalising
   * changed it and brought in any of '/', '?', '#', '@', ':'.
   */
  predicate NetlocRejected(netloc: string, nfkc: string -> string) {
    && !IsAscii(netloc)
    && var n := Without(netloc, "@:#?");
      nfkc(n) != n && exists k | 0 <= k < |nfkc(n)| :: nfkc(n)[k] in "/?#@:"
  }

  /**
   * The scheme and network location `urlsplit` finds, or the error it raises: first for an
   * unbalanced bracket in the host, then for a host that NFKC turns into one holding a delimiter.
   */
  function UrlSplit(url: string, nfkc: string -> string): (r: Result<(string, string), string>)
    ensures var parts := SplitScheme(SplitInput(url));
      var host := SplitNetloc(parts.1);
      && (host.Err? ==> r == Err("Invalid IPv6 URL"))
      && (host.Ok? && NetlocRejected(host.value, nfkc) ==> r == Err(NfkcError(host.value)))
      && (host.Ok? && !NetlocRejected(host.value, nfkc) ==> r == Ok((parts.0, host.value)))
  {
    var (scheme, rest) := SplitScheme(SplitInput(url));
    var netloc :- SplitNetloc(rest);
    if NetlocRejected(netloc, nfkc) then Err(NfkcError(netloc)) else Ok((scheme, netloc))
  }

  /** `_is_valid_url`: `urlparse` succeeds with a non-empty scheme and host. */
  predicate IsValidUrl(url: string, nfkc: string -> string) {
    var r := UrlSplit(url, nfkc);
    r.Ok? && r.value.0 != "" && r.value.1 != ""
  }

  /** `_checknetloc` returns at once for an ASCII host, whatever NFKC does. */
  lemma AsciiHostAccepted(netloc: string, nfkc: string -> string)
    requires IsAscii(netloc)
    ensures !NetlocRejected(netloc, nfkc)
  {
  }

  /**
   * An http(s) link with a non-empty host free of '/', '?', '#' and brackets, followed by nothing
   * or by a path, query or fragment, passes `_is_valid_url` exactly when `_checknetloc` accepts
   * its host, which then is its netloc; otherwise `urlsplit` raises the NFKC error.
   */
  lemma HttpLinkIsValid(scheme: string, host: string, rest: string, nfkc: string -> string)
    requires scheme == "http" || scheme == "https"
    requires |host| > 0
    requires forall k | 0 <= k < |host| :: host[k] !in "/?#[]\t\r\n"
    requires |rest| == 0 || rest[0] in "/?#"
    requires forall k | 0 <= k < |rest| :: rest[k] !in "\t\r\n"
    ensures UrlSplit(scheme + "://" + host + rest, nfkc) ==
      if NetlocRejected(host, nfkc) then Err(NfkcError(host)) else Ok((scheme, host))
    ensures IsValidUrl(scheme + "://" + host + rest, nfkc) <==> !NetlocRejected(host, nfkc)
  {
    var url := scheme + "://" + host + rest;
    LinkUnchangedByCleanup(scheme, host, rest);
    LinkScheme(scheme, host, rest);
    NetlocOfLink(host, rest);
    UrlSplitSteps(url, scheme, "//" + host + rest, host, nfkc);
  }

  /** NFKC maps the fullwidth colon U+FF1A to ':', so `_checknetloc` refuses a host typed with it. */
  lemma FullwidthColonRejected(nfkc: string -> string)
    requires nfkc("a\U{FF1A}b") == "a:b"
    ensures NetlocRejected("a\U{FF1A}b", nfkc)
  {
    var host := "a\U{FF1A}b";
    assert !(host[1] < 128 as char);
    assert Without(host, "@:#?") == host by {
      forall k | 0 <= k < |host| ensures host[k] !in "@:#?" {}
    }
    assert nfkc(host)[1] == ':';
  }

  /**
   * So `urlsplit` raises for an https link with that host, and `_is_valid_url` refuses it, although
   * the host holds no ASCII delimiter.
   */
  lemma FullwidthColonHostInvalid(host: string, rest: string, nfkc: string -> string)
    requires host == "a\U{FF1A}b" && rest == "/x" && nfkc(host) == "a:b"
    ensures UrlSplit("https" + "://" + host + rest, nfkc) == Err(NfkcError(host))
    ensures !IsValidUrl("https" + "://" + host + rest, nfkc)
  {
    FullwidthColonRejected(nfkc);
    FullwidthLinkShape(host, rest);
    HttpLinkIsValid("https", host, rest, nfkc);
  }

  lemma FullwidthLinkShape(host: string, rest: string)
    requires host == "a\U{FF1A}b" && rest == "/x"
    ensures forall k | 0 <= k < |host| :: host[k] !in "/?#[]\t\r\n"
    ensures forall k | 0 <= k < |rest| :: rest[k] !in "\t\r\n"
  {
  }

  /** `urlsplit`'s clean-up steps leave such a link as it is. */
  lemma LinkUnchangedByCleanup(scheme: string, host: string, rest: string)
    requires scheme == "http" || scheme == "https"
    requires forall k | 0 <= k < |host| :: host[k] !in "/?#[]\t\r\n"
    requires forall k | 0 <= k < |rest| :: rest[k] !in "\t\r\n"
    ensures var url := scheme + "://" + host + rest;
      WithoutTabsAndNewlines(LeadingC0Stripped(url)) == url
  {
    var url := scheme + "://" + host + rest;
    LinkHasNoTabs(scheme, host, rest);
    assert url[0] == scheme[0] == 'h';
    NothingToRemove(url);
  }

  /** The scheme of such a link is split off at its first ':'. */
  lemma LinkScheme(scheme: string, host: string, rest: string)
    requires scheme == "http" || scheme == "https"
    ensures SplitScheme(scheme + "://" + host + rest) == (scheme, "//" + host + rest)
  {
    var tail := host + rest;
    assert scheme + "://" + host + rest == scheme + "://" + tail;
    SchemeOfLink(scheme, tail);
    assert "//" + tail == "//" + host + rest;
  }

  lemma NothingToRemove(url: string)
    requires |url| > 0 && url[0] > ' '
    requires forall k | 0 <= k < |url| :: url[k] != '\t' && url[k] != '\r' && url[k] != '\n'
    ensures WithoutTabsAndNewlines(LeadingC0Stripped(url)) == url
  {
  }

  lemma UrlSplitSteps(url: string, scheme: string, rest: string, host: string, nfkc: string -> string)
    requires SplitScheme(SplitInput(url)) == (scheme, rest)
    requires SplitNetloc(rest) == Ok(host)
    ensures UrlSplit(url, nfkc) == if NetlocRejected(host, nfkc) then Err(NfkcError(host)) else Ok((scheme, host))
  {
  }

  lemma SchemeOfLink(scheme: string, tail: string)
    requires scheme == "http" || scheme == "https"
    ensures SplitScheme(scheme + "://" + tail) == (scheme, "//" + tail)
  {
    SchemeColon(scheme, tail);
  }

  lemma NetlocOfLink(host: string, rest: string)
    requires |host| > 0
    requires forall k | 0 <= k < |host| :: host[k] !in "/?#[]\t\r\n"
    requires |rest| == 0 || rest[0] in "/?#"
    ensures SplitNetloc("//" + host + rest) == Ok(host)
  {
    HostEnd(host, rest);
    assert ("//" + host + rest)[2..2 + |host|] == host;
  }

  lemma LinkHasNoTabs(scheme: string, host: string, rest: string)
    requires scheme == "http" || scheme == "https"
    requires forall k | 0 <= k < |host| :: host[k] !in "/?#[]\t\r\n"
    requires forall k | 0 <= k < |rest| :: rest[k] !in "\t\r\n"
    ensures var url := scheme + "://" + host + rest;
      forall k | 0 <= k < |url| :: url[k] != '\t' && url[k] != '\r' && url[k] != '\n'
  {
    var url := scheme + "://" + host + rest;
    forall k | 0 <= k < |url|
      ensures url[k] != '\t' && url[k] != '\r' && url[k] != '\n'
    {
      if k < |scheme| + 3 {
        assert url[k] == (scheme + "://")[k];
      } else if k < |scheme| + 3 + |host| {
        assert url[k] == host[k - |scheme| - 3];
      } else {
        assert url[k] == rest[k - |scheme| - 3 - |host|];
      }
    }
  }

  /** The first ':' of an http(s) link ends its scheme, which `urlsplit` accepts and lowercases to itself. */
  lemma SchemeColon(scheme: string, tail: string)
    requires scheme == "http" || scheme == "https"
    ensures var url := scheme + "://" + tail;
      && IndexOf(url, ":", 0) == Some(|scheme|)
      && IsAsciiAlpha(url[0])
      && (forall k | 0 <= k < |scheme| :: SchemeChar(url[k]))
      && AsciiLower(url[..|scheme|]) == scheme
      && url[|scheme| + 1..] == "//" + tail
  {
    var url := scheme + "://" + tail;
    var n := |scheme|;
    assert url[..n] == scheme;
    assert url[n..n + 1] == ":";
    HttpSchemeLetters(scheme);
    forall j | 0 <= j < n
      ensures !OccursAt(url, ":", j)
    {
      assert url[j] == scheme[j];
      assert url[j..j + 1] == [url[j]];
    }
    IndexOfAt(url, ":", n);
    forall k | 0 <= k < n
      ensures SchemeChar(url[k])
    {
      assert url[k] == scheme[k];
    }
    assert url[n + 1..] == "//" + tail;
  }

  lemma HttpSchemeLetters(scheme: string)
    requires scheme == "http" || scheme == "https"
    ensures forall k | 0 <= k < |scheme| :: IsAsciiAlpha(scheme[k]) && scheme[k] != ':'
    ensures AsciiLower(scheme) == scheme
  {
    assert scheme[0] == 'h' && scheme[1] == 't' && scheme[2] == 't' && scheme[3] == 'p';
    assert |scheme| == 5 ==> scheme[4] == 's';
    assert forall k | 0 <= k < |scheme| :: AsciiLower(scheme)[k] == scheme[k];
  }

  lemma HostEnd(host: string, rest: string)
    requires forall k | 0 <= k < |host| :: host[k] !in "/?#[]\t\r\n"
    requires |rest| == 0 || rest[0] in "/?#"
    ensures NetlocEnd("//" + host + rest, 2) == 2 + |host|
  {
    var after := "//" + host + rest;
    forall m | 2 <= m < 2 + |host|
      ensures after[m] !in "/?#"
    {
      assert after[m] == host[m - 2];
    }
    if |rest| > 0 {
      assert after[2 + |host|] == rest[0];
    }
    NetlocEndAt(after, 2, 2 + |host|);
  }

  lemma NetlocEndAt(s: string, from: nat, k: nat)
    requires from <= k <= |s|
    requires forall m | from <= m < k :: s[m] !in "/?#"
    requires k < |s| ==> s[k] in "/?#"
    ensures NetlocEnd(s, from) == k
    decreases k - from
  {
    if from < k {
      NetlocEndAt(s, from + 1, k);
    }
  }

  /** Text with no scheme separator has no scheme, so it is rejected. */
  lemma BareHostIsInvalid(url: string, nfkc: string -> string)
    requires ':' !in url
    ensures !IsValidUrl(url, nfkc)
  {
    var u := WithoutTabsAndNewlines(LeadingC0Stripped(url));
    NoColonSurvives(url);
  }

  lemma NoColonSurvives(url: string)
    requires ':' !in url
    ensures ':' !in WithoutTabsAndNewlines(LeadingC0Stripped(url))
  {
    var s := LeadingC0Stripped(url);
    assert forall k | 0 <= k < |s| :: s[k] == url[|url| - |s| + k];
    FilterKeepsAbsent(s, ':');
  }

  lemma {:induction false} FilterKeepsAbsent(s: string, c: char)
    requires c !in s
    ensures c !in WithoutTabsAndNewlines(s)
  {
    if |s| > 0 {
      assert c !in s[1..];
      FilterKeepsAbsent(s[1..], c);
    }
  }

  // ---------------------------------------------------------------- parse_video_info guards

  const InvalidLinkError: string := "无效的视频链接格式"
  const UnsupportedPlatformError: string := "不支持的视频平台"
  const ParseFailurePrefix: string := "解析视频信息失败: "

  /**
   * The scraper's `scrape_video`: its own platform dispatch, then the page fetch for that platform
   * (a parameter standing for the network and the page parsing).
   */
  function ScrapeVideo<I>(url: string, fetch: (Platform, string) -> Result<I, string>): (r: Result<I, string>)
    ensures ScraperPlatform(url).None? ==> r == Err(UnsupportedPlatformError)
    ensures ScraperPlatform(url).Some? ==> r == fetch(ScraperPlatform(url).value, url)
  {
    match ScraperPlatform(url)
    case None => Err(UnsupportedPlatformError)
    case Some(p) => fetch(p, url)
  }

  /**
   * Backend `parse_video_info`: clean the link, reject it when `urlparse` finds no scheme or host,
   * reject an unsupported platform, and only then scrape; a scraping error is re-raised with the
   * parse-failure prefix.
   */
  function ParseVideoInfo<I>(url: string, nfkc: string -> string, fetch: (Platform, string) -> Result<I, string>): (r: Result<I, string>)
    ensures var u := CleanUrl(url);
      && (!IsValidUrl(u, nfkc) ==> r == Err(InvalidLinkError))
      && (IsValidUrl(u, nfkc) && DetectPlatform(u).None? ==> r == Err(UnsupportedPlatformError))
      && (r.Ok? ==> IsValidUrl(u, nfkc) && DetectPlatform(u).Some? && r == ScrapeVideo(u, fetch))
      && (IsValidUrl(u, nfkc) && DetectPlatform(u).Some? && ScrapeVideo(u, fetch).Err? ==>
            r == Err(ParseFailurePrefix + ScrapeVideo(u, fetch).error))
  {
    var u := CleanUrl(url);
    if !IsValidUrl(u, nfkc) then Err(InvalidLinkError)
    else if DetectPlatform(u).None? then Err(UnsupportedPlatformError)
    else
      match ScrapeVideo(u, fetch)
      case Ok(info) => Ok(info)
      case Err(e) => Err(ParseFailurePrefix + e)
  }

  /**
   * Past the parser's guards the scraper always finds a platform, so the error a successful guard
   * lets through is the fetch's own, never the scraper's 'unsupported platform'.
   */
  lemma ParseReachesFetch<I>(url: string, nfkc: string -> string, fetch: (Platform, string) -> Result<I, string>)
    requires IsValidUrl(CleanUrl(url), nfkc) && DetectPlatform(CleanUrl(url)).Some?
    ensures ScraperPlatform(CleanUrl(url)).Some?
    ensures ParseVideoInfo(url, nfkc, fetch).Ok? <==> fetch(ScraperPlatform(CleanUrl(url)).value, CleanUrl(url)).Ok?
  {
    ParserAcceptedScraperDefined(CleanUrl(url));
  }

  /** What the older parser returns: the fetched page title, the platform, the link and its type. */
  datatype RootInfo = RootInfo(title: string, platform: string, url: string, videoType: string)

  /**
   * Root `parse_video_info`: no cleaning and no `urlparse`; an unsupported platform is rejected
   * before any request, and a failing title fetch is re-raised with the parse-failure prefix.
   */
  function ParseVideoInfoRoot(url: string, fetchTitle: (Platform, string) -> Result<string, string>): (r: Result<RootInfo, string>)
    ensures DetectPlatformRoot(url).None? <==> r == Err(UnsupportedPlatformError)
    ensures r.Ok? ==> (fetchTitle(DetectPlatformRoot(url).value, url).Ok?
      && r.value.title == fetchTitle(DetectPlatformRoot(url).value, url).value
      && r.value.platform == Name(DetectPlatformRoot(url).value)
      && r.value.url == url
      && r.value.videoType == VideoTypeRoot(url, r.value.platform))
    ensures DetectPlatformRoot(url).Some? && fetchTitle(DetectPlatformRoot(url).value, url).Err? ==>
      r == Err(ParseFailurePrefix + fetchTitle(DetectPlatformRoot(url).value, url).error)
  {
    match DetectPlatformRoot(url)
    case None => Err(UnsupportedPlatformError)
    case Some(p) =>
      match fetchTitle(p, url)
      case Err(e) => Err(ParseFailurePrefix + e)
      case Ok(title) => Ok(RootInfo(title, Name(p), url, VideoTypeRoot(url, Name(p))))
  }
}

=== FILE: download.dfy ===
/**
 * The two `download_video` implementations as the sequence of status writes they make to the task
 * and the value they return (or the exception that escapes them): the backend one
 * (backend/core/video_downloader.py), which downloads, transcodes and records where the result
 * is, and the root one (video_downloader.py), which the web application imports and which hands
 * the link to yt-dlp. The network, yt-dlp, ffmpeg and the filesystem are oracles.
 */
module Download {
  import opened Wrappers
  import opened Text
  import Detect
  import Naming
  import Progress
  import Transcode

  /** One `update_task_status` call: status, and the optional progress, `save_path` and `error_message`. */
  datatype Write = Write(status: string, progress: Option<int>, savePath: Option<string>, errorMessage: Option<string>)

  /** A write of just a status and a progress. */
  function StatusWrite(status: string, progress: int): Write {
    Write(status, Some(progress), None, None)
  }

  function FailedWrite(message: string): Write {
    Write("failed", None, None, Some(message))
  }

  /** The writes a sequence of progress values makes under one status. */
  function ProgressWrites(status: string, ps: seq<int>): (w: seq<Write>)
    ensures |w| == |ps|
    ensures forall i | 0 <= i < |w| :: w[i] == StatusWrite(status, ps[i])
  {
    if |ps| == 0 then [] else [StatusWrite(status, ps[0])] + ProgressWrites(status, ps[1..])
  }

  /** What the downloader did to the task, and what `download_video` returned or raised. */
  datatype Download = Download(writes: seq<Write>, result: Result<(bool, string), string>)

  /**
   * A run that returned: its last write settles the task, 'completed' with the file's path when it
   * returned success, 'failed' with the returned message otherwise.
   */
  predicate Settled(d: Download) {
    && d.result.Ok? && |d.writes| >= 1
    && (d.result.value.0 ==>
          d.writes[|d.writes| - 1].status == "completed" && Truthy(d.writes[|d.writes| - 1].savePath))
    && (!d.result.value.0 ==> d.writes[|d.writes| - 1] == FailedWrite(d.result.value.1))
  }

  /** Record a failure and return it: `update_task_status(id, 'failed', error_message=m)` then `(False, m)`. */
  function Fail(writes: seq<Write>, message: string): (d: Download)
    ensures d.writes == writes + [FailedWrite(message)] && d.result == Ok((false, message))
  {
    Download(writes + [FailedWrite(message)], Ok((false, message)))
  }

  // ---------------------------------------------------------------- paths and text

  /** `os.path.join(a, b)` on POSIX: an absolute `b` replaces `a`; otherwise one '/' separates them. */
  function PathJoin(a: string, b: string): (r: string)
    ensures EndsWith(r, b)
  {
    if StartsWith(b, "/") || a == "" then b
    else if EndsWith(a, "/") then a + b
    else a + "/" + b
  }

  /** Python's `str()` of a value that is a string or None. */
  function PyStr(v: Option<string>): string {
    match v
    case Some(s) => s
    case None => "None"
  }


  const UrlSuffix: string := "\n\n解析的视频URL: "
  const Unknown: string := "N/A"
  const DownloadFailedPrefix: string := "下载失败: "
  const DouyinFailedPrefix: string := "抖音下载失败: "
  const TranscodeFailedPrefix: string := "转码失败: "
  const ParseStagePrefix: string := "视频信息解析失败: "
  const NoDouyinLink: string := "无法获取抖音视频下载链接"
  const FileNotFound: string := "下载失败: 视频文件未找到，可能是网页未解析出视频下载地址"
  const Downloaded: string := "下载成功"
  /** What `requests.get(None)` raises. */
  const NoneUrlError: string := "Invalid URL 'None': No scheme supplied. Perhaps you meant https://None?"
  /** What reading `video_url` raises in the handler when it was never assigned. */
  const UnboundVideoUrl: string := "UnboundLocalError: cannot access local variable 'video_url' where it is not associated with a value"

  // ---------------------------------------------------------------- oracles

  /** What the scraper reads off a video page (the platform is added by the scraper's dispatch). */
  datatype Page = Page(title: string, videoUrl: Option<string>, audioUrl: Option<string>)

  /** `scrape_video`'s dictionary: the page's facts under the platform the scraper dispatched on. */
  datatype Info = Info(title: string, platform: Detect.Platform, videoUrl: Option<string>, audioUrl: Option<string>)

  /**
   * One streamed GET: the announced `content-length` (0 when absent), the sizes of the chunks
   * received, and the error raised after them (by `raise_for_status` or the connection), if any.
   */
  datatype Fetch = Fetch(total: nat, chunks: seq<nat>, error: Option<string>)

  /** Everything outside the process the backend downloader depends on. */
  datatype World = World(
    page: (Detect.Platform, string) -> Result<Page, string>,
    get: string -> Fetch,
    muxError: Option<string>,
    fileExists: bool,
    transcoded: Transcode.Transcoded,
    isWord: char -> bool,
    md5: string -> string,
    nfkc: string -> string)

  ghost predicate WellFormed(w: World) {
    Naming.CoversAsciiWord(w.isWord) && forall t :: Naming.IsHexDigest(w.md5(t))
  }

  function Tag(p: Detect.Platform, r: Result<Page, string>): (t: Result<Info, string>)
    ensures t.Ok? <==> r.Ok?
    ensures t.Ok? ==> t.value == Info(r.value.title, p, r.value.videoUrl, r.value.audioUrl)
    ensures t.Err? ==> t.error == r.error
  {
    match r
    case Ok(pg) => Ok(Info(pg.title, p, pg.videoUrl, pg.audioUrl))
    case Err(e) => Err(e)
  }

  /** The scraper's fetch for a platform, tagging the page with that platform. */
  function Scraper(page: (Detect.Platform, string) -> Result<Page, string>): (Detect.Platform, string) -> Result<Info, string> {
    (p: Detect.Platform, u: string) => Tag(p, page(p, u))
  }

  /** `requests.get` of a link that may be None. */
  function GetMedia(get: string -> Fetch, url: Option<string>): Fetch {
    match url
    case Some(u) => get(u)
    case None => Fetch(0, [], Some(NoneUrlError))
  }

  // ---------------------------------------------------------------- shared tail

  /**
   * Once the media file is in place: 'transcoding' 0, the transcoder's own progress writes, then
   * 'completed' 100 with the `.mov` path on success, or 'failed' with the transcoder's message or
   * the exception it raised, followed by the link shown to the user.
   */
  function TranscodeAndRecord(t: Transcode.Transcoded, movPath: string, shown: string, raisedPrefix: string): (d: Download)
    requires movPath != ""
    ensures |d.writes| >= 2 && d.writes[0] == StatusWrite("transcoding", 0)
    ensures d.result.Ok?
    ensures Settled(d)
    ensures d.result.value.0 <==> t.outcome.Returned? && t.outcome.success
    ensures d.result.value.0 ==>
      d.writes[|d.writes| - 1] == Write("completed", Some(100), Some(movPath), None)
      && d.result.value.1 == Downloaded
    ensures !d.result.value.0 ==>
      d.writes[|d.writes| - 1] == FailedWrite(d.result.value.1) && EndsWith(d.result.value.1, UrlSuffix + shown)
    ensures forall i | 0 < i < |d.writes| - 1 :: d.writes[i].status == "transcoding"
  {
    var start := [StatusWrite("transcoding", 0)] + ProgressWrites("transcoding", t.writes);
    match t.outcome
    case Raised(e) =>
      EndsWithJoined(raisedPrefix + e, UrlSuffix, shown);
      Fail(start, raisedPrefix + e + UrlSuffix + shown)
    case Returned(ok, m) =>
      if ok then Download(start + [Write("completed", Some(100), Some(movPath), None)], Ok((true, Downloaded)))
      else
        EndsWithJoined(TranscodeFailedPrefix + m, UrlSuffix, shown);
        Fail(start, TranscodeFailedPrefix + m + UrlSuffix + shown)
  }

  /** The same run with `writes` made before it. */
  function After(writes: seq<Write>, d: Download): (r: Download)
    ensures r.writes == writes + d.writes && r.result == d.result
  {
    Download(writes + d.writes, d.result)
  }

  /** Recording a failure settles the run, whatever came before. */
  lemma FailSettles(writes: seq<Write>, message: string)
    ensures Settled(Fail(writes, message))
    ensures Fail(writes, message).writes[..|writes|] == writes
  {
    assert (writes + [FailedWrite(message)])[..|writes|] == writes;
  }

  /** Writes made before a settled run leave it settled. */
  lemma AfterSettles(writes: seq<Write>, d: Download)
    requires Settled(d)
    ensures Settled(After(writes, d))
    ensures After(writes, d).writes[..|writes|] == writes
  {
    var r := writes + d.writes;
    assert r[|r| - 1] == d.writes[|d.writes| - 1];
    assert r[..|writes|] == writes;
  }

  // ---------------------------------------------------------------- douyin branch

  /** The fixed stem of every douyin download directory. */
  const DouyinStem: string := "douyin_video"

  /** The `.mov` a stem is transcoded to: `{root}/{platform}/{stem}/{stem}.mov`. */
  function MovPath(root: string, platform: string, stem: string): (r: string)
    ensures EndsWith(r, stem + ".mov") && r != ""
  {
    PathJoin(PathJoin(PathJoin(root, platform), stem), stem + ".mov")
  }

  /**
   * The douyin branch: 'downloading' 0, then the scraper on the raw link, the file streamed
   * without progress writes, and the shared transcode tail. Every failure is caught and recorded
   * under the douyin prefix, showing the scraped link, 'None' when the scraper returned none, or
   * 'N/A' when scraping itself raised.
   */
  function DouyinBranch(url: string, root: string, w: World): (d: Download)
    requires WellFormed(w)
    ensures |d.writes| >= 2 && d.writes[0] == StatusWrite("downloading", 0) && Settled(d)
  {
    var start := [StatusWrite("downloading", 0)];
    var scraped := Detect.ScrapeVideo(url, Scraper(w.page));
    if scraped.Err? then
      var m := DouyinFailedPrefix + scraped.error + UrlSuffix + Unknown;
      FailSettles(start, m);
      Fail(start, m)
    else
      var d := DouyinScraped(scraped.value, DouyinMov(root), w);
      AfterSettles(start, d);
      After(start, d)
  }

  /**
   * Where the douyin branch puts its `.mov`: the fixed stem under the 'douyin' directory (the
   * sanitiser leaves that stem as it is, see `DouyinStemSafe`).
   */
  function DouyinMov(root: string): string {
    MovPath(root, "douyin", DouyinStem)
  }

  /** The douyin stem is already a safe file name. */
  lemma DouyinStemSafe(root: string, w: World)
    requires WellFormed(w)
    ensures MovFor(root, "douyin", DouyinStem, w) == DouyinMov(root)
  {
    var s := DouyinStem;
    forall i | 0 <= i < |s|
      ensures !IsPySpace(s[i]) && Naming.Allowed(s[i], w.isWord)
    {
      assert IsAsciiAlpha(s[i]) || s[i] == '_';
    }
    Naming.SanitizedFixed(s, w.isWord);
  }

  /** The douyin branch once the scraper returned: check the link, fetch it, transcode. */
  function DouyinScraped(info: Info, mov: string, w: World): (d: Download)
    requires mov != ""
    ensures |d.writes| >= 1 && Settled(d)
    ensures !d.result.value.0 ==> EndsWith(d.result.value.1, UrlSuffix + PyStr(info.videoUrl))
  {
    if !Truthy(info.videoUrl) then
      EndsWithJoined(DouyinFailedPrefix + NoDouyinLink, UrlSuffix, PyStr(info.videoUrl));
      Fail([], DouyinFailedPrefix + NoDouyinLink + UrlSuffix + PyStr(info.videoUrl))
    else
      var v := info.videoUrl.value;
      var f := w.get(v);
      if f.error.Some? then
        EndsWithJoined(DouyinFailedPrefix + f.error.value, UrlSuffix, v);
        Fail([], DouyinFailedPrefix + f.error.value + UrlSuffix + v)
      else TranscodeAndRecord(w.transcoded, mov, v, DouyinFailedPrefix)
  }

  /** The `.mov` path for a title saved under a platform's directory. */
  function MovFor(root: string, platform: string, title: string, w: World): (r: string)
    requires WellFormed(w)
    ensures r != ""
  {
    var stem := Naming.SafeFilename(title, w.isWord, w.md5);
    MovPath(root, platform, stem)
  }

  // ---------------------------------------------------------------- other platforms

  /** The writes made while the media is streamed, and the error that ended it early, if any. */
  datatype Streamed = Streamed(writes: seq<Write>, error: Option<string>)

  /**
   * With an audio link: the audio is fetched without progress, then the video with progress
   * scaled to 50, then the two are muxed (only a failure to start ffmpeg raises). Without one:
   * the video alone, with progress scaled to 100.
   */
  function StreamMedia(w: World, info: Info): (s: Streamed)
    ensures forall i | 0 <= i < |s.writes| :: s.writes[i].status == "downloading" && s.writes[i].progress.Some?
  {
    if Truthy(info.audioUrl) then
      var audio := w.get(info.audioUrl.value);
      if audio.error.Some? then Streamed([], audio.error)
      else
        var video := GetMedia(w.get, info.videoUrl);
        var ps := Progress.ChunkWrites(video.chunks, video.total, 50);
        Streamed(ProgressWrites("downloading", ps), if video.error.Some? then video.error else w.muxError)
    else
      var video := GetMedia(w.get, info.videoUrl);
      var ps := Progress.ChunkWrites(video.chunks, video.total, 100);
      Streamed(ProgressWrites("downloading", ps), video.error)
  }

  /** How the non-douyin branch ends: the parser raised, or a run was recorded. */
  datatype Ending = ParseFailed(error: string) | Recorded(d: Download)

  /**
   * The non-douyin branch up to its handler: parse (the parser's error is re-raised with the
   * stage prefix), 'downloading' 0, stream, then either the missing-file failure or the shared
   * transcode tail. Failures past the parse show the parsed video link.
   */
  function OtherBranch(url: string, root: string, w: World): (e: Ending)
    requires WellFormed(w)
    requires !Contains(url, "douyin.com")
    ensures e.Recorded? ==> |e.d.writes| >= 2 && e.d.writes[0] == StatusWrite("downloading", 0) && Settled(e.d)
    ensures e.ParseFailed? <==> Detect.ParseVideoInfo(url, w.nfkc, Scraper(w.page)).Err?
  {
    match Detect.ParseVideoInfo(url, w.nfkc, Scraper(w.page))
    case Err(e) => ParseFailed(ParseStagePrefix + e)
    case Ok(info) => Recorded(MediaTail(info, MovFor(root, Detect.Name(info.platform), info.title, w), w))
  }

  /**
   * The non-douyin branch once parsed: 'downloading' 0, stream, then either the missing-file
   * failure or the shared transcode tail; failures show the parsed video link.
   */
  function MediaTail(info: Info, mov: string, w: World): (d: Download)
    requires mov != ""
    ensures |d.writes| >= 2 && d.writes[0] == StatusWrite("downloading", 0) && Settled(d)
    ensures !d.result.value.0 ==> EndsWith(d.result.value.1, UrlSuffix + PyStr(info.videoUrl))
  {
    var shown := PyStr(info.videoUrl);
    var start := [StatusWrite("downloading", 0)];
    var s := StreamMedia(w, info);
    if s.error.Some? then
      EndsWithJoined(DownloadFailedPrefix + s.error.value, UrlSuffix, shown);
      Fail(start + s.writes, DownloadFailedPrefix + s.error.value + UrlSuffix + shown)
    else if !w.fileExists then
      EndsWithJoined(FileNotFound, UrlSuffix, shown);
      Fail(start + s.writes, FileNotFound + UrlSuffix + shown)
    else After(start + s.writes, TranscodeAndRecord(w.transcoded, mov, shown, DownloadFailedPrefix))
  }

  /**
   * A link without 'douyin.com' is never parsed as douyin (the parser's scraper looks for that
   * text in the cleaned link, a piece of the original), so the branch that would hand it to
   * `_download_douyin_with_ytdlp` is unreachable.
   */
  lemma ParsedNotDouyin(url: string, nfkc: string -> string, page: (Detect.Platform, string) -> Result<Page, string>)
    requires !Contains(url, "douyin.com")
    ensures Detect.ParseVideoInfo(url, nfkc, Scraper(page)).Ok? ==>
      Detect.ParseVideoInfo(url, nfkc, Scraper(page)).value.platform != Detect.Douyin
  {
    var u := Detect.CleanUrl(url);
    var r := Detect.ParseVideoInfo(url, nfkc, Scraper(page));
    assert !Contains(u, "douyin.com") by {
      Detect.CleanUrlInside(url);
      if Contains(u, "douyin.com") {
        Detect.ContainsTransitive(url, u, "douyin.com");
      }
    }
    if r.Ok? {
      var p := Detect.ScraperPlatform(u).value;
      assert r == Tag(p, page(p, u));
    }
  }

  /**
   * `download_video` as written: a parse failure is re-raised inside the outer `try`, whose
   * handler then reads `video_url` before anything assigned it, so UnboundLocalError escapes and
   * the task is left as it was.
   */
  function BackendDownloadAsWritten(url: string, root: string, w: World): (d: Download)
    requires WellFormed(w)
    ensures d.result.Err? <==> !Contains(url, "douyin.com") && Detect.ParseVideoInfo(url, w.nfkc, Scraper(w.page)).Err?
    ensures d.result.Err? ==> d.writes == [] && d.result.error == UnboundVideoUrl
  {
    if Detect.CreatePlatform(url) == "douyin" then DouyinBranch(url, root, w)
    else
      match OtherBranch(url, root, w)
      case ParseFailed(_) => Download([], Err(UnboundVideoUrl))
      case Recorded(d) => d
  }

  /**
   * `download_video` with `video_url` bound to 'N/A' before the `try`, as the douyin branch's
   * handler already does: every run returns, and every failure is recorded.
   */
  function BackendDownload(url: string, root: string, w: World): (d: Download)
    requires WellFormed(w)
    ensures Settled(d)
  {
    if Detect.CreatePlatform(url) == "douyin" then DouyinBranch(url, root, w)
    else
      match OtherBranch(url, root, w)
      case ParseFailed(e) => Fail([], DownloadFailedPrefix + e + UrlSuffix + Unknown)
      case Recorded(d) => d
  }

  /** The parser rejects a link with no ':' as invalid. */
  lemma SchemelessLinkRejected(url: string, w: World)
    requires ':' !in url
    ensures Detect.ParseVideoInfo(url, w.nfkc, Scraper(w.page)) == Err(Detect.InvalidLinkError)
  {
    var u := Detect.CleanUrl(url);
    Detect.CleanUrlInside(url);
    MissingFromPiece(url, u, ':');
    Detect.BareHostIsInvalid(u, w.nfkc);
  }

  /** Past a parse failure, the written branch raises and records nothing. */
  lemma ParseFailureEscapes(url: string, root: string, w: World, e: string)
    requires WellFormed(w)
    requires !Contains(url, "douyin.com")
    requires Detect.ParseVideoInfo(url, w.nfkc, Scraper(w.page)) == Err(e)
    ensures BackendDownloadAsWritten(url, root, w) == Download([], Err(UnboundVideoUrl))
  {
    assert OtherBranch(url, root, w).ParseFailed?;
    assert Detect.CreatePlatform(url) != "douyin";
  }

  /** Past a parse failure, the corrected branch records it with the link shown as 'N/A'. */
  lemma ParseFailureRecorded(url: string, root: string, w: World, e: string)
    requires WellFormed(w)
    requires !Contains(url, "douyin.com")
    requires Detect.ParseVideoInfo(url, w.nfkc, Scraper(w.page)) == Err(e)
    ensures BackendDownload(url, root, w) == Fail([], DownloadFailedPrefix + ParseStagePrefix + e + UrlSuffix + Unknown)
  {
    assert OtherBranch(url, root, w) == ParseFailed(ParseStagePrefix + e);
    assert Detect.CreatePlatform(url) != "douyin";
    AppendAssoc(DownloadFailedPrefix, ParseStagePrefix, e);
  }


  /**
   * The parse failure the handler loses: a link with neither 'douyin.com' nor a ':' has no
   * scheme, the parser rejects it, and the written code then raises instead of recording it.
   */
  lemma SchemelessLinkEscapes(url: string, root: string, w: World)
    requires WellFormed(w)
    requires !Contains(url, "douyin.com") && ':' !in url
    ensures BackendDownloadAsWritten(url, root, w).result == Err(UnboundVideoUrl)
    ensures BackendDownloadAsWritten(url, root, w).writes == []
    ensures BackendDownload(url, root, w).writes ==
      [FailedWrite(DownloadFailedPrefix + ParseStagePrefix + Detect.InvalidLinkError + UrlSuffix + Unknown)]
  {
    SchemelessLinkRejected(url, w);
    ParseFailureEscapes(url, root, w, Detect.InvalidLinkError);
    ParseFailureRecorded(url, root, w, Detect.InvalidLinkError);
  }

  /**
   * The link a failure message shows: 'N/A' when the scraper (douyin) or the parser (others)
   * raised, otherwise the video link they returned, 'None' when it was None.
   */
  function ShownLink(url: string, w: World): string {
    var r := if Detect.CreatePlatform(url) == "douyin" then Detect.ScrapeVideo(url, Scraper(w.page))
             else Detect.ParseVideoInfo(url, w.nfkc, Scraper(w.page));
    if r.Err? then Unknown else PyStr(r.value.videoUrl)
  }

  /** Every failure the corrected downloader records ends by showing the link it was working on. */
  lemma FailureShowsLink(url: string, root: string, w: World)
    requires WellFormed(w)
    ensures var d := BackendDownload(url, root, w);
      !d.result.value.0 ==> EndsWith(d.result.value.1, UrlSuffix + ShownLink(url, w))
  {
    if Detect.CreatePlatform(url) == "douyin" {
      var scraped := Detect.ScrapeVideo(url, Scraper(w.page));
      if scraped.Err? {
        EndsWithJoined(DouyinFailedPrefix + scraped.error, UrlSuffix, Unknown);
      }
    } else {
      var parsed := Detect.ParseVideoInfo(url, w.nfkc, Scraper(w.page));
      if parsed.Err? {
        ParseFailureRecorded(url, root, w, parsed.error);
        EndsWithJoined(DownloadFailedPrefix + ParseStagePrefix + parsed.error, UrlSuffix, Unknown);
      }
    }
  }

  // ---------------------------------------------------------------- phase order

  /** The order of the phases a task goes through: downloading, transcoding, settled. */
  function Phase(status: string): nat {
    if status == "downloading" then 0 else if status == "transcoding" then 1 else 2
  }

  predicate PhasesOrdered(writes: seq<Write>) {
    forall i, j | 0 <= i < j < |writes| :: Phase(writes[i].status) <= Phase(writes[j].status)
  }

  /** Writes of a run only move forward through the phases, and only the last one settles the task. */
  predicate Forward(writes: seq<Write>) {
    PhasesOrdered(writes) && forall i | 0 <= i < |writes| - 1 :: Phase(writes[i].status) < 2
  }

  lemma ForwardConcat(a: seq<Write>, b: seq<Write>)
    requires forall i | 0 <= i < |a| :: Phase(a[i].status) == 0
    requires Forward(b)
    ensures Forward(a + b)
  {
    forall i, j | 0 <= i < j < |a + b|
      ensures Phase((a + b)[i].status) <= Phase((a + b)[j].status)
    {
      if i >= |a| {
        assert (a + b)[i] == b[i - |a|] && (a + b)[j] == b[j - |a|];
      }
    }
  }

  lemma TranscodeForward(t: Transcode.Transcoded, movPath: string, shown: string, raisedPrefix: string)
    requires movPath != ""
    ensures Forward(TranscodeAndRecord(t, movPath, shown, raisedPrefix).writes)
  {
    var w := TranscodeAndRecord(t, movPath, shown, raisedPrefix).writes;
    assert forall i | 0 <= i < |w| - 1 :: Phase(w[i].status) == 1;
  }

  lemma DouyinForward(url: string, root: string, w: World)
    requires WellFormed(w)
    ensures Forward(DouyinBranch(url, root, w).writes)
  {
    var start := [StatusWrite("downloading", 0)];
    var scraped := Detect.ScrapeVideo(url, Scraper(w.page));
    if scraped.Ok? {
      var info := scraped.value;
      var d := DouyinScraped(info, DouyinMov(root), w);
      if Truthy(info.videoUrl) && w.get(info.videoUrl.value).error.None? {
        TranscodeForward(w.transcoded, DouyinMov(root), info.videoUrl.value, DouyinFailedPrefix);
      }
      ForwardConcat(start, d.writes);
    }
  }

  lemma MediaTailForward(info: Info, mov: string, w: World)
    requires mov != ""
    ensures Forward(MediaTail(info, mov, w).writes)
  {
    var start := [StatusWrite("downloading", 0)];
    var s := StreamMedia(w, info);
    var d := MediaTail(info, mov, w);
    var t := TranscodeAndRecord(w.transcoded, mov, PyStr(info.videoUrl), DownloadFailedPrefix);
    if s.error.None? && w.fileExists {
      TranscodeForward(w.transcoded, mov, PyStr(info.videoUrl), DownloadFailedPrefix);
      ForwardConcat(start + s.writes, t.writes);
    } else {
      ForwardConcat(start + s.writes, [d.writes[|d.writes| - 1]]);
      assert d.writes == start + s.writes + [d.writes[|d.writes| - 1]];
    }
  }

  /**
   * Every run of the (corrected) backend downloader writes 'downloading' before 'transcoding'
   * before the final 'completed' or 'failed', and nothing after that.
   */
  lemma BackendPhasesForward(url: string, root: string, w: World)
    requires WellFormed(w)
    ensures Forward(BackendDownload(url, root, w).writes)
  {
    if Detect.CreatePlatform(url) == "douyin" {
      DouyinForward(url, root, w);
    } else {
      match Detect.ParseVideoInfo(url, w.nfkc, Scraper(w.page))
      case Ok(info) =>
        MediaTailForward(info, MovFor(root, Detect.Name(info.platform), info.title, w), w);
      case Err(_) =>
    }
  }

  // ---------------------------------------------------------------- root downloader

  /** What yt-dlp does with the link: the hook events it reports, then success or the error it raises. */
  datatype YtDlpRun = YtDlpRun(events: seq<Progress.HookEvent>, error: Option<string>)

  /**
   * The writes the root progress hook makes for a run's events, and the error of the first event
   * it raised on (yt-dlp passes it on, ending the run).
   */
  function HookWrites(events: seq<Progress.HookEvent>): (r: (seq<Write>, Option<string>))
    ensures |r.0| <= |events|
    ensures forall i | 0 <= i < |r.0| ::
      r.0[i].status == "downloading" && r.0[i].savePath.None? && r.0[i].errorMessage.None?
    ensures r.1.None? <==> forall i | 0 <= i < |events| :: !Progress.RootHook(events[i]).Raises?
  {
    if |events| == 0 then ([], None)
    else
      match Progress.RootHook(events[0])
      case Raises(e) => ([], Some(e))
      case NoWrite => HookWrites(events[1..])
      case WriteProgress(p, _, _) =>
        var rest := HookWrites(events[1..]);
        ([StatusWrite("downloading", p)] + rest.0, rest.1)
  }

  /**
   * The root `download_video`: parse the link (a failure is recorded as 'failed' with no message
   * and returned under the 'download failed' prefix), write 'downloading' 0, let yt-dlp download
   * it with the root progress hook, and write 'completed' 100. It never records where the file is.
   */
  function RootDownload(url: string, fetchTitle: (Detect.Platform, string) -> Result<string, string>, run: YtDlpRun): (d: Download)
    ensures d.result.Ok? && |d.writes| >= 1
    ensures forall i | 0 <= i < |d.writes| :: d.writes[i].savePath.None? && d.writes[i].errorMessage.None?
    ensures d.result.value.0 <==>
      Detect.ParseVideoInfoRoot(url, fetchTitle).Ok? && HookWrites(run.events).1.None? && run.error.None?
    ensures d.result.value.0 ==> d.writes[|d.writes| - 1] == StatusWrite("completed", 100) && d.result.value.1 == Downloaded
    ensures !d.result.value.0 ==>
      d.writes[|d.writes| - 1] == Write("failed", None, None, None) && StartsWith(d.result.value.1, DownloadFailedPrefix)
  {
    var failed := Write("failed", None, None, None);
    match Detect.ParseVideoInfoRoot(url, fetchTitle)
    case Err(e) => Download([failed], Ok((false, DownloadFailedPrefix + e)))
    case Ok(_) =>
      var hooked := HookWrites(run.events);
      var error := if hooked.1.Some? then hooked.1 else run.error;
      var last := if error.Some? then failed else StatusWrite("completed", 100);
      BareWritesAround(StatusWrite("downloading", 0), hooked.0, last);
      Download([StatusWrite("downloading", 0)] + hooked.0 + [last],
        Ok(if error.Some? then (false, DownloadFailedPrefix + error.value) else (true, Downloaded)))
  }

  /** Writes that carry neither a path nor a message stay so when a first and a last such write are added. */
  lemma BareWritesAround(first: Write, middle: seq<Write>, last: Write)
    requires first.savePath.None? && first.errorMessage.None? && last.savePath.None? && last.errorMessage.None?
    requires forall i | 0 <= i < |middle| :: middle[i].savePath.None? && middle[i].errorMessage.None?
    ensures var ws := [first] + middle + [last];
      forall i | 0 <= i < |ws| :: ws[i].savePath.None? && ws[i].errorMessage.None?
  {
  }

  /** The text of the line `_create_cookie_file` writes for one cookie name, without its newline. */
  function CookieEntry(platform: string, key: string): string {
    platform + "\tTRUE\t/" + key + "\tTRUE"
  }

  /** The text of the cookie file: one line per cookie name, in the order the hash returns them. */
  function CookieFile(platform: string, keys: seq<string>): (text: string)
    ensures |keys| == 0 <==> text == ""
  {
    if |keys| == 0 then "" else CookieEntry(platform, keys[0]) + "\n" + CookieFile(platform, keys[1..])
  }

  function CookieEntries(platform: string, keys: seq<string>): (r: seq<string>)
    ensures |r| == |keys| && forall i | 0 <= i < |keys| :: r[i] == CookieEntry(platform, keys[i])
  {
    seq(|keys|, i requires 0 <= i < |keys| => CookieEntry(platform, keys[i]))
  }

  /** The file is its entries, each ended by a newline. */
  lemma {:induction false} CookieFileJoin(platform: string, keys: seq<string>)
    ensures CookieFile(platform, keys) == Join(CookieEntries(platform, keys) + [""], '\n')
  {
    if |keys| > 0 {
      CookieFileJoin(platform, keys[1..]);
      var parts := CookieEntries(platform, keys) + [""];
      assert parts[1..] == CookieEntries(platform, keys[1..]) + [""];
    }
  }

  /**
   * Without tabs or newlines in the names, the file reads back line by line as one entry per
   * cookie name, in order (the values are never written), followed by the empty text after the
   * last newline.
   */
  lemma CookieFileLines(platform: string, keys: seq<string>)
    requires '\n' !in platform
    requires forall k | k in keys :: '\n' !in k
    ensures Split(CookieFile(platform, keys), '\n') == CookieEntries(platform, keys) + [""]
  {
    var parts := CookieEntries(platform, keys) + [""];
    forall k | 0 <= k < |parts|
      ensures '\n' !in parts[k]
    {
      if k < |keys| {
        assert keys[k] in keys;
        assert parts[k] == platform + "\tTRUE\t/" + keys[k] + "\tTRUE";
      }
    }
    CookieFileJoin(platform, keys);
    SplitJoin(parts, '\n');
  }
}

=== FILE: json.dfy ===
/**
 * The JSON the scraper walks (`backend/core/video_scraper.py`), with the Python operations its
 * extractors apply to it: `key in v`, `v[key]`, `v[0]`, truthiness and `len`. A Python
 * exception is an `Err`; the extractors catch every one and answer None.
 */
module Json {
  import opened Wrappers
  import opened Text

  /** A decoded JSON value. Python's `None` and JSON `null` are the same value. */
  datatype Json =
    | Null
    | Bool(b: bool)
    | Num(n: int)
    | Str(s: string)
    | Arr(items: seq<Json>)
    | Obj(fields: map<string, Json>)

  /** One step of a key path: a dictionary key or a list index. */
  datatype Key = Name(name: string) | Index(i: nat)

  // ---------------------------------------------------------------- Python operations

  /** `bool(v)`. */
  predicate PyTruthy(v: Json) {
    match v
    case Null => false
    case Bool(b) => b
    case Num(n) => n != 0
    case Str(s) => s != ""
    case Arr(items) => items != []
    case Obj(fields) => fields != map[]
  }

  const TypeError: string := "TypeError"
  const KeyError: string := "KeyError"
  const IndexError: string := "IndexError"

  /** `key in v` for a string key: key membership, list membership, substring; a TypeError otherwise. */
  function PyIn(key: string, v: Json): (r: Result<bool, string>)
    ensures v.Obj? ==> r == Ok(key in v.fields)
    ensures r.Err? <==> !(v.Obj? || v.Arr? || v.Str?)
  {
    match v
    case Obj(fields) => Ok(key in fields)
    case Arr(items) => Ok(Str(key) in items)
    case Str(s) => Ok(Contains(s, key))
    case _ => Err(TypeError)
  }

  /** `v[key]` for a string key: only a dictionary holding the key answers. */
  function PyGet(v: Json, key: string): (r: Result<Json, string>)
    ensures r.Ok? <==> v.Obj? && key in v.fields
    ensures r.Ok? ==> r.value == v.fields[key]
  {
    match v
    case Obj(fields) => if key in fields then Ok(fields[key]) else Err(KeyError)
    case _ => Err(TypeError)
  }

  /** `v[0]`: the first element of a list, the first character of a string; dictionary keys are strings, so 0 is missing. */
  function PyFirst(v: Json): (r: Result<Json, string>)
    ensures v.Arr? && |v.items| > 0 ==> r == Ok(v.items[0])
    ensures r.Ok? ==> (v.Arr? && |v.items| > 0) || (v.Str? && |v.s| > 0 && r.value == Str(v.s[..1]))
  {
    match v
    case Arr(items) => if |items| > 0 then Ok(items[0]) else Err(IndexError)
    case Str(s) => if |s| > 0 then Ok(Str(s[..1])) else Err(IndexError)
    case Obj(_) => Err(KeyError)
    case _ => Err(TypeError)
  }

  /** `len(v)`. */
  function PyLen(v: Json): (r: Result<nat, string>)
    ensures r.Ok? <==> v.Str? || v.Arr? || v.Obj?
  {
    match v
    case Str(s) => Ok(|s|)
    case Arr(items) => Ok(|items|)
    case Obj(fields) => Ok(|fields|)
    case _ => Err(TypeError)
  }

  /** `v and len(v) > 0`, evaluated as Python does: `len` is only asked of a truthy value. */
  function NonEmpty(v: Json): (r: Result<bool, string>)
    ensures v.Arr? ==> r == Ok(|v.items| > 0)
  {
    if !PyTruthy(v) then Ok(false)
    else
      var n :- PyLen(v);
      Ok(n > 0)
  }

  // ---------------------------------------------------------------- key paths

  /**
   * The walk of `_extract_from_ssr_data`: a key steps into a dictionary that holds it, an index
   * into a list long enough for it; anything else ends the walk with nothing.
   */
  function Lookup(v: Json, path: seq<Key>): Option<Json>
    decreases |path|
  {
    if |path| == 0 then Some(v)
    else
      match path[0]
      case Name(k) => if v.Obj? && k in v.fields then Lookup(v.fields[k], path[1..]) else None
      case Index(i) => if v.Arr? && i < |v.items| then Lookup(v.items[i], path[1..]) else None
  }

  /** A walk along `p + q` is the walk along `p` continued along `q`. */
  lemma {:induction false} LookupConcat(v: Json, p: seq<Key>, q: seq<Key>)
    ensures Lookup(v, p + q) == (match Lookup(v, p) case Some(w) => Lookup(w, q) case None => None)
    decreases |p|
  {
    if |p| > 0 {
      assert (p + q)[0] == p[0] && (p + q)[1..] == p[1..] + q;
      match p[0]
      case Name(k) =>
        if v.Obj? && k in v.fields {
          LookupConcat(v.fields[k], p[1..], q);
        }
      case Index(i) =>
        if v.Arr? && i < |v.items| {
          LookupConcat(v.items[i], p[1..], q);
        }
    } else {
      assert p + q == q;
    }
  }

  // ---------------------------------------------------------------- _extract_from_ssr_data

  /** The four places a server-rendered page keeps its play link, tried in this order. */
  const SsrPaths: seq<seq<Key>> := [
    [Name("app"), Name("videoDetail"), Name("video"), Name("playAddr"), Name("urlList"), Index(0), Name("url")],
    [Name("app"), Name("videoDetail"), Name("video"), Name("downloadAddr"), Name("urlList"), Index(0), Name("url")],
    [Name("aweme"), Name("detail"), Name("video"), Name("play_addr"), Name("url_list"), Index(0), Name("url")],
    [Name("aweme_detail"), Name("video"), Name("play_addr"), Name("url_list"), Index(0), Name("url")]
  ]

  /** The walk along `path` ends at a string that starts with 'http'. */
  predicate HttpAt(data: Json, path: seq<Key>) {
    var v := Lookup(data, path);
    v.Some? && v.value.Str? && StartsWith(v.value.s, "http")
  }

  /** The first of `paths` whose walk ends at an 'http' string, and that string. */
  function FirstHttp(data: Json, paths: seq<seq<Key>>): (r: Option<(nat, string)>)
    ensures r.None? <==> forall i | 0 <= i < |paths| :: !HttpAt(data, paths[i])
    ensures r.Some? ==>
      && r.value.0 < |paths| && HttpAt(data, paths[r.value.0])
      && Lookup(data, paths[r.value.0]) == Some(Str(r.value.1))
      && forall j | 0 <= j < r.value.0 :: !HttpAt(data, paths[j])
  {
    if |paths| == 0 then None
    else if HttpAt(data, paths[0]) then Some((0, Lookup(data, paths[0]).value.s))
    else
      match FirstHttp(data, paths[1..])
      case None => None
      case Some((i, u)) => Some((i + 1, u))
  }

  /**
   * `_extract_from_ssr_data`: for a dictionary, the link at the first of the four paths that
   * leads to an 'http' string; None for anything else.
   */
  function ExtractFromSsr(data: Json): (r: Option<string>)
    ensures r.Some? <==> data.Obj? && exists i | 0 <= i < |SsrPaths| :: HttpAt(data, SsrPaths[i])
    ensures r.Some? ==> StartsWith(r.value, "http") && exists i | 0 <= i < |SsrPaths| ::
      && Lookup(data, SsrPaths[i]) == Some(Str(r.value))
      && forall j | 0 <= j < i :: !HttpAt(data, SsrPaths[j])
  {
    if !data.Obj? then None
    else
      match FirstHttp(data, SsrPaths)
      case None => None
      case Some((_, u)) => Some(u)
  }

  // ---------------------------------------------------------------- _extract_douyin_video_url

  /** `if urls and len(urls) > 0: return urls[0]['url']`; Some is a `return`, None falls through. */
  function FirstUrl(urls: Json): Result<Option<Json>, string> {
    var nonEmpty :- NonEmpty(urls);
    if !nonEmpty then Ok(None)
    else
      var first :- PyFirst(urls);
      var u :- PyGet(first, "url");
      Ok(Some(u))
  }

  /** `if addr in video: urls = video[addr]['url_list']` followed by `FirstUrl`. */
  function FromAddr(video: Json, addr: string): Result<Option<Json>, string> {
    var has :- PyIn(addr, video);
    if !has then Ok(None)
    else
      var a :- PyGet(video, addr);
      var urls :- PyGet(a, "url_list");
      FirstUrl(urls)
  }

  /** The first element's `video`, when the list is non-empty and that element holds one. */
  function FirstVideo(items: Json): Result<Option<Json>, string> {
    var nonEmpty :- NonEmpty(items);
    if !nonEmpty then Ok(None)
    else
      var item :- PyFirst(items);
      var hasVideo :- PyIn("video", item);
      if !hasVideo then Ok(None)
      else
        var video :- PyGet(item, "video");
        Ok(Some(video))
  }

  /** The `item_list` branch: the play address first, the download address after it. */
  function FromItemList(items: Json): Result<Option<Json>, string> {
    var video :- FirstVideo(items);
    if video.None? then Ok(None)
    else
      var play :- FromAddr(video.value, "play_addr");
      if play.Some? then Ok(play) else FromAddr(video.value, "download_addr")
  }

  /** The `aweme_details` branch: the play address only. */
  function FromDetails(details: Json): Result<Option<Json>, string> {
    var video :- FirstVideo(details);
    if video.None? then Ok(None) else FromAddr(video.value, "play_addr")
  }

  /** The body of the `try`: Some when it returned a value, None when it fell through. */
  function DouyinWalk(api: Json): Result<Option<Json>, string> {
    if !api.Obj? then Ok(None)
    else
      var fromItems :- if "item_list" in api.fields then FromItemList(api.fields["item_list"]) else Ok(None);
      if fromItems.Some? then Ok(fromItems)
      else if "aweme_details" in api.fields then FromDetails(api.fields["aweme_details"])
      else Ok(None)
  }

  /** The three places `_extract_douyin_video_url` looks, in its order. */
  const DouyinPaths: seq<seq<Key>> := [
    [Name("item_list"), Index(0), Name("video"), Name("play_addr"), Name("url_list"), Index(0), Name("url")],
    [Name("item_list"), Index(0), Name("video"), Name("download_addr"), Name("url_list"), Index(0), Name("url")],
    [Name("aweme_details"), Index(0), Name("video"), Name("play_addr"), Name("url_list"), Index(0), Name("url")]
  ]

  /** `_extract_douyin_video_url`: what the walk returned, `Null` when it fell through or raised. */
  function DouyinVideoUrl(api: Json): Json {
    match DouyinWalk(api)
    case Ok(Some(v)) => v
    case _ => Null
  }

  /** `FirstUrl` only ever returns what the walk `[0, 'url']` finds. */
  lemma FirstUrlFound(urls: Json)
    ensures FirstUrl(urls).Ok? && FirstUrl(urls).value.Some? ==>
      Lookup(urls, [Index(0), Name("url")]) == FirstUrl(urls).value
  {
  }

  /** `FromAddr` only ever returns what the walk `[addr, 'url_list', 0, 'url']` finds. */
  lemma FromAddrFound(video: Json, addr: string)
    ensures FromAddr(video, addr).Ok? && FromAddr(video, addr).value.Some? ==>
      Lookup(video, [Name(addr), Name("url_list"), Index(0), Name("url")]) == FromAddr(video, addr).value
  {
    var r := FromAddr(video, addr);
    if r.Ok? && r.value.Some? {
      var a := PyGet(video, addr).value;
      var urls := PyGet(a, "url_list").value;
      FirstUrlFound(urls);
      LookupConcat(video, [Name(addr), Name("url_list")], [Index(0), Name("url")]);
      assert [Name(addr), Name("url_list")] + [Index(0), Name("url")] == [Name(addr), Name("url_list"), Index(0), Name("url")];
    }
  }

  /** `FirstVideo` only ever returns what the walk `[0, 'video']` finds. */
  lemma FirstVideoFound(items: Json)
    ensures FirstVideo(items).Ok? && FirstVideo(items).value.Some? ==>
      Lookup(items, [Index(0), Name("video")]) == FirstVideo(items).value
  {
    var r := FirstVideo(items);
    if r.Ok? && r.value.Some? {
      var item := PyFirst(items).value;
    }
  }

  /** A walk along `[k, 0, 'video']` followed by `rest`. */
  lemma VideoThen(api: Json, k: string, items: Json, video: Json, rest: seq<Key>)
    requires api.Obj? && k in api.fields && api.fields[k] == items
    requires Lookup(items, [Index(0), Name("video")]) == Some(video)
    ensures Lookup(api, [Name(k), Index(0), Name("video")] + rest) == Lookup(video, rest)
  {
    LookupConcat(items, [Index(0), Name("video")], rest);
    assert ([Name(k), Index(0), Name("video")] + rest)[1..] == [Index(0), Name("video")] + rest;
  }

  /**
   * Whatever `_extract_douyin_video_url` returns other than None is the value at the end of one
   * of its three paths: the walk never returns anything it did not find there.
   */
  lemma DouyinUrlOnPath(api: Json)
    ensures DouyinVideoUrl(api) != Null ==>
      exists i | 0 <= i < |DouyinPaths| :: Lookup(api, DouyinPaths[i]) == Some(DouyinVideoUrl(api))
  {
    var r := DouyinWalk(api);
    if r.Ok? && r.value.Some? && r.value.value != Null {
      var fromItems := if "item_list" in api.fields then FromItemList(api.fields["item_list"]) else Ok(None);
      if fromItems.Ok? && fromItems.value.Some? {
        ItemListOnPath(api);
        assert DouyinVideoUrl(api) == fromItems.value.value;
        if Lookup(api, DouyinPaths[0]) == fromItems.value {
          assert Lookup(api, DouyinPaths[0]) == Some(DouyinVideoUrl(api));
        } else {
          assert Lookup(api, DouyinPaths[1]) == Some(DouyinVideoUrl(api));
        }
      } else {
        DetailsOnPath(api);
        assert Lookup(api, DouyinPaths[2]) == Some(DouyinVideoUrl(api));
      }
    }
  }

  /** What the `item_list` branch returns lies at the end of the first or the second path. */
  lemma ItemListOnPath(api: Json)
    requires api.Obj? && "item_list" in api.fields
    requires var r := FromItemList(api.fields["item_list"]); r.Ok? && r.value.Some?
    ensures var r := FromItemList(api.fields["item_list"]);
      Lookup(api, DouyinPaths[0]) == r.value || Lookup(api, DouyinPaths[1]) == r.value
  {
    var items := api.fields["item_list"];
    var video := FirstVideo(items).value.value;
    FirstVideoFound(items);
    var play := FromAddr(video, "play_addr");
    if play.value.Some? {
      FromAddrFound(video, "play_addr");
      VideoThen(api, "item_list", items, video, [Name("play_addr"), Name("url_list"), Index(0), Name("url")]);
    } else {
      FromAddrFound(video, "download_addr");
      VideoThen(api, "item_list", items, video, [Name("download_addr"), Name("url_list"), Index(0), Name("url")]);
    }
  }

  /** What the `aweme_details` branch returns lies at the end of the third path. */
  lemma DetailsOnPath(api: Json)
    requires api.Obj? && "aweme_details" in api.fields
    requires var r := FromDetails(api.fields["aweme_details"]); r.Ok? && r.value.Some?
    ensures Lookup(api, DouyinPaths[2]) == FromDetails(api.fields["aweme_details"]).value
  {
    var details := api.fields["aweme_details"];
    var video := FirstVideo(details).value.value;
    FirstVideoFound(details);
    FromAddrFound(video, "play_addr");
    VideoThen(api, "aweme_details", details, video, [Name("play_addr"), Name("url_list"), Index(0), Name("url")]);
  }

  /** Where the first path leads, `FirstVideo`, `FromAddr` and `FirstUrl` take it. */
  lemma FirstPathWalked(api: Json)
    requires Lookup(api, DouyinPaths[0]).Some?
    ensures DouyinWalk(api) == Ok(Lookup(api, DouyinPaths[0]))
  {
    var items := api.fields["item_list"];
    var item := items.items[0];
    var video := item.fields["video"];
    var urls := video.fields["play_addr"].fields["url_list"];
    assert FirstVideo(items) == Ok(Some(video));
    assert FirstUrl(urls) == Ok(Some(urls.items[0].fields["url"]));
  }

  /** A link at the first path is the answer, whatever the other two hold. */
  lemma PlayAddressFirst(api: Json)
    requires Lookup(api, DouyinPaths[0]).Some?
    ensures DouyinVideoUrl(api) == Lookup(api, DouyinPaths[0]).value
  {
    FirstPathWalked(api);
  }

  /**
   * A play address without its `url_list` raises a KeyError that the handler turns into None,
   * although a download address with a link sits next to it.
   */
  lemma MissingUrlListHidesDownload()
    ensures var api := Obj(map["item_list" := Arr([Obj(map["video" := Obj(map[
                "play_addr" := Obj(map[]),
                "download_addr" := Obj(map["url_list" := Arr([Obj(map["url" := Str("http://v")])])])])])])]);
      && Lookup(api, DouyinPaths[1]) == Some(Str("http://v"))
      && DouyinVideoUrl(api) == Null
  {
  }

  // ---------------------------------------------------------------- _extract_toutiao_video_url

  /** The body of the `try` of `_extract_toutiao_video_url`. */
  function ToutiaoWalk(api: Json): Result<Option<Json>, string> {
    if !api.Obj? || "data" !in api.fields then Ok(None)
    else
      var data := api.fields["data"];
      if !data.Obj? || "video_info" !in data.fields then Ok(None)
      else
        var info := data.fields["video_info"];
        var hasUrl :- PyIn("video_url", info);
        if hasUrl then
          var v :- PyGet(info, "video_url");
          Ok(Some(v))
        else if PyIn("play_url", info).value then
          var v :- PyGet(info, "play_url");
          Ok(Some(v))
        else Ok(None)
  }

  /** `_extract_toutiao_video_url`: `Null` when the walk fell through or raised. */
  function ToutiaoVideoUrl(api: Json): Json {
    match ToutiaoWalk(api)
    case Ok(Some(v)) => v
    case _ => Null
  }

  const VideoInfoPath: seq<Key> := [Name("data"), Name("video_info")]

  /**
   * With a dictionary at `data.video_info`, the answer is its `video_url`, else its `play_url`,
   * else None; with anything else there is no answer but None.
   */
  lemma ToutiaoPrefersVideoUrl(api: Json)
    ensures match Lookup(api, VideoInfoPath)
      case Some(Obj(f)) =>
        ToutiaoVideoUrl(api) == (if "video_url" in f then f["video_url"] else if "play_url" in f then f["play_url"] else Null)
      case _ => ToutiaoVideoUrl(api) == Null
  {
  }
}

=== FILE: naming.dfy ===
/**
 * File naming and speed display of the backend downloader: the sanitised directory and file stem
 * built from a video title, and the unit chosen to show a transfer rate.
 */
module Naming {
  import opened Text

  /** The longest stem the sanitiser keeps unchanged. */
  const MaxFilenameLength: nat := 80

  /** Characters of a long title kept before the hash suffix (`max_filename_length - 15`). */
  const KeptPrefixLength: nat := MaxFilenameLength - 15

  /** Characters of the md5 hex digest appended to a shortened title. */
  const HashLength: nat := 6

  predicate IsHexDigit(c: char) {
    '0' <= c <= '9' || 'a' <= c <= 'f'
  }

  /** What `hashlib.md5(...).hexdigest()` returns: 32 lower-case hex digits. */
  predicate IsHexDigest(h: string) {
    |h| == 32 && forall i | 0 <= i < |h| :: IsHexDigit(h[i])
  }

  /**
   * Python's `\w` for str patterns is Unicode-aware; the model takes it as a predicate and asks
   * only what every version of it satisfies: ASCII letters, digits and '_' are word characters.
   */
  predicate CoversAsciiWord(isWord: char -> bool) {
    forall c: char :: (IsAsciiAlnum(c) || c == '_') ==> isWord(c)
  }

  /** The characters `[^\w\s\-\.#]` does not remove. */
  predicate Kept(c: char, isWord: char -> bool) {
    isWord(c) || IsPySpace(c) || c == '-' || c == '.' || c == '#'
  }

  /** The characters a finished stem may hold. */
  predicate Allowed(c: char, isWord: char -> bool) {
    isWord(c) || c == '-' || c == '.' || c == '#' || c == '_'
  }

  /** `re.sub(r'[^\w\s\-\.#]', '', title)`: every character outside the kept class is deleted. */
  function RemoveDisallowed(s: string, isWord: char -> bool): (r: string)
    ensures |r| <= |s|
    ensures forall i | 0 <= i < |r| :: Kept(r[i], isWord)
    ensures forall i | 0 <= i < |r| :: r[i] in s
    ensures (forall i | 0 <= i < |s| :: Kept(s[i], isWord)) ==> r == s
  {
    if |s| == 0 then ""
    else
      var rest := RemoveDisallowed(s[1..], isWord);
      if Kept(s[0], isWord) then [s[0]] + rest else rest
  }

  /** `re.sub(r'[\s]+', '_', s)`: each maximal run of whitespace becomes one '_'. */
  function CollapseSpaces(s: string): (r: string)
    ensures |r| <= |s|
    ensures forall i | 0 <= i < |r| :: !IsPySpace(r[i]) && (r[i] == '_' || r[i] in s)
    ensures (forall i | 0 <= i < |s| :: !IsPySpace(s[i])) ==> r == s
    decreases |s|
  {
    if |s| == 0 then ""
    else if IsPySpace(s[0]) then
      var t := TrimStart(s, IsPySpace);
      assert |t| < |s|;
      var rest := CollapseSpaces(t);
      CharsOfSuffix(s, t, rest);
      "_" + rest
    else
      [s[0]] + CollapseSpaces(s[1..])
  }

  /** Characters drawn from a suffix of `s` (or '_') are drawn from `s` (or '_'). */
  lemma CharsOfSuffix(s: string, t: string, rest: string)
    requires |t| <= |s| && t == s[|s| - |t|..]
    requires forall i | 0 <= i < |rest| :: rest[i] == '_' || rest[i] in t
    ensures forall i | 0 <= i < |rest| :: rest[i] == '_' || rest[i] in s
  {
    forall i | 0 <= i < |rest| && rest[i] != '_'
      ensures rest[i] in s
    {
      var j :| 0 <= j < |t| && t[j] == rest[i];
      assert s[|s| - |t| + j] == t[j];
    }
  }

  /** Every character of a slice of `s` satisfies what every character of `s` satisfies. */
  lemma SliceKept(s: string, a: nat, b: nat, isWord: char -> bool)
    requires a <= b <= |s|
    requires forall i | 0 <= i < |s| :: Kept(s[i], isWord)
    ensures forall i | 0 <= i < b - a :: Kept(s[a..b][i], isWord)
  {
    forall i | 0 <= i < b - a
      ensures Kept(s[a..b][i], isWord)
    {
      assert s[a..b][i] == s[a + i];
    }
  }

  /** Trimming a string of kept characters leaves kept characters. */
  lemma TrimKept(s: string, isWord: char -> bool)
    requires forall i | 0 <= i < |s| :: Kept(s[i], isWord)
    ensures forall i | 0 <= i < |Trim(s, IsPySpace)| :: Kept(Trim(s, IsPySpace)[i], isWord)
  {
    var a, b :| 0 <= a <= b <= |s| && Trim(s, IsPySpace) == s[a..b];
    SliceKept(s, a, b, isWord);
  }

  /** Collapsing the whitespace of a string of kept characters leaves only allowed ones. */
  lemma CollapseAllowed(s: string, isWord: char -> bool)
    requires forall i | 0 <= i < |s| :: Kept(s[i], isWord)
    ensures forall i | 0 <= i < |CollapseSpaces(s)| :: Allowed(CollapseSpaces(s)[i], isWord)
  {
    var r := CollapseSpaces(s);
    forall i | 0 <= i < |r|
      ensures Allowed(r[i], isWord)
    {
      if r[i] != '_' {
        var j :| 0 <= j < |s| && s[j] == r[i];
        assert Kept(s[j], isWord);
      }
    }
  }

  /** The title after character filtering, trimming and whitespace collapsing, before the length rule. */
  function Sanitized(title: string, isWord: char -> bool): (t: string)
    ensures forall i | 0 <= i < |t| :: !IsPySpace(t[i]) && Allowed(t[i], isWord)
  {
    var kept := RemoveDisallowed(title, isWord);
    var trimmed := Trim(kept, IsPySpace);
    TrimKept(kept, isWord);
    CollapseAllowed(trimmed, isWord);
    CollapseSpaces(trimmed)
  }

  /** Python's `h[:6]`: the first six characters, or all of a shorter string. */
  function Head(h: string, n: nat): (r: string)
    ensures |r| <= n && (|h| >= n ==> r == h[..n])
  {
    if |h| >= n then h[..n] else h
  }

  /** A long stem cut to 65 characters, '_' and the first six digits of its digest. */
  function Shorten(t: string, digest: string, isWord: char -> bool): (r: string)
    requires |t| > MaxFilenameLength && IsHexDigest(digest)
    requires CoversAsciiWord(isWord)
    requires forall i | 0 <= i < |t| :: !IsPySpace(t[i]) && Allowed(t[i], isWord)
    ensures |r| == KeptPrefixLength + 1 + HashLength
    ensures r[..KeptPrefixLength] == t[..KeptPrefixLength] && r[KeptPrefixLength] == '_'
    ensures r[KeptPrefixLength + 1..] == digest[..HashLength]
    ensures forall i | 0 <= i < |r| :: !IsPySpace(r[i]) && Allowed(r[i], isWord)
  {
    var r := t[..KeptPrefixLength] + "_" + Head(digest, HashLength);
    forall i | 0 <= i < |r|
      ensures !IsPySpace(r[i]) && Allowed(r[i], isWord)
    {
      if i < KeptPrefixLength {
        assert r[i] == t[i];
      } else if i > KeptPrefixLength {
        assert r[i] == digest[i - KeptPrefixLength - 1];
        assert IsHexDigit(r[i]);
        assert IsAsciiAlnum(r[i]);
      }
    }
    r
  }

  /**
   * `_get_safe_filename`: the sanitised title when it is at most 80 characters long, otherwise its
   * first 65 characters, '_' and the first six hex digits of the md5 of the sanitised title.
   */
  function SafeFilename(title: string, isWord: char -> bool, md5: string -> string): (r: string)
    requires CoversAsciiWord(isWord)
    requires forall t :: IsHexDigest(md5(t))
    ensures |r| <= MaxFilenameLength
    ensures forall i | 0 <= i < |r| :: !IsPySpace(r[i]) && Allowed(r[i], isWord)
    ensures var t := Sanitized(title, isWord);
      && (|t| <= MaxFilenameLength ==> r == t)
      && (|t| > MaxFilenameLength ==>
            |r| == KeptPrefixLength + 1 + HashLength
            && r[..KeptPrefixLength] == t[..KeptPrefixLength]
            && r[KeptPrefixLength] == '_'
            && r[KeptPrefixLength + 1..] == Head(md5(t), HashLength))
  {
    var t := Sanitized(title, isWord);
    if |t| > MaxFilenameLength then Shorten(t, md5(t), isWord) else t
  }

  /** Sanitising an already sanitised stem changes nothing. */
  lemma SanitizedFixed(s: string, isWord: char -> bool)
    requires CoversAsciiWord(isWord)
    requires forall i | 0 <= i < |s| :: !IsPySpace(s[i]) && Allowed(s[i], isWord)
    ensures Sanitized(s, isWord) == s
  {
    assert forall i | 0 <= i < |s| :: Kept(s[i], isWord) by {
      forall i | 0 <= i < |s|
        ensures Kept(s[i], isWord)
      {
        if s[i] == '_' {
          assert IsAsciiAlnum('_') || '_' == '_';
        }
      }
    }
    assert RemoveDisallowed(s, isWord) == s;
    TrimFixed(s, IsPySpace);
  }

  /** A safe file name is its own safe file name: the sanitiser is idempotent. */
  lemma SafeFilenameIdempotent(title: string, isWord: char -> bool, md5: string -> string)
    requires CoversAsciiWord(isWord)
    requires forall t :: IsHexDigest(md5(t))
    ensures SafeFilename(SafeFilename(title, isWord, md5), isWord, md5) == SafeFilename(title, isWord, md5)
  {
    var r := SafeFilename(title, isWord, md5);
    SanitizedFixed(r, isWord);
  }

  // ---------------------------------------------------------------- transfer rate

  datatype SpeedUnit = BytesPerSecond | KilobytesPerSecond | MegabytesPerSecond | GigabytesPerSecond {
    function Label(): string {
      match this
      case BytesPerSecond => "B/s"
      case KilobytesPerSecond => "KB/s"
      case MegabytesPerSecond => "MB/s"
      case GigabytesPerSecond => "GB/s"
    }

    /** How many bytes one unit stands for. */
    function Scale(): real {
      match this
      case BytesPerSecond => 1.0
      case KilobytesPerSecond => 1024.0
      case MegabytesPerSecond => 1024.0 * 1024.0
      case GigabytesPerSecond => 1024.0 * 1024.0 * 1024.0
    }

    function Rank(): nat {
      match this
      case BytesPerSecond => 0
      case KilobytesPerSecond => 1
      case MegabytesPerSecond => 2
      case GigabytesPerSecond => 3
    }
  }

  /** A rate as `_format_speed` shows it: a number (printed with two decimals) and a unit. */
  datatype Speed = Speed(amount: real, unit: SpeedUnit)

  /**
   * `_format_speed`: the largest of B/s, KB/s, MB/s, GB/s whose scale does not exceed the rate,
   * B/s for anything below 1024 (negative rates included).
   */
  function FormatSpeed(bytesPerSecond: real): (r: Speed)
    ensures r.amount * r.unit.Scale() == bytesPerSecond
    ensures r.unit.BytesPerSecond? <==> bytesPerSecond < 1024.0
    ensures r.unit.Rank() < 3 ==> r.amount < 1024.0
    ensures bytesPerSecond >= 0.0 && !r.unit.BytesPerSecond? ==> r.amount >= 1.0
  {
    if bytesPerSecond < 1024.0 then Speed(bytesPerSecond, BytesPerSecond)
    else if bytesPerSecond < 1024.0 * 1024.0 then Speed(bytesPerSecond / 1024.0, KilobytesPerSecond)
    else if bytesPerSecond < 1024.0 * 1024.0 * 1024.0 then
      Speed(bytesPerSecond / (1024.0 * 1024.0), MegabytesPerSecond)
    else Speed(bytesPerSecond / (1024.0 * 1024.0 * 1024.0), GigabytesPerSecond)
  }

  /** A faster rate never gets a smaller unit. */
  lemma FormatSpeedMonotone(a: real, b: real)
    requires a <= b
    ensures FormatSpeed(a).unit.Rank() <= FormatSpeed(b).unit.Rank()
  {
  }
}

=== FILE: progress.dfy ===
/**
 * Download progress arithmetic: the percentage written while a response body is streamed in
 * chunks, and the two progress hooks handed to yt-dlp (the backend one and the root one).
 * Python computes `int(done / total * scale)` in floating point; the model uses the exact
 * quotient, which is what that expression intends for the byte counts involved.
 */
module Progress {
  import opened Wrappers
  import Naming

  /**
   * Models `int(done / total * scale)` for non-negative counts and a positive total as the floor
   * of the exact ratio; the float expression can land one below it (29 of 100 bytes gives 28).
   */
  function Percent(done: nat, total: nat, scale: nat): (p: nat)
    requires total > 0
    ensures p * total <= done * scale < (p + 1) * total
  {
    done * scale / total
  }

  /** A product with a positive factor keeps the order of the other factors. */
  lemma FactorOrder(x: int, y: int, t: int)
    requires t > 0 && x * t < y * t
    ensures x < y
  {
    assert (y - x) * t == y * t - x * t;
  }

  /** More bytes never give a smaller percentage. */
  lemma PercentMonotone(a: nat, b: nat, total: nat, scale: nat)
    requires total > 0 && a <= b
    ensures Percent(a, total, scale) <= Percent(b, total, scale)
  {
    var pa, pb := Percent(a, total, scale), Percent(b, total, scale);
    assert a * scale <= b * scale;
    FactorOrder(pa, pb + 1, total);
  }

  /**
   * The percentage is not clamped: it stays within `scale` while the bytes do not exceed the
   * announced total, and passing `scale` means more bytes arrived than were announced.
   */
  lemma PercentWithinScale(done: nat, total: nat, scale: nat)
    requires total > 0
    ensures done <= total ==> Percent(done, total, scale) <= scale
    ensures Percent(done, total, scale) > scale ==> done > total
  {
    var p := Percent(done, total, scale);
    if done <= total {
      assert done * scale <= total * scale;
      FactorOrder(p, scale + 1, total);
    }
  }

  /** All of the total is the whole scale. */
  lemma PercentOfAll(total: nat, scale: nat)
    requires total > 0
    ensures Percent(total, total, scale) == scale
  {
    var p := Percent(total, total, scale);
    assert total * scale == scale * total;
    assert (scale + 1) * total == scale * total + total;
    FactorOrder(p, scale + 1, total);
    FactorOrder(scale, p + 1, total);
  }

  /** A body longer than its Content-Length drives the percentage past 100. */
  lemma PercentNotClamped()
    ensures Percent(2, 1, 100) == 200
  {
  }

  /** The bytes received after the given chunks. */
  function Sum(chunks: seq<nat>): nat {
    if |chunks| == 0 then 0 else Sum(chunks[..|chunks| - 1]) + chunks[|chunks| - 1]
  }

  /**
   * The progress values written while `iter_content` yields `chunks`: one write per non-empty
   * chunk, of the percentage reached after it, and none at all when the response announced no
   * length (`content-length` absent or 0).
   */
  function ChunkWrites(chunks: seq<nat>, total: nat, scale: nat): seq<nat> {
    if |chunks| == 0 then []
    else
      ChunkWrites(chunks[..|chunks| - 1], total, scale)
      + (if chunks[|chunks| - 1] > 0 && total > 0 then [Percent(Sum(chunks), total, scale)] else [])
  }

  /** The number of chunks `if chunk:` lets through. */
  function NonEmpty(chunks: seq<nat>): nat {
    if |chunks| == 0 then 0
    else NonEmpty(chunks[..|chunks| - 1]) + (if chunks[|chunks| - 1] > 0 then 1 else 0)
  }

  predicate NonDecreasing(xs: seq<nat>) {
    forall i, j | 0 <= i < j < |xs| :: xs[i] <= xs[j]
  }

  /**
   * The streamed progress writes only ever grow, each is the percentage of the bytes received so
   * far, so none exceeds the final percentage, and one write happens per non-empty chunk.
   */
  lemma {:induction false} ChunkWritesShape(chunks: seq<nat>, total: nat, scale: nat)
    requires total > 0
    ensures var w := ChunkWrites(chunks, total, scale);
      && NonDecreasing(w)
      && |w| == NonEmpty(chunks)
      && (forall i | 0 <= i < |w| :: w[i] <= Percent(Sum(chunks), total, scale))
  {
    if |chunks| > 0 {
      var init := chunks[..|chunks| - 1];
      ChunkWritesShape(init, total, scale);
      PercentMonotone(Sum(init), Sum(chunks), total, scale);
    }
  }

  /** With the bytes staying within the announced length no write exceeds `scale`. */
  lemma ChunkWritesBounded(chunks: seq<nat>, total: nat, scale: nat)
    requires total > 0 && Sum(chunks) <= total
    ensures forall w | w in ChunkWrites(chunks, total, scale) :: w <= scale
  {
    ChunkWritesShape(chunks, total, scale);
    PercentWithinScale(Sum(chunks), total, scale);
  }

  /** Without an announced length nothing is written. */
  lemma {:induction false} NoLengthNoWrites(chunks: seq<nat>, scale: nat)
    ensures ChunkWrites(chunks, 0, scale) == []
  {
    if |chunks| > 0 {
      NoLengthNoWrites(chunks[..|chunks| - 1], scale);
    }
  }

  /**
   * The download loop itself: it accumulates the chunk sizes and records a progress write after
   * every non-empty chunk when the length is known.
   */
  method StreamBody(chunks: seq<nat>, total: nat, scale: nat) returns (received: nat, writes: seq<nat>)
    ensures received == Sum(chunks)
    ensures writes == ChunkWrites(chunks, total, scale)
    ensures total > 0 ==> NonDecreasing(writes) && |writes| == NonEmpty(chunks)
    ensures total == 0 ==> writes == []
  {
    received, writes := 0, [];
    var i := 0;
    while i < |chunks|
      invariant 0 <= i <= |chunks|
      invariant received == Sum(chunks[..i])
      invariant writes == ChunkWrites(chunks[..i], total, scale)
    {
      assert chunks[..i + 1][..i] == chunks[..i];
      if chunks[i] > 0 {
        received := received + chunks[i];
        if total > 0 {
          writes := writes + [Percent(received, total, scale)];
        }
      }
      i := i + 1;
    }
    assert chunks[..|chunks|] == chunks;
    if total > 0 {
      ChunkWritesShape(chunks, total, scale);
    } else {
      NoLengthNoWrites(chunks, scale);
    }
  }

  // ---------------------------------------------------------------- yt-dlp progress hooks

  /** A key of a Python dict: missing, present and holding None, or present with a value. */
  datatype PyField<T> = Missing | PyNone | Has(value: T)

  /** Python truthiness of a count read with `'key' in d and d['key']`: present, not None and not 0. */
  predicate Truthy(f: PyField<nat>) {
    f.Has? && f.value != 0
  }

  /** The fields of a yt-dlp progress dictionary the hooks read. yt-dlp reports an unknown total or speed as None. */
  datatype HookEvent = HookEvent(
    status: string,
    totalBytes: PyField<nat>,
    downloadedBytes: PyField<nat>,
    speed: PyField<real>)

  /**
   * What one hook call does to the task: nothing, a progress write (with the speed written next,
   * or an exception raised right after the progress write), or an exception before any write.
   */
  datatype HookEffect =
    | NoWrite
    | WriteProgress(progress: nat, speed: Option<Naming.Speed>, raisedAfter: Option<string>)
    | Raises(error: string)

  /** `str()` of the exceptions the hooks can raise: a division by an integer 0, a missing key. */
  const ZeroDivision: string := "division by zero"
  const MissingKey: string := "'downloaded_bytes'"
  /** `None < 1024` in `_format_speed`. */
  const NoneSpeedCompare: string := "'<' not supported between instances of 'NoneType' and 'int'"

  /** Python's type name of a count field that is present. */
  function TypeName(f: PyField<nat>): string {
    if f.PyNone? then "'NoneType'" else "'int'"
  }

  /** `str()` of the TypeError `downloaded / total` raises when either holds None. */
  function DivideTypeError(downloaded: PyField<nat>, total: PyField<nat>): string {
    "unsupported operand type(s) for /: " + TypeName(downloaded) + " and " + TypeName(total)
  }

  /**
   * `_ytdlp_progress_hook` of the backend downloader: with both byte-count keys present it
   * divides, which raises on a None in either or a zero total; otherwise it writes the
   * percentage and, when a speed key is present, formats it, which raises on a None speed after
   * the progress is already written.
   */
  function BackendHook(d: HookEvent): (r: HookEffect)
    ensures r.NoWrite? <==> d.status != "downloading" || d.totalBytes.Missing? || d.downloadedBytes.Missing?
    ensures r.WriteProgress? <==>
      (d.status == "downloading" && Truthy(d.totalBytes) && d.downloadedBytes.Has?)
    ensures r.Raises? && (d.totalBytes.PyNone? || d.downloadedBytes.PyNone?) ==>
      r.error == DivideTypeError(d.downloadedBytes, d.totalBytes)
    ensures r.Raises? && d.totalBytes.Has? && d.downloadedBytes.Has? ==> d.totalBytes.value == 0 && r.error == ZeroDivision
    ensures r.WriteProgress? ==>
      r.progress == Percent(d.downloadedBytes.value, d.totalBytes.value, 100)
      && (r.speed.Some? <==> d.speed.Has?)
      && (r.speed.Some? ==> r.speed.value.amount * r.speed.value.unit.Scale() == d.speed.value)
      && (r.raisedAfter.Some? <==> d.speed.PyNone?)
      && (r.raisedAfter.Some? ==> r.raisedAfter.value == NoneSpeedCompare)
  {
    if d.status == "downloading" && !d.totalBytes.Missing? && !d.downloadedBytes.Missing? then
      if d.totalBytes.PyNone? || d.downloadedBytes.PyNone? then Raises(DivideTypeError(d.downloadedBytes, d.totalBytes))
      else if d.totalBytes.value == 0 then Raises(ZeroDivision)
      else
        var p := Percent(d.downloadedBytes.value, d.totalBytes.value, 100);
        match d.speed
        case Missing => WriteProgress(p, None, None)
        case PyNone => WriteProgress(p, None, Some(NoneSpeedCompare))
        case Has(v) => WriteProgress(p, Some(Naming.FormatSpeed(v)), None)
    else NoWrite
  }

  /**
   * `_progress_hook` of the root downloader: it writes only for a truthy `total_bytes`, and then
   * reads `downloaded_bytes` without checking that it exists or is a number. It never reports a
   * speed.
   */
  function RootHook(d: HookEvent): (r: HookEffect)
    ensures r.WriteProgress? <==>
      (d.status == "downloading" && Truthy(d.totalBytes) && d.downloadedBytes.Has?)
    ensures r.Raises? <==>
      (d.status == "downloading" && Truthy(d.totalBytes) && !d.downloadedBytes.Has?)
    ensures r.Raises? ==>
      r.error == (if d.downloadedBytes.Missing? then MissingKey else DivideTypeError(d.downloadedBytes, d.totalBytes))
    ensures r.WriteProgress? ==>
      r.progress == Percent(d.downloadedBytes.value, d.totalBytes.value, 100) && r.speed.None? && r.raisedAfter.None?
  {
    if d.status == "downloading" && Truthy(d.totalBytes) then
      match d.downloadedBytes
      case Missing => Raises(MissingKey)
      case PyNone => Raises(DivideTypeError(d.downloadedBytes, d.totalBytes))
      case Has(n) => WriteProgress(Percent(n, d.totalBytes.value, 100), None, None)
    else NoWrite
  }

  /**
   * The two hooks write the same percentage exactly when either writes. Otherwise they part ways
   * only where the backend reads a key by presence and the root by truthiness: a total that is 0
   * or None (the backend raises, the root stays silent), and a missing downloaded count (the root
   * raises, the backend stays silent). Only the backend can raise after writing, on a None speed.
   */
  lemma HooksAgree(d: HookEvent)
    ensures BackendHook(d).WriteProgress? <==> RootHook(d).WriteProgress?
    ensures BackendHook(d).WriteProgress? ==> BackendHook(d).progress == RootHook(d).progress
    ensures BackendHook(d).Raises? && !RootHook(d).Raises? ==>
      RootHook(d).NoWrite? && (d.totalBytes.PyNone? || d.totalBytes == Has(0))
    ensures RootHook(d).Raises? && !BackendHook(d).Raises? ==>
      BackendHook(d).NoWrite? && d.downloadedBytes.Missing?
  {
  }
}

=== FILE: scrape.dfy ===
/**
 * The scraper's text helpers (`backend/core/video_scraper.py`): the handful of regular
 * expressions it searches with, written out by hand, and what it builds from their matches —
 * bilibili ids, titles, item ids — plus the check that a link points at a video stream.
 */
module Scrape {
  import opened Wrappers
  import opened Text
  import Json

  // ---------------------------------------------------------------- the patterns

  /** A character class of the patterns: `\d` and `[0-9]`, `[a-zA-Z0-9]`, `[^c]`. */
  datatype Class = Digit | Alnum | Not(c: char)

  predicate InClass(c: char, k: Class) {
    match k
    case Digit => IsAsciiDigit(c)
    case Alnum => IsAsciiAlnum(c)
    case Not(x) => c != x
  }

  /**
   * `prefix` then, when `gap` is `Some(c)`, `[^c]*c`, then the captured `(class+)`, then `suffix`,
   * all literal text. Every pattern the scraper uses has this shape.
   */
  datatype Pattern = Pattern(prefix: string, gap: Option<char>, cls: Class, suffix: string)

  /**
   * The suffix cannot begin inside the capture, so the only capture that can be followed by it
   * is the longest one: with this shape a backtracking search and a greedy one agree.
   */
  predicate Greedy(p: Pattern) {
    |p.suffix| == 0 || !InClass(p.suffix[0], p.cls)
  }

  /** The end of the run of `k` characters starting at `j`. */
  function RunEnd(s: string, j: nat, k: Class): (e: nat)
    requires j <= |s|
    ensures j <= e <= |s|
    ensures forall m | j <= m < e :: InClass(s[m], k)
    ensures e == |s| || !InClass(s[e], k)
    decreases |s| - j
  {
    if j < |s| && InClass(s[j], k) then RunEnd(s, j + 1, k) else j
  }

  /** A match of a pattern: where it starts, what it captured, where it ends. */
  datatype Hit = Hit(pos: nat, capture: string, end: nat)

  /** Where the capture starts for a match at `i`, once the prefix and the gap are read. */
  function CaptureStart(s: string, p: Pattern, i: nat): (r: Option<nat>)
    requires OccursAt(s, p.prefix, i)
    ensures r.Some? ==> i + |p.prefix| <= r.value <= |s|
  {
    var k := i + |p.prefix|;
    match p.gap
    case None => Some(k)
    case Some(c) =>
      var g := RunEnd(s, k, Not(c));
      if g < |s| then Some(g + 1) else None
  }

  /** The match at `i`, with the longest capture. */
  function HitAt(s: string, p: Pattern, i: nat): (r: Option<Hit>)
    ensures r.Some? ==> r.value.pos == i && i < r.value.end <= |s|
  {
    if !OccursAt(s, p.prefix, i) then None
    else
      match CaptureStart(s, p, i)
      case None => None
      case Some(start) =>
        var e := RunEnd(s, start, p.cls);
        if e > start && OccursAt(s, p.suffix, e) then Some(Hit(i, s[start..e], e + |p.suffix|)) else None
  }

  /** A capture starting at `start` fits the gap of `p` read from `k`. */
  predicate GapFits(s: string, p: Pattern, k: nat, start: nat) {
    match p.gap
    case None => start == k
    case Some(g) => k < start <= |s| && s[start - 1] == g && forall m | k <= m < start - 1 :: s[m] != g
  }

  /** `c` can be captured at `start`: a non-empty run of class characters followed by the suffix. */
  predicate CaptureFits(s: string, p: Pattern, start: nat, c: string) {
    && OccursAt(s, c, start) && |c| > 0
    && (forall m | 0 <= m < |c| :: InClass(c[m], p.cls))
    && OccursAt(s, p.suffix, start + |c|)
  }

  /** `c` is captured by a match of `p` at `i` in the regular-expression sense, longest or not. */
  predicate MatchesAt(s: string, p: Pattern, i: nat, c: string) {
    && OccursAt(s, p.prefix, i)
    && exists start: nat | i + |p.prefix| <= start <= |s| :: GapFits(s, p, i + |p.prefix|, start) && CaptureFits(s, p, start, c)
  }

  /** What `HitAt` finds is a match. */
  lemma HitIsMatch(s: string, p: Pattern, i: nat)
    requires HitAt(s, p, i).Some?
    ensures MatchesAt(s, p, i, HitAt(s, p, i).value.capture)
  {
    var start := CaptureStart(s, p, i).value;
    var c := HitAt(s, p, i).value.capture;
    StartFitsGap(s, p, i);
    var e := RunEnd(s, start, p.cls);
    assert c == s[start..e];
    assert CaptureFits(s, p, start, c) by {
      assert s[start..start + |c|] == c;
      forall m | 0 <= m < |c|
        ensures InClass(c[m], p.cls)
      {
        assert c[m] == s[start + m];
      }
    }
  }

  /** The start `CaptureStart` computes fits the gap. */
  lemma StartFitsGap(s: string, p: Pattern, i: nat)
    requires OccursAt(s, p.prefix, i) && CaptureStart(s, p, i).Some?
    ensures GapFits(s, p, i + |p.prefix|, CaptureStart(s, p, i).value)
  {
  }

  /** A run of class characters from `j` to `e` ends no earlier than `e`, and exactly there when `s[e]` stops it. */
  lemma {:induction false} RunEndCovers(s: string, j: nat, k: Class, e: nat)
    requires j <= e <= |s|
    requires forall m | j <= m < e :: InClass(s[m], k)
    ensures RunEnd(s, j, k) >= e
    ensures e == |s| || !InClass(s[e], k) ==> RunEnd(s, j, k) == e
    decreases e - j
  {
    if j < e {
      RunEndCovers(s, j + 1, k, e);
    }
  }

  /** The only start the gap allows is the one `CaptureStart` computes. */
  lemma GapStart(s: string, p: Pattern, i: nat, start: nat)
    requires OccursAt(s, p.prefix, i) && GapFits(s, p, i + |p.prefix|, start)
    ensures CaptureStart(s, p, i) == Some(start)
  {
    if p.gap.Some? {
      RunEndCovers(s, i + |p.prefix|, Not(p.gap.value), start - 1);
    }
  }

  /** A capture that fits lies within the longest run, and is all of it when a suffix follows. */
  lemma CaptureInRun(s: string, p: Pattern, start: nat, c: string)
    requires Greedy(p) && start <= |s| && CaptureFits(s, p, start, c)
    ensures c <= s[start..RunEnd(s, start, p.cls)]
    ensures |p.suffix| > 0 ==> RunEnd(s, start, p.cls) == start + |c|
  {
    var e := start + |c|;
    forall m | start <= m < e
      ensures InClass(s[m], p.cls)
    {
      assert s[m] == c[m - start];
    }
    RunEndCovers(s, start, p.cls, e);
    if |p.suffix| > 0 && e < |s| {
      assert s[e] == p.suffix[0];
    }
    assert s[start..RunEnd(s, start, p.cls)][..|c|] == c;
  }

  /**
   * A match at `i` of a greedy pattern is found by `HitAt`, which captures the longest text any
   * match there captures; with a suffix there is only one.
   */
  lemma MatchIsHit(s: string, p: Pattern, i: nat, c: string)
    requires Greedy(p) && MatchesAt(s, p, i, c)
    ensures HitAt(s, p, i).Some?
    ensures c <= HitAt(s, p, i).value.capture
    ensures |p.suffix| > 0 ==> HitAt(s, p, i).value.capture == c
  {
    var start: nat :| i + |p.prefix| <= start <= |s| && GapFits(s, p, i + |p.prefix|, start) && CaptureFits(s, p, start, c);
    GapStart(s, p, i, start);
    CaptureInRun(s, p, start, c);
  }

  // ---------------------------------------------------------------- re.search and re.findall

  /** `re.search` from `from` on: the leftmost position with a match. */
  function SearchFrom(s: string, p: Pattern, from: nat): (r: Option<Hit>)
    ensures r.Some? ==> from <= r.value.pos && HitAt(s, p, r.value.pos) == r
    ensures r.Some? ==> forall j | from <= j < r.value.pos :: HitAt(s, p, j).None?
    ensures r.None? ==> forall j | from <= j <= |s| :: HitAt(s, p, j).None?
    decreases |s| - from
  {
    if from > |s| then None
    else if HitAt(s, p, from).Some? then HitAt(s, p, from)
    else SearchFrom(s, p, from + 1)
  }

  function Search(s: string, p: Pattern): Option<Hit> {
    SearchFrom(s, p, 0)
  }

  /**
   * The search finds the leftmost position where the pattern matches at all, and there the
   * longest capture; it finds nothing only when the pattern matches nowhere.
   */
  lemma SearchIsLeftmost(s: string, p: Pattern)
    requires Greedy(p)
    ensures Search(s, p).Some? ==>
      && MatchesAt(s, p, Search(s, p).value.pos, Search(s, p).value.capture)
      && forall j: nat, c | j < Search(s, p).value.pos :: !MatchesAt(s, p, j, c)
    ensures Search(s, p).None? ==> forall j: nat, c :: !MatchesAt(s, p, j, c)
  {
    var r := Search(s, p);
    if r.Some? {
      HitIsMatch(s, p, r.value.pos);
    }
    forall j: nat, c | MatchesAt(s, p, j, c)
      ensures r.Some? && r.value.pos <= j
    {
      MatchIsHit(s, p, j, c);
    }
  }

  /** `re.findall` from `from` on: each match's capture, the next search starting where the last match ended. */
  function FindAllFrom(s: string, p: Pattern, from: nat): (r: seq<string>)
    ensures |r| > 0 <==> SearchFrom(s, p, from).Some?
    ensures |r| > 0 ==> r[0] == SearchFrom(s, p, from).value.capture
    ensures forall k | 0 <= k < |r| :: |r[k]| > 0 && forall m | 0 <= m < |r[k]| :: InClass(r[k][m], p.cls)
    decreases |s| - from
  {
    match SearchFrom(s, p, from)
    case None => []
    case Some(h) => [h.capture] + FindAllFrom(s, p, h.end)
  }

  function FindAll(s: string, p: Pattern): seq<string> {
    FindAllFrom(s, p, 0)
  }

  /** None of the first `n` patterns matches anywhere. */
  predicate NoneMatch(s: string, patterns: seq<Pattern>, n: nat)
    requires n <= |patterns|
  {
    forall j | 0 <= j < n :: Search(s, patterns[j]).None?
  }

  /** Past a first pattern that does not match, "none of the first n+1" is "none of the next n". */
  lemma NoneMatchShift(s: string, patterns: seq<Pattern>, n: nat)
    requires n < |patterns| && Search(s, patterns[0]).None?
    ensures NoneMatch(s, patterns[1..], n) <==> NoneMatch(s, patterns, n + 1)
  {
    if NoneMatch(s, patterns[1..], n) {
      forall j | 0 <= j < n + 1
        ensures Search(s, patterns[j]).None?
      {
        if j > 0 {
          assert patterns[j] == patterns[1..][j - 1];
        }
      }
    }
  }

  /** The first pattern in the list that matches anywhere, and its capture. */
  function FirstMatch(s: string, patterns: seq<Pattern>): (r: Option<(nat, string)>)
    ensures r.None? <==> NoneMatch(s, patterns, |patterns|)
    ensures r.Some? ==>
      && r.value.0 < |patterns| && Search(s, patterns[r.value.0]).Some?
      && Search(s, patterns[r.value.0]).value.capture == r.value.1
      && NoneMatch(s, patterns, r.value.0)
    decreases |patterns|
  {
    if |patterns| == 0 then None
    else
      match Search(s, patterns[0])
      case Some(h) => Some((0, h.capture))
      case None =>
        match FirstMatch(s, patterns[1..])
        case None =>
          NoneMatchShift(s, patterns, |patterns| - 1);
          None
        case Some((k, c)) =>
          NoneMatchShift(s, patterns, k);
          assert patterns[k + 1] == patterns[1..][k];
          Some((k + 1, c))
  }

  /** The capture of the first pattern in the list that matches anywhere. */
  function FirstCapture(s: string, patterns: seq<Pattern>): Option<string> {
    match FirstMatch(s, patterns)
    case None => None
    case Some((_, c)) => Some(c)
  }

  /** Every match of the first pattern in the list that matches anywhere; empty when none does. */
  function FirstFindAll(s: string, patterns: seq<Pattern>): (r: seq<string>)
    ensures |r| > 0 <==> FirstMatch(s, patterns).Some?
    ensures |r| > 0 ==> r[0] == FirstMatch(s, patterns).value.1
  {
    if |patterns| == 0 then []
    else if Search(s, patterns[0]).Some? then FindAll(s, patterns[0])
    else FirstFindAll(s, patterns[1..])
  }

  // ---------------------------------------------------------------- ids

  const BvPattern: Pattern := Pattern("BV", None, Alnum, "")
  const EpPattern: Pattern := Pattern("ep", None, Digit, "")
  const ShortLinkPattern: Pattern := Pattern("b23.tv/", None, Alnum, "")

  /**
   * `_resolve_bilibili_short_url`: the `Location` header b23.tv answers with for the code (None
   * when the request raised) searched for a BV id.
   */
  function ResolveShortLink(code: string, location: string -> Option<string>): Option<string> {
    match location(code)
    case None => None
    case Some(loc) =>
      match Search(loc, BvPattern)
      case None => None
      case Some(h) => Some("BV" + h.capture)
  }

  /**
   * `_extract_bilibili_id`: 'BV' and the run after the first 'BV' followed by a letter or digit;
   * else 'EP' and the digits after the first 'ep' followed by digits (the bangumi lookup answers
   * that whatever the network does); else the short link resolved; else None.
   */
  function BilibiliId(url: string, location: string -> Option<string>): (r: Option<string>)
    ensures Search(url, BvPattern).Some? ==> r == Some("BV" + Search(url, BvPattern).value.capture)
    ensures Search(url, BvPattern).None? && Search(url, EpPattern).Some? ==>
      r == Some("EP" + Search(url, EpPattern).value.capture)
  {
    match Search(url, BvPattern)
    case Some(h) => Some("BV" + h.capture)
    case None =>
      match Search(url, EpPattern)
      case Some(h) => Some("EP" + h.capture)
      case None =>
        match Search(url, ShortLinkPattern)
        case Some(h) => ResolveShortLink(h.capture, location)
        case None => None
  }

  /** Every id is 'BV' or 'EP' and then a non-empty run of letters and digits. */
  lemma BilibiliIdShape(url: string, location: string -> Option<string>)
    ensures var r := BilibiliId(url, location);
      r.Some? ==> (|r.value| > 2 && (r.value[..2] == "BV" || r.value[..2] == "EP")
                   && forall m | 2 <= m < |r.value| :: IsAsciiAlnum(r.value[m]))
  {
    var r := BilibiliId(url, location);
    if r.Some? {
      var h: Hit;
      if Search(url, BvPattern).Some? {
        h := Search(url, BvPattern).value;
      } else if Search(url, EpPattern).Some? {
        h := Search(url, EpPattern).value;
      } else {
        h := Search(location(Search(url, ShortLinkPattern).value.capture).value, BvPattern).value;
      }
      assert r.value[2..] == h.capture;
    }
  }

  /** The network is asked only when the link holds neither a BV id nor an episode number. */
  lemma BilibiliIdOffline(url: string, a: string -> Option<string>, b: string -> Option<string>)
    requires Search(url, BvPattern).Some? || Search(url, EpPattern).Some?
    ensures BilibiliId(url, a) == BilibiliId(url, b)
  {
  }

  /** `_extract_toutiao_video_id`: the digits after '/video/', else the code after '/is/'. */
  const ToutiaoVideoIdPatterns: seq<Pattern> := [Pattern("/video/", None, Digit, ""), Pattern("/is/", None, Alnum, "")]

  /** `_extract_douyin_item_ids`: every id of the first of the three keys that occurs. */
  const DouyinItemIdPatterns: seq<Pattern> := [
    Pattern("\"aweme_id\":\"", None, Digit, "\""),
    Pattern("\"item_ids\":[\"", None, Digit, "\"]"),
    Pattern("\"itemId\":\"", None, Digit, "\"")
  ]

  /** `_extract_toutiao_item_id`: the first id of the first of the three keys that occurs. */
  const ToutiaoItemIdPatterns: seq<Pattern> := [
    Pattern("\"item_id\":\"", None, Digit, "\""),
    Pattern("\"article_id\":\"", None, Digit, "\""),
    Pattern("\"group_id\":\"", None, Digit, "\"")
  ]

  function ToutiaoVideoId(url: string): Option<string> {
    FirstCapture(url, ToutiaoVideoIdPatterns)
  }

  function DouyinItemIds(html: string): seq<string> {
    FirstFindAll(html, DouyinItemIdPatterns)
  }

  function ToutiaoItemId(html: string): Option<string> {
    FirstCapture(html, ToutiaoItemIdPatterns)
  }

  /**
   * The douyin ids are digit strings; the list is empty exactly when no key occurs, and otherwise
   * starts with the first id of the first key that does.
   */
  lemma ItemIdsAreDigits(html: string)
    ensures forall k | 0 <= k < |DouyinItemIds(html)| :: |DouyinItemIds(html)[k]| > 0 && AllDigits(DouyinItemIds(html)[k])
    ensures |DouyinItemIds(html)| > 0 <==> exists k | 0 <= k < |DouyinItemIdPatterns| :: Search(html, DouyinItemIdPatterns[k]).Some?
    ensures |DouyinItemIds(html)| > 0 ==> Some(DouyinItemIds(html)[0]) == FirstCapture(html, DouyinItemIdPatterns)
  {
    DigitPatterns(html, DouyinItemIdPatterns);
  }

  /** The toutiao item id is a digit string. */
  lemma ToutiaoItemIdIsDigits(html: string)
    ensures ToutiaoItemId(html).Some? ==> AllDigits(ToutiaoItemId(html).value)
  {
    DigitPatterns(html, ToutiaoItemIdPatterns);
  }

  /** What the first matching digit pattern yields, through `findall` or `search`, is digits. */
  lemma DigitPatterns(s: string, patterns: seq<Pattern>)
    requires forall k | 0 <= k < |patterns| :: patterns[k].cls == Digit
    ensures forall k | 0 <= k < |FirstFindAll(s, patterns)| :: |FirstFindAll(s, patterns)[k]| > 0 && AllDigits(FirstFindAll(s, patterns)[k])
    ensures |FirstFindAll(s, patterns)| > 0 <==> exists k | 0 <= k < |patterns| :: Search(s, patterns[k]).Some?
    ensures |FirstFindAll(s, patterns)| > 0 ==> Some(FirstFindAll(s, patterns)[0]) == FirstCapture(s, patterns)
    ensures FirstCapture(s, patterns).Some? ==> AllDigits(FirstCapture(s, patterns).value)
  {
    FindAllDigits(s, patterns);
    var r := FirstMatch(s, patterns);
    if r.Some? {
      CaptureInClass(s, patterns[r.value.0]);
    }
  }

  /** A search's capture is made of class characters. */
  lemma CaptureInClass(s: string, p: Pattern)
    requires Search(s, p).Some?
    ensures forall m | 0 <= m < |Search(s, p).value.capture| :: InClass(Search(s, p).value.capture[m], p.cls)
  {
    var h := Search(s, p).value;
    var start := CaptureStart(s, p, h.pos).value;
    assert h.capture == s[start..RunEnd(s, start, p.cls)];
  }

  /** Findall over digit patterns gives digit strings. */
  lemma {:induction false} FindAllDigits(s: string, patterns: seq<Pattern>)
    requires forall k | 0 <= k < |patterns| :: patterns[k].cls == Digit
    ensures forall k | 0 <= k < |FirstFindAll(s, patterns)| :: |FirstFindAll(s, patterns)[k]| > 0 && AllDigits(FirstFindAll(s, patterns)[k])
  {
    if |patterns| > 0 && Search(s, patterns[0]).None? {
      FindAllDigits(s, patterns[1..]);
    }
  }

  // ---------------------------------------------------------------- titles

  const UnknownTitle: string := "未知标题"

  const BilibiliTitlePatterns: seq<Pattern> := [
    Pattern("<title>", None, Not('<'), "</title>"),
    Pattern("\"title\":\"", None, Not('"'), "\""),
    Pattern("h1", Some('>'), Not('<'), "</h1>")
  ]
  const BilibiliTitleNoise: seq<string> := ["_哔哩哔哩_bilibili", "- 哔哩哔哩"]

  const DouyinTitlePatterns: seq<Pattern> := [
    Pattern("<title>", None, Not('<'), "</title>"),
    Pattern("\"desc\":\"", None, Not('"'), "\""),
    Pattern("\"title\":\"", None, Not('"'), "\"")
  ]
  const DouyinTitleNoise: seq<string> := ["- 抖音", "抖音"]

  const ToutiaoTitlePatterns: seq<Pattern> := [
    Pattern("<title>", None, Not('<'), "</title>"),
    Pattern("\"title\":\"", None, Not('"'), "\""),
    Pattern("\"article_title\":\"", None, Not('"'), "\"")
  ]
  const ToutiaoTitleNoise: seq<string> := ["- 今日头条", "今日头条"]

  /** The `.replace(x, '')` calls, in order. */
  function RemoveAll(s: string, noise: seq<string>): string
    requires forall k | 0 <= k < |noise| :: |noise[k]| > 0
    decreases |noise|
  {
    if |noise| == 0 then s else RemoveAll(ReplaceAll(s, noise[0], ""), noise[1..])
  }

  /** Removing strings that do not occur changes nothing. */
  lemma {:induction false} RemoveAbsent(s: string, noise: seq<string>)
    requires forall k | 0 <= k < |noise| :: |noise[k]| > 0 && !Contains(s, noise[k])
    ensures RemoveAll(s, noise) == s
  {
    if |noise| > 0 {
      ReplaceAllAbsent(s, noise[0], "");
      RemoveAbsent(s, noise[1..]);
    }
  }

  /**
   * The title extractors: the capture of the first pattern that matches, stripped, with the
   * platform's names removed; '未知标题' when no pattern matches.
   */
  function Title(html: string, patterns: seq<Pattern>, noise: seq<string>): (r: string)
    requires forall k | 0 <= k < |noise| :: |noise[k]| > 0
    ensures FirstCapture(html, patterns).None? ==> r == UnknownTitle
  {
    match FirstCapture(html, patterns)
    case None => UnknownTitle
    case Some(c) => RemoveAll(Trim(c, IsPySpace), noise)
  }

  /**
   * A captured title that is already stripped and holds none of the platform's names comes back
   * as it was found.
   */
  lemma CleanTitleKept(html: string, patterns: seq<Pattern>, noise: seq<string>)
    requires forall k | 0 <= k < |noise| :: |noise[k]| > 0
    requires FirstCapture(html, patterns).Some?
    requires var c := FirstCapture(html, patterns).value;
      (|c| > 0 ==> !IsPySpace(c[0]) && !IsPySpace(c[|c| - 1])) && forall k | 0 <= k < |noise| :: !Contains(c, noise[k])
    ensures Title(html, patterns, noise) == FirstCapture(html, patterns).value
  {
    var c := FirstCapture(html, patterns).value;
    TrimFixed(c, IsPySpace);
    RemoveAbsent(c, noise);
  }

  /**
   * The names are removed in one left-to-right pass, so removing one occurrence can join two
   * halves into a new one: the douyin title keeps '抖音' here.
   */
  lemma DouyinNameSurvives()
    ensures RemoveAll("抖抖音音", DouyinTitleNoise) == "抖音"
  {
    assert ReplaceAll("抖抖音音", "- 抖音", "") == "抖抖音音";
    assert ReplaceAll("抖抖音音", "抖音", "") == "抖音";
  }

  // ---------------------------------------------------------------- _is_valid_video_url

  /** `re.search(a + '.*' + b)`: `b` somewhere after `a` with no line break between them. */
  predicate Then(s: string, a: string, b: string) {
    exists i: nat, j: nat | i + |a| <= j <= |s| ::
      OccursAt(s, a, i) && OccursAt(s, b, j) && forall m | i + |a| <= m < j :: s[m] != '\n'
  }

  /** `/video/\d+$`: a video page number at the very end, or just before a final line break. */
  predicate VideoPageAtEnd(s: string) {
    exists i: nat | i + 7 <= |s| :: OccursAt(s, "/video/", i) &&
      var rest := s[i + 7..];
      || (|rest| > 0 && AllDigits(rest))
      || (|rest| > 1 && rest[|rest| - 1] == '\n' && AllDigits(rest[..|rest| - 1]))
  }

  /** The page links the check refuses. */
  predicate PageLink(s: string) {
    || VideoPageAtEnd(s)
    || Contains(s, "/share/video/")
    || Contains(s, "www.douyin.com/video/")
    || Contains(s, "iesdouyin.com/share/")
  }

  /** The stream links it accepts. */
  predicate StreamLink(s: string) {
    || Contains(s, ".mp4")
    || Contains(s, ".m3u8")
    || Then(s, "video", ".douyinvod.com")
    || Then(s, "v", ".douyinvod.com")
    || Then(s, "api", ".amemv.com")
  }

  /** `_is_valid_video_url`: a non-empty string, no page pattern, some stream pattern. */
  function IsValidVideoUrl(url: Json.Json): (r: bool)
    ensures r ==> url.Str? && url.s != ""
  {
    if !Json.PyTruthy(url) || !url.Str? then false
    else if PageLink(url.s) then false
    else StreamLink(url.s)
  }

  /** A piece of a concatenation occurs in it. */
  lemma ContainsPiece(a: string, t: string, c: string)
    ensures Contains(a + t + c, t)
  {
    assert (a + t + c)[|a|..|a| + |t|] == t;
    assert OccursAt(a + t + c, t, |a|);
  }

  /** A piece at the end of a concatenation occurs in it. */
  lemma ContainsTail(a: string, t: string)
    ensures Contains(a + t, t)
  {
    assert (a + t)[|a|..] == t;
    assert OccursAt(a + t, t, |a|);
  }

  /** A douyin page link is refused even when it also looks like a stream. */
  lemma PageLinkWins(scheme: string, id: string)
    ensures var u := scheme + "www.douyin.com/video/" + id + ".mp4";
      StreamLink(u) && !IsValidVideoUrl(Json.Str(u))
  {
    var page := "www.douyin.com/video/";
    var u := scheme + page + id + ".mp4";
    ContainsPiece(scheme, page, id + ".mp4");
    AppendAssoc(scheme + page, id, ".mp4");
    ContainsTail(scheme + page + id, ".mp4");
    assert Contains(u, page);
  }

  /**
   * `a.*b` implies `p.*b` for a prefix `p` of `a` when the rest of `a` holds no line break: the
   * dot run simply absorbs it.
   */
  lemma ThenPrefix(s: string, a: string, p: string, b: string)
    requires p <= a
    requires forall k | |p| <= k < |a| :: a[k] != '\n'
    ensures Then(s, a, b) ==> Then(s, p, b)
  {
    if Then(s, a, b) {
      var i: nat, j: nat :| i + |a| <= j <= |s| && OccursAt(s, a, i) && OccursAt(s, b, j)
        && forall m | i + |a| <= m < j :: s[m] != '\n';
      assert s[i..i + |p|] == s[i..i + |a|][..|p|];
      forall m | i + |p| <= m < j
        ensures s[m] != '\n'
      {
        if m < i + |a| {
          assert s[m] == s[i..i + |a|][m - i];
        }
      }
      assert OccursAt(s, p, i);
    }
  }

  /** The 'video…douyinvod' pattern never decides anything: the 'v…douyinvod' one matches too. */
  lemma VideoPatternRedundant(s: string, b: string)
    ensures Then(s, "video", b) ==> Then(s, "v", b)
  {
    ThenPrefix(s, "video", "v", b);
  }
}

=== FILE: storage.dfy ===
/**
 * The storage manager (`storage_manager.py`): the storage path with its guards, and the
 * migration state machine kept in the store's config keys — migrate, continue, cancel and the
 * check for an unfinished migration — with the copy loop's counters and progress writes. The
 * filesystem is an oracle: which paths exist and are directories, and how each file copy went.
 */
module Storage {
  import opened Wrappers
  import opened Text
  import Store
  import Progress

  /** What the filesystem answers about paths. */
  datatype Fs = Fs(pathExists: string -> bool, isDir: string -> bool)

  const MissingDirPrefix: string := "目录不存在: "
  const NotDirPrefix: string := "路径不是目录: "
  const MissingOldPrefix: string := "原存储目录不存在: "

  /**
   * `set_storage_path`: a path that does not exist, or is not a directory, is refused with the
   * path in the message; any other is stored as it is.
   */
  function SetStoragePath(s: Store.Store, path: string, fs: Fs): (r: Result<Store.Store, string>)
    ensures r.Ok? <==> fs.pathExists(path) && fs.isDir(path)
    ensures !fs.pathExists(path) ==> r == Err(MissingDirPrefix + path)
    ensures fs.pathExists(path) && !fs.isDir(path) ==> r == Err(NotDirPrefix + path)
    ensures r.Ok? ==> (Store.GetConfig(r.value, Store.StoragePathKey) == Some(path)
                       && forall k | k != Store.StoragePathKey :: Store.GetConfig(r.value, k) == Store.GetConfig(s, k))
  {
    if !fs.pathExists(path) then Err(MissingDirPrefix + path)
    else if !fs.isDir(path) then Err(NotDirPrefix + path)
    else Ok(Store.SetStoragePath(s, path))
  }

  // ---------------------------------------------------------------- _migrate_files

  /**
   * One file of the walk, in `os.walk` order: copied, its copy raised (recorded and skipped), or
   * creating its target directory raised (outside the `try`, which ends the whole walk).
   */
  datatype Copy = Copied | CopyFailed(error: string) | DirFailed(error: string)

  /** The dictionary `_migrate_files` returns, without the list of failed files. */
  datatype Counts = Counts(total: nat, success: nat, failed: nat)

  /** What the walk did: its progress writes, and its counts or the exception that ended it. */
  datatype Walked = Walked(writes: seq<nat>, result: Result<Counts, string>)

  /**
   * The rest of the walk after `visited` files of which `copied` were copied and `failed` not:
   * a copy bumps the count and writes `int(copied / visited * 100)`.
   */
  function WalkFrom(files: seq<Copy>, visited: nat, copied: nat, failed: nat): Walked
    requires copied <= visited
  {
    if |files| == 0 then Walked([], Ok(Counts(visited, copied, failed)))
    else
      match files[0]
      case DirFailed(e) => Walked([], Err(e))
      case CopyFailed(_) => WalkFrom(files[1..], visited + 1, copied, failed + 1)
      case Copied =>
        var rest := WalkFrom(files[1..], visited + 1, copied + 1, failed);
        Walked([Progress.Percent(copied + 1, visited + 1, 100)] + rest.writes, rest.result)
  }

  function CountCopied(files: seq<Copy>): nat {
    if |files| == 0 then 0 else (if files[0].Copied? then 1 else 0) + CountCopied(files[1..])
  }

  function CountFailed(files: seq<Copy>): nat {
    if |files| == 0 then 0 else (if files[0].CopyFailed? then 1 else 0) + CountFailed(files[1..])
  }

  predicate Raises(files: seq<Copy>) {
    exists k | 0 <= k < |files| :: files[k].DirFailed?
  }

  /**
   * The counters add up: without an exception every file is counted once, as a success or a
   * failure; there is one progress write per copied file before any exception; every write is
   * at most 100 (and can be 0 after many failures), and exactly 100 while no copy has failed.
   */
  lemma WalkCounts(files: seq<Copy>, visited: nat, copied: nat, failed: nat)
    requires copied <= visited && copied + failed == visited
    ensures var w := WalkFrom(files, visited, copied, failed);
      && (w.result.Ok? <==> !Raises(files))
      && (w.result.Ok? ==>
            && w.result.value.total == visited + |files|
            && w.result.value.success == copied + CountCopied(files)
            && w.result.value.failed == failed + CountFailed(files)
            && w.result.value.success + w.result.value.failed == w.result.value.total)
      && (w.result.Ok? ==> |w.writes| == CountCopied(files))
      && (forall k | 0 <= k < |w.writes| :: w.writes[k] <= 100)
      && (failed == 0 && (forall k | 0 <= k < |files| :: !files[k].CopyFailed?) ==> forall k | 0 <= k < |w.writes| :: w.writes[k] == 100)
  {
    WalkResult(files, visited, copied, failed);
    WalkWriteCount(files, visited, copied, failed);
    WalkWritesBounded(files, visited, copied, failed);
    if failed == 0 && NoCopyFails(files) {
      WalkWritesFull(files, visited, copied);
    }
  }

  /** The tail of a walk, and whether it raises. */
  lemma WalkTail(files: seq<Copy>)
    requires |files| > 0
    ensures Raises(files) <==> files[0].DirFailed? || Raises(files[1..])
    ensures NoCopyFails(files) ==> !files[0].CopyFailed? && NoCopyFails(files[1..])
  {
    var tail := files[1..];
    assert forall k | 0 <= k < |tail| :: tail[k] == files[k + 1];
  }

  /** The walk ends normally exactly when no directory creation raises, with every file counted once. */
  lemma {:induction false} WalkResult(files: seq<Copy>, visited: nat, copied: nat, failed: nat)
    requires copied <= visited && copied + failed == visited
    ensures var w := WalkFrom(files, visited, copied, failed);
      && (w.result.Ok? <==> !Raises(files))
      && (w.result.Ok? ==>
            && w.result.value.total == visited + |files|
            && w.result.value.success == copied + CountCopied(files)
            && w.result.value.failed == failed + CountFailed(files)
            && w.result.value.success + w.result.value.failed == w.result.value.total)
  {
    if |files| > 0 {
      WalkTail(files);
      match files[0]
      case DirFailed(_) =>
      case CopyFailed(_) => WalkResult(files[1..], visited + 1, copied, failed + 1);
      case Copied => WalkResult(files[1..], visited + 1, copied + 1, failed);
    }
  }

  /** A walk that ends normally writes once per copied file. */
  lemma {:induction false} WalkWriteCount(files: seq<Copy>, visited: nat, copied: nat, failed: nat)
    requires copied <= visited
    ensures var w := WalkFrom(files, visited, copied, failed);
      w.result.Ok? ==> |w.writes| == CountCopied(files)
  {
    if |files| > 0 {
      match files[0]
      case DirFailed(_) =>
      case CopyFailed(_) => WalkWriteCount(files[1..], visited + 1, copied, failed + 1);
      case Copied => WalkWriteCount(files[1..], visited + 1, copied + 1, failed);
    }
  }

  predicate AtMostHundred(ws: seq<nat>) {
    forall k | 0 <= k < |ws| :: ws[k] <= 100
  }

  predicate AllHundred(ws: seq<nat>) {
    forall k | 0 <= k < |ws| :: ws[k] == 100
  }

  predicate NoCopyFails(files: seq<Copy>) {
    forall k | 0 <= k < |files| :: !files[k].CopyFailed?
  }

  /** Every progress write of a walk is at most 100. */
  lemma {:induction false} WalkWritesBounded(files: seq<Copy>, visited: nat, copied: nat, failed: nat)
    requires copied <= visited
    ensures AtMostHundred(WalkFrom(files, visited, copied, failed).writes)
  {
    if |files| > 0 {
      match files[0]
      case DirFailed(_) =>
      case CopyFailed(_) => WalkWritesBounded(files[1..], visited + 1, copied, failed + 1);
      case Copied =>
        var rest := WalkFrom(files[1..], visited + 1, copied + 1, failed).writes;
        WalkWritesBounded(files[1..], visited + 1, copied + 1, failed);
        Progress.PercentWithinScale(copied + 1, visited + 1, 100);
        var w := WalkFrom(files, visited, copied, failed).writes;
        assert w == [Progress.Percent(copied + 1, visited + 1, 100)] + rest;
        forall k | 0 <= k < |w|
          ensures w[k] <= 100
        {
          if k > 0 {
            assert w[k] == rest[k - 1];
          }
        }
    }
  }

  /** While no copy has failed, every progress write is 100. */
  lemma {:induction false} WalkWritesFull(files: seq<Copy>, visited: nat, copied: nat)
    requires copied == visited && NoCopyFails(files)
    ensures AllHundred(WalkFrom(files, visited, copied, 0).writes)
  {
    if |files| > 0 {
      WalkTail(files);
      match files[0]
      case DirFailed(_) =>
      case Copied =>
        var rest := WalkFrom(files[1..], visited + 1, copied + 1, 0).writes;
        WalkWritesFull(files[1..], visited + 1, copied + 1);
        Progress.PercentOfAll(visited + 1, 100);
        var w := WalkFrom(files, visited, copied, 0).writes;
        assert w == [100] + rest;
        forall k | 0 <= k < |w|
          ensures w[k] == 100
        {
          if k > 0 {
            assert w[k] == rest[k - 1];
          }
        }
    }
  }

  /** The loop of `_migrate_files`, with its counters. */
  method MigrateFiles(files: seq<Copy>) returns (w: Walked)
    ensures w == WalkFrom(files, 0, 0, 0)
  {
    var visited, copied, failed := 0, 0, 0;
    var writes: seq<nat> := [];
    var i := 0;
    while i < |files|
      invariant 0 <= i <= |files| && copied <= visited == i
      invariant WalkFrom(files, 0, 0, 0) ==
        var rest := WalkFrom(files[i..], visited, copied, failed);
        Walked(writes + rest.writes, rest.result)
    {
      assert files[i..][1..] == files[i + 1..];
      ghost var rest := WalkFrom(files[i + 1..], visited + 1, copied + (if files[i].Copied? then 1 else 0),
                                 failed + (if files[i].CopyFailed? then 1 else 0));
      match files[i] {
      case DirFailed(e) =>
        assert WalkFrom(files[i..], visited, copied, failed) == Walked([], Err(e));
        assert writes + [] == writes;
        return Walked(writes, Err(e));
      case CopyFailed(_) =>
        assert WalkFrom(files[i..], visited, copied, failed) == rest;
        visited, failed := visited + 1, failed + 1;
      case Copied =>
        var p := Progress.Percent(copied + 1, visited + 1, 100);
        assert WalkFrom(files[i..], visited, copied, failed) == Walked([p] + rest.writes, rest.result);
        assert writes + ([p] + rest.writes) == (writes + [p]) + rest.writes;
        visited, copied := visited + 1, copied + 1;
        writes := writes + [p];
      }
      i := i + 1;
    }
    w := Walked(writes, Ok(Counts(visited, copied, failed)));
  }

  /** The store after the walk's progress writes: the last one is what remains. */
  function AfterWrites(s: Store.Store, writes: seq<nat>): (r: Store.Store)
    ensures |writes| > 0 ==> Store.GetMigrationProgress(r) == Ok(writes[|writes| - 1])
    ensures forall k | k != Store.MigrationProgressKey :: Store.GetConfig(r, k) == Store.GetConfig(s, k)
    ensures r == s.(config := r.config)
  {
    if |writes| == 0 then s
    else
      Store.MigrationProgressRoundTrip(s, writes[|writes| - 1]);
      Store.SetMigrationProgress(s, writes[|writes| - 1])
  }

  // ---------------------------------------------------------------- migrate_storage

  const CopiedSuffix: string := "个文件"
  const CompletedPrefix: string := "迁移完成: "
  const FailedPrefix: string := "迁移失败: "
  const FailedSuffix: string := "个文件失败"
  const ExceptionPrefix: string := "迁移异常: "

  /** The setup before any copy: the old path, 'in_progress' and progress 0. */
  function Setup(s: Store.Store, oldPath: string): (r: Store.Store)
    ensures Store.GetOldStoragePath(r) == Some(oldPath)
    ensures Store.GetConfig(r, Store.MigrationStatusKey) == Some("in_progress")
    ensures Store.GetMigrationProgress(r) == Ok(0)
    ensures Store.GetConfig(r, Store.StoragePathKey) == Store.GetConfig(s, Store.StoragePathKey)
  {
    Store.MigrationProgressRoundTrip(Store.SetMigrationStatus(Store.SetOldStoragePath(s, oldPath), "in_progress"), 0);
    Store.SetMigrationProgress(Store.SetMigrationStatus(Store.SetOldStoragePath(s, oldPath), "in_progress"), 0)
  }

  /**
   * How a walk ends a migration: no failed file switches the storage path to `newPath` and
   * records 'completed' and 100; otherwise, when `markFailed`, the status becomes 'failed'.
   */
  function Finish(s: Store.Store, newPath: string, w: Walked, markFailed: bool): (r: (Store.Store, bool, string))
    ensures r.1 <==> w.result.Ok? && w.result.value.failed == 0
    ensures r.1 ==>
      && Store.GetConfig(r.0, Store.StoragePathKey) == Some(newPath)
      && Store.GetConfig(r.0, Store.MigrationStatusKey) == Some("completed")
      && Store.GetMigrationProgress(r.0) == Ok(100)
      && r.2 == CompletedPrefix + NatToString(w.result.value.success) + CopiedSuffix
    ensures !r.1 ==> Store.GetConfig(r.0, Store.StoragePathKey) == Store.GetConfig(s, Store.StoragePathKey)
    ensures !r.1 && markFailed ==> Store.GetConfig(r.0, Store.MigrationStatusKey) == Some("failed")
    ensures !r.1 && !markFailed ==>
      Store.GetConfig(r.0, Store.MigrationStatusKey) == Store.GetConfig(s, Store.MigrationStatusKey)
    ensures w.result.Ok? && w.result.value.failed > 0 ==> r.2 == FailedPrefix + NatToString(w.result.value.failed) + FailedSuffix
    ensures w.result.Err? ==> r.2 == ExceptionPrefix + w.result.error
  {
    var s1 := AfterWrites(s, w.writes);
    match w.result
    case Err(e) => (if markFailed then Store.SetMigrationStatus(s1, "failed") else s1, false, ExceptionPrefix + e)
    case Ok(c) =>
      if c.failed == 0 then
        var s2 := Store.SetMigrationStatus(Store.SetStoragePath(s1, newPath), "completed");
        Store.MigrationProgressRoundTrip(s2, 100);
        (Store.SetMigrationProgress(s2, 100), true, CompletedPrefix + NatToString(c.success) + CopiedSuffix)
      else (if markFailed then Store.SetMigrationStatus(s1, "failed") else s1, false, FailedPrefix + NatToString(c.failed) + FailedSuffix)
  }

  /**
   * `migrate_storage`: a missing old path raises before anything is written; otherwise the setup
   * is recorded, the files are walked (or not, with `migrate_files=False`), and the walk ends
   * the migration. The answer is `(success, message)`.
   */
  function Migrate(s: Store.Store, newPath: string, migrateFiles: bool, files: seq<Copy>, fs: Fs): (r: Result<(Store.Store, bool, string), string>)
    ensures r.Err? <==> !fs.pathExists(Store.GetStoragePath(s))
    ensures r.Err? ==> r.error == MissingOldPrefix + Store.GetStoragePath(s)
    ensures r.Ok? ==> Store.GetOldStoragePath(r.value.0) == Some(Store.GetStoragePath(s))
  {
    var oldPath := Store.GetStoragePath(s);
    if !fs.pathExists(oldPath) then Err(MissingOldPrefix + oldPath)
    else
      var w := if migrateFiles then WalkFrom(files, 0, 0, 0) else Walked([], Ok(Counts(0, 0, 0)));
      Ok(Finish(Setup(s, oldPath), newPath, w, true))
  }

  /**
   * The migration switches the storage path to the new one and records 'completed' with 100
   * exactly when no file failed and nothing raised; otherwise it records 'failed' and keeps the
   * path it had. Without copying files it always completes.
   */
  lemma MigrateOutcome(s: Store.Store, newPath: string, migrateFiles: bool, files: seq<Copy>, fs: Fs)
    requires fs.pathExists(Store.GetStoragePath(s))
    ensures var r := Migrate(s, newPath, migrateFiles, files, fs).value;
      && (r.1 <==> !migrateFiles || (!Raises(files) && CountFailed(files) == 0))
      && (r.1 ==> Store.GetConfig(r.0, Store.StoragePathKey) == Some(newPath)
                  && Store.GetConfig(r.0, Store.MigrationStatusKey) == Some("completed")
                  && Store.GetMigrationProgress(r.0) == Ok(100))
      && (!r.1 ==> Store.GetConfig(r.0, Store.StoragePathKey) == Store.GetConfig(s, Store.StoragePathKey)
                   && Store.GetConfig(r.0, Store.MigrationStatusKey) == Some("failed"))
  {
    WalkCounts(files, 0, 0, 0);
  }

  // ---------------------------------------------------------------- check, continue, cancel

  /** What `check_migration_status` reports. */
  datatype Report = NoMigration | Unfinished(oldPath: string, target: string)

  /**
   * `check_migration_status`: an unfinished migration is reported only while the status is
   * 'in_progress' and a stored old path differs from the current one.
   */
  function CheckMigrationStatus(s: Store.Store): (r: Report)
    ensures r.Unfinished? <==>
      Store.GetMigrationStatus(s) == "in_progress" && Truthy(Store.GetOldStoragePath(s))
      && Store.GetOldStoragePath(s).value != Store.GetStoragePath(s)
    ensures r.Unfinished? ==> r.oldPath == Store.GetOldStoragePath(s).value && r.target == Store.GetStoragePath(s)
  {
    if Store.GetMigrationStatus(s) == "in_progress" then
      var oldPath := Store.GetOldStoragePath(s);
      var current := Store.GetStoragePath(s);
      if Truthy(oldPath) && current != "" && oldPath.value != current then Unfinished(oldPath.value, current) else NoMigration
    else NoMigration
  }

  /**
   * A migration interrupted after its setup cannot be detected: the setup records the current
   * path as the old one and leaves the current path as it is, so the two agree.
   */
  lemma SetupIsNotUnfinished(s: Store.Store)
    ensures CheckMigrationStatus(Setup(s, Store.GetStoragePath(s))) == NoMigration
  {
  }

  const IncompletePaths: string := "无法继续迁移：路径信息不完整"

  /**
   * `continue_migration`: without an old or current path it refuses; otherwise it walks the files
   * again into the current path and ends the migration like `migrate_storage`, except that a
   * failure leaves the status as it was.
   */
  function ContinueMigration(s: Store.Store, files: seq<Copy>): (r: (Store.Store, bool, string))
    ensures !Truthy(Store.GetOldStoragePath(s)) ==> r == (s, false, IncompletePaths)
    ensures !r.1 ==> Store.GetConfig(r.0, Store.MigrationStatusKey) == Store.GetConfig(s, Store.MigrationStatusKey)
    ensures r.1 ==> Store.GetConfig(r.0, Store.MigrationStatusKey) == Some("completed")
  {
    var oldPath := Store.GetOldStoragePath(s);
    var current := Store.GetStoragePath(s);
    if !Truthy(oldPath) || current == "" then (s, false, IncompletePaths)
    else Finish(s, current, WalkFrom(files, 0, 0, 0), false)
  }

  /**
   * Continuing never records 'failed', and the storage path it ends with is the one it started
   * with: the target of the copy is the current path.
   */
  lemma ContinueKeepsPath(s: Store.Store, files: seq<Copy>)
    ensures var r := ContinueMigration(s, files);
      && Store.GetStoragePath(r.0) == Store.GetStoragePath(s)
      && (Store.GetMigrationStatus(r.0) == Store.GetMigrationStatus(s) || Store.GetMigrationStatus(r.0) == "completed")
  {
  }

  const CancelledMessage: string := "已取消迁移"

  /** `cancel_migration`: 'cancelled' and progress 0, always successful. */
  function CancelMigration(s: Store.Store): (r: (Store.Store, bool, string))
    ensures r.1 && r.2 == CancelledMessage
    ensures Store.GetMigrationStatus(r.0) == "cancelled" && Store.GetMigrationProgress(r.0) == Ok(0)
    ensures Store.GetStoragePath(r.0) == Store.GetStoragePath(s) && Store.GetOldStoragePath(r.0) == Store.GetOldStoragePath(s)
  {
    var s1 := Store.SetMigrationStatus(s, "cancelled");
    Store.MigrationProgressRoundTrip(s1, 0);
    (Store.SetMigrationProgress(s1, 0), true, CancelledMessage)
  }

  /** After a cancel nothing is reported as unfinished. */
  lemma CancelledIsNotUnfinished(s: Store.Store)
    ensures CheckMigrationStatus(CancelMigration(s).0) == NoMigration
  {
  }
}

=== FILE: store.dfy ===
/**
 * The Redis-backed task store of redis_manager.py as an immutable value: task hashes keyed by task
 * id, the list 'download_queue' of JSON task snapshots, plain config keys, cookie hashes that
 * expire against an abstract clock, and video hashes.
 *
 * Redis stores every hash field as a string, so a task dict written with the integer progress 0
 * reads back with progress "0"; a queue entry is the JSON text of the dict and keeps the integer.
 * Redis never holds an empty hash: writing an empty mapping raises, and a hash whose last field is
 * removed disappears.
 *
 * The last section, marked EXTENSION, holds the operations that callers in app.py and the
 * downloader use but that redis_manager.py does not define; they are taken only from what the
 * unit tests assert about them.
 */
module Store {
  import opened Wrappers
  import opened Text

  /** A dict value as the source builds it: a string, or the integer progress. */
  datatype Value = Str(s: string) | Int(i: int)

  /** A task dict as the source builds it and as a queue entry carries it through JSON. */
  type Snapshot = map<string, Value>

  /** A Redis hash: every field holds a string. */
  type Hash = map<string, string>

  /** Seconds a cookie hash lives: `COOKIE_EXPIRY_DAYS * 24 * 60 * 60` with 30 days (config.py). */
  const CookieTtl: int := 30 * 24 * 60 * 60

  /** `Config.DEFAULT_STORAGE_PATH`: `~/Downloads/Videos` with `~` standing for the user's home. */
  const DefaultStoragePath: string := "~/Downloads/Videos"

  const StoragePathKey: string := "storage_path"
  const MigrationStatusKey: string := "migration_status"
  const OldStoragePathKey: string := "old_storage_path"
  const MigrationProgressKey: string := "migration_progress"

  /** A cookie hash with the absolute time (in seconds) at which Redis expires it. */
  datatype Cookie = Cookie(fields: Hash, expiresAt: int)

  datatype Store = Store(
    tasks: map<string, Hash>,
    queue: seq<Snapshot>,  // the Redis list 'download_queue'; index 0 is its left end
    config: map<string, string>,
    cookies: map<string, Cookie>,
    videos: map<string, Hash>)

  const Empty: Store := Store(map[], [], map[], map[], map[])

  /** Redis holds no empty hash. */
  predicate Valid(s: Store) {
    && (forall id | id in s.tasks :: |s.tasks[id]| > 0)
    && (forall id | id in s.videos :: |s.videos[id]| > 0)
  }

  /** How redis-py writes a value: strings as they are, integers as `str(i)`. */
  function Render(v: Value): string {
    match v
    case Str(x) => x
    case Int(i) => IntToString(i)
  }

  function RenderAll(d: Snapshot): (h: Hash)
    ensures h.Keys == d.Keys
    ensures forall k | k in d :: h[k] == Render(d[k])
  {
    map k | k in d :: Render(d[k])
  }

  /** A hash read back from Redis, as a dict that can be enqueued again. */
  function AsSnapshot(h: Hash): (d: Snapshot)
    ensures d.Keys == h.Keys
    ensures forall k | k in h :: d[k] == Str(h[k])
  {
    map k | k in h :: Str(h[k])
  }

  /** Writing back a hash read from Redis stores exactly what was read. */
  lemma RenderAsSnapshot(h: Hash)
    ensures RenderAll(AsSnapshot(h)) == h
  {
  }

  /** `a` and `b` agree on every field outside `changed`. */
  predicate SameExcept(a: Hash, b: Hash, changed: set<string>) {
    forall k | k in a.Keys + b.Keys && k !in changed :: k in a && k in b && a[k] == b[k]
  }

  /** Every task other than `id` is as it was. */
  predicate OtherTasksUnchanged(s: Store, r: Store, id: string) {
    forall other | other in s.tasks.Keys + r.tasks.Keys && other != id ::
      other in s.tasks && other in r.tasks && s.tasks[other] == r.tasks[other]
  }

  /** Two updates that each leave the other tasks alone leave them alone together. */
  lemma OtherTasksChain(a: Store, b: Store, c: Store, id: string)
    requires OtherTasksUnchanged(a, b, id) && OtherTasksUnchanged(b, c, id)
    ensures OtherTasksUnchanged(a, c, id)
  {
    forall other | other in a.tasks.Keys + c.tasks.Keys && other != id
      ensures other in a.tasks && other in c.tasks && a.tasks[other] == c.tasks[other]
    {
      assert other in b.tasks;
    }
  }

  // ---------------------------------------------------------------- tasks

  /** `get_task`: the hash, or the empty dict `hgetall` returns for a missing key. */
  function GetTask(s: Store, id: string): (h: Hash)
    requires Valid(s)
    ensures |h| == 0 <==> id !in s.tasks
  {
    if id in s.tasks then s.tasks[id] else map[]
  }

  /** `set_task`: `hset(mapping=data)` merges the fields of `data` over the stored ones. */
  function SetTask(s: Store, id: string, data: Snapshot): (r: Result<Store, string>)
    requires Valid(s)
    ensures |data| == 0 <==> r.Err?
    ensures r.Ok? ==> Valid(r.value) && id in r.value.tasks
    ensures r.Ok? ==> forall k | k in data :: k in r.value.tasks[id] && r.value.tasks[id][k] == Render(data[k])
    ensures r.Ok? ==> SameExcept(GetTask(s, id), r.value.tasks[id], data.Keys)
    ensures r.Ok? ==> OtherTasksUnchanged(s, r.value, id)
    ensures r.Ok? ==> r.value == s.(tasks := r.value.tasks)
    ensures r.Err? ==> r.error == "DataError: 'hset' with no key value pairs"
  {
    if |data| == 0 then Err("DataError: 'hset' with no key value pairs")
    else Ok(s.(tasks := s.tasks[id := GetTask(s, id) + RenderAll(data)]))
  }

  /**
   * `update_task_status`: sets `status` and `updated_at` and, when a progress is given, its
   * decimal string; every other field of the task, every other task and the queue stay as they
   * were. On a missing id the hash is created holding just those fields.
   */
  function UpdateTaskStatus(s: Store, id: string, status: string, progress: Option<int>, now: string): (r: Store)
    requires Valid(s)
    ensures Valid(r) && id in r.tasks
    ensures "status" in r.tasks[id] && r.tasks[id]["status"] == status
    ensures "updated_at" in r.tasks[id] && r.tasks[id]["updated_at"] == now
    ensures progress.Some? ==> "progress" in r.tasks[id] && r.tasks[id]["progress"] == IntToString(progress.value)
    ensures SameExcept(GetTask(s, id), r.tasks[id], StatusChanged(progress))
    ensures id !in s.tasks ==> r.tasks[id].Keys == StatusChanged(progress)
    ensures OtherTasksUnchanged(s, r, id)
    ensures r == s.(tasks := r.tasks)
  {
    var stored := GetTask(s, id);
    var h := StatusFields(stored, status, progress, now);
    assert id !in s.tasks ==> stored.Keys == {};
    assert |h| > 0 by { assert "status" in h; }
    s.(tasks := s.tasks[id := h])
  }

  /** The fields a status update changes: `status`, `updated_at` and, when given, `progress`. */
  function StatusChanged(progress: Option<int>): set<string> {
    {"status", "updated_at"} + (if progress.Some? then {"progress"} else {})
  }

  /** The hash a status update leaves behind. */
  function StatusFields(stored: Hash, status: string, progress: Option<int>, now: string): (h: Hash)
    ensures "status" in h && h["status"] == status
    ensures "updated_at" in h && h["updated_at"] == now
    ensures progress.Some? ==> "progress" in h && h["progress"] == IntToString(progress.value)
    ensures h.Keys == stored.Keys + StatusChanged(progress)
    ensures SameExcept(stored, h, StatusChanged(progress))
  {
    var h0 := stored["status" := status]["updated_at" := now];
    var h1 := if progress.Some? then h0["progress" := IntToString(progress.value)] else h0;
    var changed := StatusChanged(progress);
    forall k | k in stored.Keys + h1.Keys && k !in changed
      ensures k in stored && k in h1 && stored[k] == h1[k]
    {
      assert k != "status" && k != "updated_at";
    }
    h1
  }

  /** The progress a status update stores reads back, through `int()`, as the number written. */
  lemma ProgressReadsBack(s: Store, id: string, status: string, p: int, now: string)
    requires Valid(s)
    ensures ParseInt(UpdateTaskStatus(s, id, status, Some(p), now).tasks[id]["progress"]) == Some(p)
  {
    IntToStringRoundTrip(p);
  }

  /**
   * `get_all_tasks`: one hash per key that `keys('task:*')` enumerates. Redis gives no order, so the
   * enumeration order is a parameter that must list every task id exactly once.
   */
  function GetAllTasks(s: Store, order: seq<string>): (r: seq<Hash>)
    requires Enumerates(order, s.tasks.Keys)
    ensures |r| == |order| == |s.tasks|
    ensures forall i | 0 <= i < |r| :: r[i] == s.tasks[order[i]]
    ensures forall id | id in s.tasks :: s.tasks[id] in r
  {
    EnumerationSize(order, s.tasks.Keys);
    var r := seq(|order|, i requires 0 <= i < |order| => s.tasks[order[i]]);
    forall id | id in s.tasks
      ensures s.tasks[id] in r
    {
      var i :| 0 <= i < |order| && order[i] == id;
      assert r[i] == s.tasks[id];
    }
    r
  }

  /** `order` lists the elements of `keys`, each exactly once. */
  predicate Enumerates(order: seq<string>, keys: set<string>) {
    && (forall i | 0 <= i < |order| :: order[i] in keys)
    && (forall k | k in keys :: k in order)
    && (forall i, j | 0 <= i < j < |order| :: order[i] != order[j])
  }

  lemma {:induction false} EnumerationSize(order: seq<string>, keys: set<string>)
    requires Enumerates(order, keys)
    ensures |order| == |keys|
    decreases |order|
  {
    if |order| > 0 {
      var last := order[|order| - 1];
      var front := order[..|order| - 1];
      forall k | k in keys - {last}
        ensures k in front
      {
        var i :| 0 <= i < |order| && order[i] == k;
        assert front[i] == k;
      }
      assert Enumerates(front, keys - {last});
      EnumerationSize(front, keys - {last});
    }
  }

  /** `delete_task`: removes the hash and reports how many keys were deleted. */
  function DeleteTask(s: Store, id: string): (r: (nat, Store))
    requires Valid(s)
    ensures Valid(r.1)
    ensures id !in r.1.tasks && |GetTask(r.1, id)| == 0
    ensures r.0 == (if id in s.tasks then 1 else 0)
    ensures OtherTasksUnchanged(s, r.1, id)
    ensures r.1 == s.(tasks := r.1.tasks)
  {
    (if id in s.tasks then 1 else 0, s.(tasks := s.tasks - {id}))
  }

  /** After `delete_task(id)` no hash listed by `get_all_tasks` is the one stored under `id`, and every other task is still listed. */
  lemma DeletedTaskNotListed(s: Store, id: string, order: seq<string>)
    requires Valid(s)
    requires Enumerates(order, DeleteTask(s, id).1.tasks.Keys)
    ensures forall i | 0 <= i < |order| :: order[i] != id
    ensures forall other | other in s.tasks && other != id :: s.tasks[other] in GetAllTasks(DeleteTask(s, id).1, order)
  {
  }

  // ---------------------------------------------------------------- the download queue

  /** `add_task_to_queue`: LPUSH of the JSON text of the dict, which keeps every value. */
  function AddTaskToQueue(s: Store, entry: Snapshot): (r: Store)
    ensures Pending(r.queue) == Pending(s.queue) + [entry]
    ensures r == s.(queue := r.queue)
  {
    PendingPush(s.queue, entry);
    s.(queue := [entry] + s.queue)
  }

  /** `get_next_task`: RPOP; None on an empty queue, otherwise the entry that has waited longest. */
  function GetNextTask(s: Store): (r: (Option<Snapshot>, Store))
    ensures |s.queue| == 0 <==> r.0.None?
    ensures r.0.Some? ==> r.0.value == Pending(s.queue)[0]
    ensures r.0.Some? ==> Pending(r.1.queue) == Pending(s.queue)[1..]
    ensures r.1 == s.(queue := r.1.queue)
  {
    if |s.queue| == 0 then (None, s)
    else
      PendingPop(s.queue);
      (Some(s.queue[|s.queue| - 1]), s.(queue := s.queue[..|s.queue| - 1]))
  }

  /** The order in which queued entries leave: the right end of the list first. */
  function Pending(q: seq<Snapshot>): (p: seq<Snapshot>)
    ensures |p| == |q|
  {
    if |q| == 0 then [] else Pending(q[1..]) + [q[0]]
  }

  lemma PendingPush(q: seq<Snapshot>, e: Snapshot)
    ensures Pending([e] + q) == Pending(q) + [e]
  {
    assert ([e] + q)[1..] == q;
  }

  lemma {:induction false} PendingPop(q: seq<Snapshot>)
    requires |q| > 0
    ensures Pending(q)[0] == q[|q| - 1]
    ensures Pending(q[..|q| - 1]) == Pending(q)[1..]
    decreases |q|
  {
    if |q| > 1 {
      PendingPop(q[1..]);
      assert q[1..][..|q| - 2] == q[..|q| - 1][1..];
      assert q[1..][|q| - 2] == q[|q| - 1];
    }
  }

  /** Pushes the entries one after another. */
  function PushAll(s: Store, entries: seq<Snapshot>): (r: Store)
    ensures Pending(r.queue) == Pending(s.queue) + entries
    decreases |entries|
  {
    if |entries| == 0 then s
    else
      var r := PushAll(AddTaskToQueue(s, entries[0]), entries[1..]);
      assert Pending(s.queue) + [entries[0]] + entries[1..] == Pending(s.queue) + entries;
      r
  }

  /** Pops `n` entries and returns them in the order they came out. */
  function PopMany(s: Store, n: nat): seq<Option<Snapshot>>
    decreases n
  {
    if n == 0 then [] else
      var (e, s') := GetNextTask(s);
      [e] + PopMany(s', n - 1)
  }

  /** Every snapshot wrapped as a successful pop. */
  function Somes(xs: seq<Snapshot>): (r: seq<Option<Snapshot>>)
    ensures |r| == |xs|
    ensures forall i | 0 <= i < |xs| :: r[i] == Some(xs[i])
  {
    if |xs| == 0 then [] else [Some(xs[0])] + Somes(xs[1..])
  }

  lemma SomesAppend(a: seq<Snapshot>, b: seq<Snapshot>)
    ensures Somes(a + b) == Somes(a) + Somes(b)
  {
    assert forall i | 0 <= i < |a + b| :: Somes(a + b)[i] == (Somes(a) + Somes(b))[i];
  }

  /** Popping `k` entries from a queue whose pending order is `p` yields the first `k` of `p`. */
  lemma {:induction false} PopManyPending(s: Store, k: nat)
    requires k <= |s.queue|
    ensures PopMany(s, k) == Somes(Pending(s.queue)[..k])
    decreases k
  {
    if k > 0 {
      var (e, s') := GetNextTask(s);
      PopManyPending(s', k - 1);
      var p := Pending(s.queue);
      assert Pending(s'.queue) == p[1..];
      assert e == Some(p[0]);
      assert p[..k] == [p[0]] + p[1..][..k - 1];
      SomesAppend([p[0]], p[1..][..k - 1]);
    }
  }

  /**
   * FIFO: entries pushed onto the queue come out after everything already waiting, in the order
   * they were pushed, and a drained queue yields None.
   */
  lemma QueueIsFifo(s: Store, entries: seq<Snapshot>)
    ensures PopMany(PushAll(s, entries), |s.queue| + |entries| + 1)
      == Somes(Pending(s.queue)) + Somes(entries) + [None]
  {
    var t := PushAll(s, entries);
    var n := |s.queue| + |entries|;
    PopManyAfter(t, n);
    PopManyPending(t, n);
    assert GetNextTask(DrainState(t, n)).0 == None;
    var p := Pending(t.queue);
    assert p[..n] == Pending(s.queue) + entries;
    SomesAppend(Pending(s.queue), entries);
  }

  function DrainState(s: Store, n: nat): (r: Store)
    requires n <= |s.queue|
    ensures |r.queue| == |s.queue| - n
    decreases n
  {
    if n == 0 then s else DrainState(GetNextTask(s).1, n - 1)
  }

  lemma {:induction false} PopManyAfter(s: Store, n: nat)
    requires n <= |s.queue|
    ensures PopMany(s, n + 1) == PopMany(s, n) + [GetNextTask(DrainState(s, n)).0]
    decreases n
  {
    if n > 0 {
      PopManyAfter(GetNextTask(s).1, n - 1);
    }
  }

  // ---------------------------------------------------------------- config keys

  function SetConfig(s: Store, key: string, value: string): (r: Store)
    ensures GetConfig(r, key) == Some(value)
    ensures forall k | k != key :: GetConfig(r, k) == GetConfig(s, k)
    ensures r == s.(config := r.config)
  {
    s.(config := s.config[key := value])
  }

  function GetConfig(s: Store, key: string): Option<string> {
    if key in s.config then Some(s.config[key]) else None
  }


  /** `get_storage_path`: the stored path, or the default when it is unset or empty. */
  function GetStoragePath(s: Store): (p: string)
    ensures Truthy(GetConfig(s, StoragePathKey)) ==> p == s.config[StoragePathKey]
    ensures !Truthy(GetConfig(s, StoragePathKey)) ==> p == DefaultStoragePath
    ensures p != ""
  {
    var v := GetConfig(s, StoragePathKey);
    if Truthy(v) then v.value else DefaultStoragePath
  }

  function SetStoragePath(s: Store, path: string): Store {
    SetConfig(s, StoragePathKey, path)
  }

  /** `get_migration_status`: the stored status, or 'none' when it is unset or empty. */
  function GetMigrationStatus(s: Store): (st: string)
    ensures Truthy(GetConfig(s, MigrationStatusKey)) ==> st == s.config[MigrationStatusKey]
    ensures !Truthy(GetConfig(s, MigrationStatusKey)) ==> st == "none"
  {
    var v := GetConfig(s, MigrationStatusKey);
    if Truthy(v) then v.value else "none"
  }

  function SetMigrationStatus(s: Store, status: string): Store {
    SetConfig(s, MigrationStatusKey, status)
  }

  function GetOldStoragePath(s: Store): Option<string> {
    GetConfig(s, OldStoragePathKey)
  }

  function SetOldStoragePath(s: Store, path: string): Store {
    SetConfig(s, OldStoragePathKey, path)
  }

  function SetMigrationProgress(s: Store, progress: int): Store {
    SetConfig(s, MigrationProgressKey, IntToString(progress))
  }

  /** `get_migration_progress`: 0 when unset or empty, else `int()` of the stored text, which raises on non-numeric text. */
  function GetMigrationProgress(s: Store): (r: Result<int, string>)
    ensures !Truthy(GetConfig(s, MigrationProgressKey)) ==> r == Ok(0)
    ensures Truthy(GetConfig(s, MigrationProgressKey)) ==> (r.Ok? <==> ParseInt(s.config[MigrationProgressKey]).Some?)
    ensures Truthy(GetConfig(s, MigrationProgressKey)) && r.Ok? ==> ParseInt(s.config[MigrationProgressKey]) == Some(r.value)
  {
    var v := GetConfig(s, MigrationProgressKey);
    if !Truthy(v) then Ok(0)
    else match ParseInt(v.value)
      case Some(n) => Ok(n)
      case None => Err("ValueError: invalid literal for int()")
  }

  /** A migration progress that was set reads back unchanged. */
  lemma MigrationProgressRoundTrip(s: Store, p: int)
    ensures GetMigrationProgress(SetMigrationProgress(s, p)) == Ok(p)
  {
    IntToStringRoundTrip(p);
  }

  /** The defaults apply on a store where nothing was configured. */
  lemma ConfigDefaults(s: Store)
    requires s.config == map[]
    ensures GetStoragePath(s) == DefaultStoragePath
    ensures GetMigrationStatus(s) == "none"
    ensures GetMigrationProgress(s) == Ok(0)
    ensures GetOldStoragePath(s) == None
  {
  }

  // ---------------------------------------------------------------- cookies

  /** Whether the cookie key of `platform` still exists at time `now` (`is_cookie_valid`). */
  predicate IsCookieValid(s: Store, platform: string, now: int) {
    platform in s.cookies && now < s.cookies[platform].expiresAt
  }

  /** `get_cookie`: the live hash, or the empty dict once it has expired. */
  function GetCookie(s: Store, platform: string, now: int): (h: Hash)
    ensures IsCookieValid(s, platform, now) ==> h == s.cookies[platform].fields
    ensures !IsCookieValid(s, platform, now) ==> h == map[]
  {
    if IsCookieValid(s, platform, now) then s.cookies[platform].fields else map[]
  }

  /**
   * `set_cookie`: merges the fields into the live hash (an expired one is gone) and restarts the
   * 30-day expiry; an empty mapping raises before anything is written.
   */
  function SetCookie(s: Store, platform: string, data: Hash, now: int): (r: Result<Store, string>)
    ensures |data| == 0 <==> r.Err?
    ensures r.Ok? ==> GetCookie(r.value, platform, now) == GetCookie(s, platform, now) + data
    ensures r.Ok? ==> forall p, t | p != platform :: IsCookieValid(r.value, p, t) == IsCookieValid(s, p, t)
    ensures r.Ok? ==> r.value == s.(cookies := r.value.cookies)
  {
    if |data| == 0 then Err("DataError: 'hset' with no key value pairs")
    else Ok(s.(cookies := s.cookies[platform := Cookie(GetCookie(s, platform, now) + data, now + CookieTtl)]))
  }

  /** A cookie set at `t0` is valid at a later time `t` exactly while `t` is within 30 days of `t0`. */
  lemma CookieValidFor30Days(s: Store, platform: string, data: Hash, t0: int, t: int)
    requires |data| > 0 && t0 <= t
    ensures IsCookieValid(SetCookie(s, platform, data, t0).value, platform, t) <==> t < t0 + 30 * 86400
  {
  }

  // ---------------------------------------------------------------- videos

  /** `set_video`: like `set_task`, on the video hashes. */
  function SetVideo(s: Store, id: string, data: Snapshot): (r: Result<Store, string>)
    requires Valid(s)
    ensures |data| == 0 <==> r.Err?
    ensures r.Ok? ==> Valid(r.value) && id in r.value.videos
    ensures r.Ok? ==> forall k | k in data :: k in r.value.videos[id] && r.value.videos[id][k] == Render(data[k])
    ensures r.Ok? ==> forall other | other != id && other in s.videos :: other in r.value.videos && r.value.videos[other] == s.videos[other]
    ensures r.Ok? ==> r.value == s.(videos := r.value.videos)
  {
    if |data| == 0 then Err("DataError: 'hset' with no key value pairs")
    else
      var stored := if id in s.videos then s.videos[id] else map[];
      Ok(s.(videos := s.videos[id := stored + RenderAll(data)]))
  }

  // ---------------------------------------------------------------- EXTENSION
  // Operations called by app.py and the downloaders that redis_manager.py does not define. Their
  // meaning is taken only from what tests/test_unit.py asserts; see README.

  /** EXTENSION `task_exists`: the task key exists. */
  predicate TaskExists(s: Store, id: string) {
    id in s.tasks
  }

  /**
   * EXTENSION `update_task_status(id, status, progress=, save_path=, error_message=, clear_error=)`:
   * the shown update, plus `save_path` and `error_message` when given; `clear_error` removes a
   * stored error message first, so an explicitly given message still ends up stored.
   */
  function UpdateTaskStatusExt(s: Store, id: string, status: string, progress: Option<int>,
                               savePath: Option<string>, errorMessage: Option<string>,
                               clearError: bool, now: string): (r: Store)
    requires Valid(s)
    ensures Valid(r) && id in r.tasks
    ensures "status" in r.tasks[id] && r.tasks[id]["status"] == status
    ensures progress.Some? ==> "progress" in r.tasks[id] && r.tasks[id]["progress"] == IntToString(progress.value)
    ensures savePath.Some? ==> "save_path" in r.tasks[id] && r.tasks[id]["save_path"] == savePath.value
    ensures errorMessage.Some? ==> "error_message" in r.tasks[id] && r.tasks[id]["error_message"] == errorMessage.value
    ensures clearError && errorMessage.None? ==> "error_message" !in r.tasks[id]
    ensures SameExcept(GetTask(s, id), r.tasks[id], ExtChanged(progress, savePath, errorMessage, clearError))
    ensures OtherTasksUnchanged(s, r, id)
    ensures r == s.(tasks := r.tasks)
  {
    var h := ExtFields(GetTask(s, id), status, progress, savePath, errorMessage, clearError, now);
    s.(tasks := s.tasks[id := h])
  }

  /** The hash an extended status update leaves behind. */
  function ExtFields(stored: Hash, status: string, progress: Option<int>,
                     savePath: Option<string>, errorMessage: Option<string>,
                     clearError: bool, now: string): (h: Hash)
    ensures "status" in h && h["status"] == status
    ensures progress.Some? ==> "progress" in h && h["progress"] == IntToString(progress.value)
    ensures savePath.Some? ==> "save_path" in h && h["save_path"] == savePath.value
    ensures errorMessage.Some? ==> "error_message" in h && h["error_message"] == errorMessage.value
    ensures clearError && errorMessage.None? ==> "error_message" !in h
    ensures SameExcept(stored, h, ExtChanged(progress, savePath, errorMessage, clearError))
  {
    var h0 := stored["status" := status]["updated_at" := now];
    var base := if progress.Some? then h0["progress" := IntToString(progress.value)] else h0;
    var h1 := if savePath.Some? then base["save_path" := savePath.value] else base;
    var h2 := if clearError then h1 - {"error_message"} else h1;
    var h3 := if errorMessage.Some? then h2["error_message" := errorMessage.value] else h2;
    var changed := ExtChanged(progress, savePath, errorMessage, clearError);
    forall k | k in stored.Keys + h3.Keys && k !in changed
      ensures k in stored && k in h3 && stored[k] == h3[k]
    {
      assert k != "status" && k != "updated_at";
    }
    h3
  }

  /** The fields an extended status update may change: the ones it is given, `error_message` also when clearing. */
  function ExtChanged(progress: Option<int>, savePath: Option<string>, errorMessage: Option<string>, clearError: bool): set<string> {
    {"status", "updated_at"}
      + (if progress.Some? then {"progress"} else {})
      + (if savePath.Some? then {"save_path"} else {})
      + (if errorMessage.Some? || clearError then {"error_message"} else {})
  }

  /** Without the added keywords the extended update is the shown one. */
  lemma ExtAgreesWithShown(s: Store, id: string, status: string, progress: Option<int>, now: string)
    requires Valid(s)
    ensures UpdateTaskStatusExt(s, id, status, progress, None, None, false, now) == UpdateTaskStatus(s, id, status, progress, now)
  {
  }

  /** EXTENSION `update_task_download_speed`: stores the formatted speed in `download_speed`. */
  function UpdateTaskDownloadSpeed(s: Store, id: string, speed: string): (r: Store)
    requires Valid(s)
    ensures Valid(r) && id in r.tasks
    ensures "download_speed" in r.tasks[id] && r.tasks[id]["download_speed"] == speed
    ensures SameExcept(GetTask(s, id), r.tasks[id], {"download_speed"})
    ensures OtherTasksUnchanged(s, r, id)
    ensures r == s.(tasks := r.tasks)
  {
    s.(tasks := s.tasks[id := GetTask(s, id)["download_speed" := speed]])
  }

  /** The existence check of the unit tests: absent, present after `set_task`, absent after `delete_task`. */
  lemma TaskExistsLifecycle(s: Store, id: string, data: Snapshot)
    requires Valid(s) && id !in s.tasks && |data| > 0
    ensures !TaskExists(s, id)
    ensures TaskExists(SetTask(s, id, data).value, id)
    ensures !TaskExists(DeleteTask(SetTask(s, id, data).value, id).1, id)
  {
  }
}

=== FILE: text.dfy ===
/**
 * String helpers with the meaning the source languages give them: substring search (Python `in`,
 * JavaScript `includes`), whitespace trimming (Python `str.strip`, JavaScript `String.trim`),
 * `str.replace`, `str.split` on one separator, `os.path.splitext`, and the decimal rendering and
 * parsing Python's `str(int)` and `int(str)` perform.
 */
module Text {
  import opened Wrappers

  predicate IsAsciiDigit(c: char) {
    '0' <= c <= '9'
  }

  predicate IsAsciiAlpha(c: char) {
    'a' <= c <= 'z' || 'A' <= c <= 'Z'
  }

  /** The class `[a-zA-Z0-9]` of the source's regular expressions. */
  predicate IsAsciiAlnum(c: char) {
    IsAsciiDigit(c) || IsAsciiAlpha(c)
  }

  /** Python's `str.isspace`, which is also the set a `\s` in a str pattern matches. */
  predicate IsPySpace(c: char) {
    c == '\t' || c == '\n' || c == '\U{B}' || c == '\U{C}' || c == '\r'
    || ('\U{1C}' <= c <= '\U{1F}') || c == ' ' || c == '\U{85}' || c == '\U{A0}'
    || c == '\U{1680}' || ('\U{2000}' <= c <= '\U{200A}') || c == '\U{2028}'
    || c == '\U{2029}' || c == '\U{202F}' || c == '\U{205F}' || c == '\U{3000}'
  }

  /** JavaScript's `\s`, which is also the set `String.prototype.trim` removes. */
  predicate IsJsSpace(c: char) {
    c == '\t' || c == '\n' || c == '\U{B}' || c == '\U{C}' || c == '\r' || c == ' '
    || c == '\U{A0}' || c == '\U{1680}' || ('\U{2000}' <= c <= '\U{200A}')
    || c == '\U{2028}' || c == '\U{2029}' || c == '\U{202F}' || c == '\U{205F}'
    || c == '\U{3000}' || c == '\U{FEFF}'
  }

  // ---------------------------------------------------------------- substrings

  predicate OccursAt(s: string, sub: string, i: nat) {
    i + |sub| <= |s| && s[i..i + |sub|] == sub
  }

  /** Python's `sub in s`. */
  predicate Contains(s: string, sub: string) {
    exists i: nat | i <= |s| :: OccursAt(s, sub, i)
  }

  /** Python truthiness of a value that is a string or None: present and non-empty. */
  predicate Truthy(v: Option<string>) {
    v.Some? && v.value != ""
  }

  predicate StartsWith(s: string, prefix: string) {
    |prefix| <= |s| && s[..|prefix|] == prefix
  }

  predicate EndsWith(s: string, suffix: string) {
    |suffix| <= |s| && s[|s| - |suffix|..] == suffix
  }

  /** The leftmost occurrence of `sub` in `s` at or after `from`: what `str.find` and `re.search` of a literal report. */
  function IndexOf(s: string, sub: string, from: nat): (r: Option<nat>)
    ensures r.Some? ==> from <= r.value && OccursAt(s, sub, r.value)
    ensures r.Some? ==> forall j :: from <= j < r.value ==> !OccursAt(s, sub, j)
    ensures r.None? ==> forall j: nat :: from <= j ==> !OccursAt(s, sub, j)
    decreases |s| - from
  {
    if from + |sub| > |s| then None
    else if OccursAt(s, sub, from) then Some(from)
    else IndexOf(s, sub, from + 1)
  }

  lemma ContainsIffFound(s: string, sub: string)
    ensures Contains(s, sub) <==> IndexOf(s, sub, 0).Some?
  {
    if IndexOf(s, sub, 0).Some? {
      assert OccursAt(s, sub, IndexOf(s, sub, 0).value);
    }
  }

  /** An occurrence with none before it is the one `IndexOf` reports. */
  lemma IndexOfAt(s: string, sub: string, k: nat)
    requires OccursAt(s, sub, k)
    requires forall j | 0 <= j < k :: !OccursAt(s, sub, j)
    ensures IndexOf(s, sub, 0) == Some(k)
  {
  }

  lemma ContainsWitness(s: string, sub: string, i: nat)
    requires OccursAt(s, sub, i)
    ensures Contains(s, sub)
  {
  }

  /** A character missing from `s` is missing from every piece of it. */
  lemma MissingFromPiece(s: string, t: string, c: char)
    requires Contains(s, t) && c !in s
    ensures c !in t
  {
    var i: nat :| i <= |s| && OccursAt(s, t, i);
    forall k | 0 <= k < |t|
      ensures t[k] != c
    {
      assert t[k] == s[i..i + |t|][k] == s[i + k];
    }
  }

  /** Concatenation regroups freely; stated on variables so that literal operands are never unfolded. */
  lemma AppendAssoc(a: string, b: string, c: string)
    ensures a + (b + c) == a + b + c
  {
  }

  /** A text ends with whatever was appended last. */
  lemma EndsWithJoined(a: string, b: string, c: string)
    ensures EndsWith(a + b + c, b + c)
  {
    AppendAssoc(a, b, c);
  }

  lemma ContainsInLonger(a: string, b: string, c: string, sub: string)
    requires Contains(b, sub)
    ensures Contains(a + b + c, sub)
  {
    var i: nat :| i <= |b| && OccursAt(b, sub, i);
    assert (a + b + c)[|a| + i..|a| + i + |sub|] == b[i..i + |sub|];
    assert OccursAt(a + b + c, sub, |a| + i);
  }

  // ---------------------------------------------------------------- case and whitespace

  function AsciiLowerChar(c: char): char {
    if 'A' <= c <= 'Z' then (c as int + 32) as char else c
  }

  /** `str.lower()` restricted to the ASCII letters (other characters are left as they are). */
  function AsciiLower(s: string): (r: string)
    ensures |r| == |s|
    ensures forall i | 0 <= i < |s| :: r[i] == AsciiLowerChar(s[i])
  {
    seq(|s|, i requires 0 <= i < |s| => AsciiLowerChar(s[i]))
  }

  /** Drops the leading characters satisfying `isSpace`. */
  function TrimStart(s: string, isSpace: char -> bool): (r: string)
    ensures |r| <= |s| && r == s[|s| - |r|..]
    ensures forall i | 0 <= i < |s| - |r| :: isSpace(s[i])
    ensures |r| > 0 ==> !isSpace(r[0])
  {
    if |s| > 0 && isSpace(s[0]) then
      var r := TrimStart(s[1..], isSpace);
      assert s[1..][|s| - 1 - |r|..] == s[|s| - |r|..];
      forall i | 1 <= i < |s| - |r|
        ensures isSpace(s[i])
      {
        assert s[1..][i - 1] == s[i];
      }
      r
    else s
  }

  /** Drops the trailing characters satisfying `isSpace`. */
  function TrimEnd(s: string, isSpace: char -> bool): (r: string)
    ensures |r| <= |s| && r == s[..|r|]
    ensures forall i | |r| <= i < |s| :: isSpace(s[i])
    ensures |r| > 0 ==> !isSpace(r[|r| - 1])
  {
    if |s| > 0 && isSpace(s[|s| - 1]) then
      var r := TrimEnd(s[..|s| - 1], isSpace);
      assert s[..|s| - 1][..|r|] == s[..|r|];
      forall i | |r| <= i < |s| - 1
        ensures isSpace(s[i])
      {
        assert s[..|s| - 1][i] == s[i];
      }
      r
    else s
  }

  /** Both ends trimmed: `str.strip()` with IsPySpace, `String.prototype.trim` with IsJsSpace. */
  function Trim(s: string, isSpace: char -> bool): (r: string)
    ensures exists a, b :: 0 <= a <= b <= |s| && r == s[a..b]
    ensures |r| > 0 ==> !isSpace(r[0]) && !isSpace(r[|r| - 1])
  {
    var t := TrimStart(s, isSpace);
    var r := TrimEnd(t, isSpace);
    assert r == s[|s| - |t|..|s| - |t| + |r|];
    r
  }

  /** A string that neither starts nor ends with a space is its own trim. */
  lemma TrimFixed(s: string, isSpace: char -> bool)
    requires |s| > 0 ==> !isSpace(s[0]) && !isSpace(s[|s| - 1])
    ensures Trim(s, isSpace) == s
  {
    assert TrimStart(s, isSpace) == s;
  }

  /** Trimming twice is trimming once. */
  lemma TrimIdempotent(s: string, isSpace: char -> bool)
    ensures Trim(Trim(s, isSpace), isSpace) == Trim(s, isSpace)
  {
    TrimFixed(Trim(s, isSpace), isSpace);
  }

  /** Python's `s.replace(pat, rep)`: every leftmost, non-overlapping occurrence replaced. */
  function ReplaceAll(s: string, pat: string, rep: string): string
    requires |pat| > 0
    decreases |s|
  {
    if |s| < |pat| then s
    else if s[..|pat|] == pat then rep + ReplaceAll(s[|pat|..], pat, rep)
    else [s[0]] + ReplaceAll(s[1..], pat, rep)
  }

  /** Replacing a pattern that does not occur leaves the string as it was. */
  lemma {:induction false} ReplaceAllAbsent(s: string, pat: string, rep: string)
    requires |pat| > 0 && !Contains(s, pat)
    ensures ReplaceAll(s, pat, rep) == s
    decreases |s|
  {
    if |s| >= |pat| {
      assert !OccursAt(s, pat, 0);
      forall i: nat | i + |pat| <= |s| - 1
        ensures !OccursAt(s[1..], pat, i)
      {
        assert s[1..][i..i + |pat|] == s[1 + i..1 + i + |pat|];
        assert !OccursAt(s, pat, 1 + i);
      }
      ReplaceAllAbsent(s[1..], pat, rep);
    }
  }

  // ---------------------------------------------------------------- split and join on one character

  function IndexOfChar(s: string, c: char): (i: nat)
    requires c in s
    ensures i < |s| && s[i] == c && c !in s[..i]
  {
    if s[0] == c then 0 else
      var k := IndexOfChar(s[1..], c);
      assert s[..k + 1] == [s[0]] + s[1..][..k];
      k + 1
  }

  /** `s.split(sep)` for a one-character separator (Python `str.split`, JavaScript `String.split`). */
  function Split(s: string, sep: char): (r: seq<string>)
    ensures |r| >= 1
    ensures forall k | 0 <= k < |r| :: sep !in r[k]
    decreases |s|
  {
    if sep !in s then [s]
    else
      var i := IndexOfChar(s, sep);
      [s[..i]] + Split(s[i + 1..], sep)
  }

  /** `sep.join(parts)`. */
  function Join(parts: seq<string>, sep: char): string
    requires |parts| >= 1
  {
    if |parts| == 1 then parts[0] else parts[0] + [sep] + Join(parts[1..], sep)
  }

  /** Splitting and joining again gives back the string. */
  lemma {:induction false} JoinSplit(s: string, sep: char)
    ensures Join(Split(s, sep), sep) == s
    decreases |s|
  {
    if sep in s {
      var i := IndexOfChar(s, sep);
      var rest := Split(s[i + 1..], sep);
      JoinSplit(s[i + 1..], sep);
      assert Split(s, sep) == [s[..i]] + rest;
      assert Split(s, sep)[1..] == rest;
      assert s == s[..i] + [sep] + s[i + 1..];
    }
  }

  /** The first occurrence of `c` is at `k` when `c` occurs at `k` and nowhere before it. */
  lemma IndexOfCharAt(s: string, c: char, k: nat)
    requires k < |s| && s[k] == c
    requires forall j | 0 <= j < k :: s[j] != c
    ensures IndexOfChar(s, c) == k
  {
    var i := IndexOfChar(s, c);
    forall j | 0 <= j < i
      ensures s[j] != c
    {
      assert s[..i][j] == s[j];
    }
  }

  /** Joining parts free of the separator and splitting again gives back the parts. */
  lemma {:induction false} SplitJoin(parts: seq<string>, sep: char)
    requires |parts| >= 1
    requires forall k | 0 <= k < |parts| :: sep !in parts[k]
    ensures Split(Join(parts, sep), sep) == parts
    decreases |parts|
  {
    if |parts| > 1 {
      JoinFirstSeparator(parts, sep);
      SplitJoin(parts[1..], sep);
      assert parts == [parts[0]] + parts[1..];
    }
  }

  /** The first separator of a join comes right after the first part. */
  lemma JoinFirstSeparator(parts: seq<string>, sep: char)
    requires |parts| > 1 && sep !in parts[0]
    ensures var s, n := Join(parts, sep), |parts[0]|;
      && sep in s && IndexOfChar(s, sep) == n
      && s[..n] == parts[0] && s[n + 1..] == Join(parts[1..], sep)
  {
    var s := Join(parts, sep);
    var tail := Join(parts[1..], sep);
    var n := |parts[0]|;
    assert s == parts[0] + [sep] + tail;
    forall j | 0 <= j < n
      ensures s[j] != sep
    {
      assert s[j] == parts[0][j];
    }
    IndexOfCharAt(s, sep, n);
    assert s[..n] == parts[0];
    assert s[n + 1..] == tail;
  }

  /**
   * `os.path.splitext(name)` for a file name without directory part: the extension starts at
   * the last '.', provided some character other than '.' precedes it (so '.mp4' has none).
   */
  function SplitExt(name: string): (r: (string, string))
    ensures r.0 + r.1 == name
    ensures r.1 == "" || (r.1[0] == '.' && '.' !in r.1[1..])
  {
    if '.' !in name then (name, "")
    else
      var d := LastIndexOfChar(name, '.');
      if exists k | 0 <= k < d :: name[k] != '.' then (name[..d], name[d..])
      else (name, "")
  }

  function LastIndexOfChar(s: string, c: char): (i: nat)
    requires c in s
    ensures i < |s| && s[i] == c && c !in s[i + 1..]
  {
    if s[|s| - 1] == c then |s| - 1
    else
      assert c in s[..|s| - 1] by {
        var j :| 0 <= j < |s| && s[j] == c;
        assert s[..|s| - 1][j] == c;
      }
      var k := LastIndexOfChar(s[..|s| - 1], c);
      assert s[k + 1..] == s[..|s| - 1][k + 1..] + [s[|s| - 1]];
      k
  }

  // ---------------------------------------------------------------- integers as decimal text

  function DigitChar(d: nat): (c: char)
    requires d < 10
    ensures IsAsciiDigit(c)
  {
    ('0' as int + d) as char
  }

  function DigitValue(c: char): nat
    requires IsAsciiDigit(c)
  {
    c as int - '0' as int
  }

  predicate AllDigits(s: string) {
    forall i | 0 <= i < |s| :: IsAsciiDigit(s[i])
  }

  /** `str(n)` for a natural number. */
  function NatToString(n: nat): (r: string)
    ensures |r| >= 1 && AllDigits(r)
    decreases n
  {
    if n < 10 then [DigitChar(n)] else NatToString(n / 10) + [DigitChar(n % 10)]
  }

  /** The value of a string of decimal digits. */
  function DigitsValue(s: string): nat
    requires AllDigits(s)
  {
    if |s| == 0 then 0 else DigitsValue(s[..|s| - 1]) * 10 + DigitValue(s[|s| - 1])
  }

  /** `str(i)` for any integer. */
  function IntToString(i: int): string {
    if i < 0 then "-" + NatToString(-i) else NatToString(i)
  }

  /** Decimal digits, where a single '_' may stand between two of them, as `int()` allows. */
  predicate DigitGroups(s: string) {
    && |s| > 0 && IsAsciiDigit(s[0]) && IsAsciiDigit(s[|s| - 1])
    && (forall k | 0 <= k < |s| :: IsAsciiDigit(s[k]) || s[k] == '_')
    && (forall i, j | 0 <= i < |s| && 0 <= j < |s| && j == i + 1 :: IsAsciiDigit(s[i]) || IsAsciiDigit(s[j]))
  }

  /** The value of such digits, the separators skipped. */
  function GroupsValue(s: string): nat
    requires forall k | 0 <= k < |s| :: IsAsciiDigit(s[k]) || s[k] == '_'
  {
    if |s| == 0 then 0
    else if s[|s| - 1] == '_' then GroupsValue(s[..|s| - 1])
    else GroupsValue(s[..|s| - 1]) * 10 + DigitValue(s[|s| - 1])
  }

  /** Without separators the groups are the plain digits, with the same value. */
  lemma {:induction false} GroupsOfDigits(s: string)
    requires AllDigits(s)
    ensures GroupsValue(s) == DigitsValue(s)
  {
    if |s| > 0 {
      GroupsOfDigits(s[..|s| - 1]);
    }
  }

  /** The sign `int()` reads, if any. */
  predicate IsSign(c: char) {
    c == '+' || c == '-'
  }

  /** `int()` on text already stripped: an optional '+' or '-', then digits with single '_' separators. */
  function ParseIntText(t: string): (r: Option<int>)
    ensures r.Some? <==> DigitGroups(t) || (|t| > 0 && IsSign(t[0]) && DigitGroups(t[1..]))
    ensures r.Some? && r.value < 0 ==> t[0] == '-'
  {
    if |t| > 0 && IsSign(t[0]) && DigitGroups(t[1..]) then
      if t[0] == '-' then Some(0 - GroupsValue(t[1..])) else Some(GroupsValue(t[1..]))
    else if DigitGroups(t) then Some(GroupsValue(t))
    else None
  }

  /**
   * `int(s)`: surrounding whitespace stripped, then a signed decimal with optional '_' separators;
   * None where Python raises ValueError. Non-ASCII decimal digits, which Python also reads, are
   * not modelled.
   */
  function ParseInt(s: string): (r: Option<int>)
    ensures var t := Trim(s, IsPySpace);
      r.Some? <==> DigitGroups(t) || (|t| > 0 && IsSign(t[0]) && DigitGroups(t[1..]))
    ensures r.Some? && r.value < 0 ==> '-' in s
  {
    ParseIntText(Trim(s, IsPySpace))
  }

  lemma {:induction false} NatToStringValue(n: nat)
    ensures DigitsValue(NatToString(n)) == n
    decreases n
  {
    if n >= 10 {
      NatToStringValue(n / 10);
      var r := NatToString(n);
      assert r[..|r| - 1] == NatToString(n / 10);
      assert DigitValue(r[|r| - 1]) == n % 10;
    }
  }

  /** Plain decimal digits, with or without a leading '-', read back as their value. */
  lemma DigitTextParses(r: string)
    requires |r| > 0 && AllDigits(r)
    ensures ParseIntText(r) == Some(DigitsValue(r))
    ensures ParseIntText("-" + r) == Some(0 - DigitsValue(r))
  {
    DigitsAreGroups(r);
    assert ("-" + r)[1..] == r;
  }

  /** Plain digits are digit groups without separators, with the same value. */
  lemma DigitsAreGroups(r: string)
    requires |r| > 0 && AllDigits(r)
    ensures DigitGroups(r) && GroupsValue(r) == DigitsValue(r)
  {
    GroupsOfDigits(r);
  }

  /** Decimal text has no blanks at its ends, so stripping leaves it as it is. */
  lemma DecimalUnstripped(s: string)
    requires |s| > 0 && (IsAsciiDigit(s[0]) || s[0] == '-') && IsAsciiDigit(s[|s| - 1])
    ensures Trim(s, IsPySpace) == s
  {
    TrimFixed(s, IsPySpace);
  }

  /** Decimal rendering followed by parsing gives the integer back. */
  lemma IntToStringRoundTrip(i: int)
    ensures ParseInt(IntToString(i)) == Some(i)
  {
    RenderingParses(i);
  }

  /** The rendering is left alone by stripping and reads back as the integer. */
  lemma RenderingParses(i: int)
    ensures Trim(IntToString(i), IsPySpace) == IntToString(i)
    ensures ParseIntText(IntToString(i)) == Some(i)
  {
    if i < 0 {
      NegativeRendering(i, IntToString(i));
    } else {
      NaturalRendering(i, IntToString(i));
    }
  }

  lemma NaturalRendering(i: int, s: string)
    requires i >= 0 && s == IntToString(i)
    ensures Trim(s, IsPySpace) == s
    ensures ParseIntText(s) == Some(i)
  {
    NatToStringValue(i);
    DigitTextParses(s);
    DecimalUnstripped(s);
  }

  lemma NegativeRendering(i: int, s: string)
    requires i < 0 && s == IntToString(i)
    ensures Trim(s, IsPySpace) == s
    ensures ParseIntText(s) == Some(i)
  {
    var r := NatToString(-i);
    NatToStringValue(-i);
    DigitTextParses(r);
    assert s == "-" + r;
    assert ParseIntText(s) == Some(i);
    assert s[0] == '-' && s[|s| - 1] == r[|r| - 1];
    DecimalUnstripped(s);
  }

  /** Trimming text with one blank on each side gives back the text between them. */
  lemma BlanksStripped(core: string, isSpace: char -> bool)
    requires |core| > 0 && !isSpace(core[0]) && !isSpace(core[|core| - 1]) && isSpace(' ')
    ensures Trim(" " + core + " ", isSpace) == core
  {
    var s := " " + core + " ";
    var t := core + " ";
    assert s[1..] == t && t[0] == core[0];
    assert TrimStart(s, isSpace) == t;
    assert t[..|t| - 1] == core;
    assert TrimEnd(t, isSpace) == TrimEnd(core, isSpace) == core;
  }

  /** `int()` strips blanks and reads a '+' sign. */
  lemma ParseIntSignAndBlanks(s: string)
    requires s == " +7 "
    ensures ParseInt(s) == Some(7)
  {
    var core := "+7";
    BlanksStripped(core, IsPySpace);
    assert s == " " + core + " ";
    assert core[1..] == "7" && DigitGroups(core[1..]);
  }

  /** `int()` skips a single '_' between digits. */
  lemma ParseIntSeparator(s: string)
    requires s == "1_0"
    ensures ParseInt(s) == Some(10)
  {
    DecimalUnstripped(s);
    SeparatorSkipped(s);
  }

  lemma SeparatorSkipped(s: string)
    requires s == "1_0"
    ensures ParseIntText(s) == Some(10)
  {
    assert DigitGroups(s);
    var one := s[..1];
    assert s[..2][..1] == one && one == "1" && one[..0] == "";
    assert GroupsValue(one) == 1;
    assert GroupsValue(s[..2]) == 1;
    assert GroupsValue(s) == 10;
  }

  /** `int()` refuses a doubled '_' and one at either end. */
  lemma ParseIntBadSeparators(s: string)
    requires s == "1__0" || s == "_1" || s == "1_"
    ensures ParseIntText(s) == None
  {
    assert !DigitGroups(s) by {
      if s == "1__0" { assert s[1] == '_' && s[2] == '_'; }
    }
  }

  /** Different integers have different decimal renderings. */
  lemma IntToStringInjective(i: int, j: int)
    requires IntToString(i) == IntToString(j)
    ensures i == j
  {
    IntToStringRoundTrip(i);
    IntToStringRoundTrip(j);
  }
}

=== FILE: transcode.dfy ===
/**
 * The two copies of the transcoder: the backend one (backend/core/video_transcoder.py), which
 * probes the duration, clamps its progress and writes only changes, and the older root one
 * (video_transcoder.py), which the web application imports. ffmpeg itself is an oracle: the model
 * receives whether it is installed, what the duration probe printed, the stderr lines the monitor
 * read and how the encoding process ended.
 */
module Transcode {
  import opened Wrappers
  import opened Text

  const FfmpegMissing: string := "FFmpeg未安装，无法进行视频转码"
  const InputMissingPrefix: string := "输入文件不存在: "
  const TimeoutMessage: string := "转码超时：超过30分钟未完成"
  const SuccessMessage: string := "转码成功"
  const FailurePrefix: string := "转码失败: "
  const ExceptionPrefix: string := "转码异常: "
  /** `str(ZeroDivisionError())` for a true division by the integer 0. */
  const DivisionByZero: string := "division by zero"

  /** Durations are kept in hundredths of a second, the precision of ffmpeg's `Duration:` field. */
  const DefaultDuration: nat := 3600 * 100

  /** What the filesystem and PATH say before any encoding starts. */
  datatype Environment = Environment(ffmpegInstalled: bool, inputExists: bool)

  /** How the backend's encoding process ended: an exit code, the 30-minute timeout, or an exception. */
  datatype Run = Exited(code: int, stderr: string) | TimedOut | Threw(error: string)

  /** How the root's encoding process ended; it waits without a timeout. */
  datatype RootRun = RootExited(code: int, stderr: string) | RootThrew(error: string) {
    function AsRun(): Run {
      match this
      case RootExited(c, e) => Exited(c, e)
      case RootThrew(e) => Threw(e)
    }

    /** The run as `communicate()` reports it once the monitor has read stderr to its end. */
    function Drained(): RootRun {
      match this
      case RootExited(c, _) => RootExited(c, "")
      case RootThrew(e) => RootThrew(e)
    }
  }

  /** Either `transcode_video` raised, or it returned `(success, message)`. */
  datatype Outcome = Raised(error: string) | Returned(success: bool, message: string)

  /** The progress values written to the task and the call's outcome. */
  datatype Transcoded = Transcoded(writes: seq<int>, outcome: Outcome)

  // ---------------------------------------------------------------- reading ffmpeg's stderr

  /** The length of the run of ASCII digits starting at `i`: how far a greedy `\d+` reaches. */
  function DigitRun(s: string, i: nat): (n: nat)
    requires i <= |s|
    ensures i + n <= |s|
    ensures forall k | i <= k < i + n :: IsAsciiDigit(s[k])
    ensures i + n == |s| || !IsAsciiDigit(s[i + n])
    decreases |s| - i
  {
    if i < |s| && IsAsciiDigit(s[i]) then 1 + DigitRun(s, i + 1) else 0
  }

  /**
   * `(\d+):(\d+)...` with `count` groups starting at `i`: the groups' values, or None when the text
   * there does not have that shape. A greedy run of digits can only be followed by a non-digit,
   * so no backtracking can make a shorter run succeed.
   */
  function Groups(s: string, i: nat, count: nat): (r: Option<seq<nat>>)
    requires i <= |s| && count >= 1
    ensures r.Some? ==> |r.value| == count
    decreases count
  {
    var n := DigitRun(s, i);
    if n == 0 then None
    else
      var v := DigitsValue(s[i..i + n]);
      if count == 1 then Some([v])
      else if i + n < |s| && s[i + n] == ':' then
        var rest :- Groups(s, i + n + 1, count - 1);
        Some([v] + rest)
      else None
  }

  const TimeField: string := "time="

  /** The pattern `time=(\d+)(:(\d+))*` with `count` groups, matched at position `i`. */
  function MarkerAt(s: string, i: nat, count: nat): Option<seq<nat>>
    requires count >= 1
  {
    if OccursAt(s, TimeField, i) then Groups(s, i + |TimeField|, count) else None
  }

  /** The leftmost position at or after `from` where the marker pattern matches. */
  function FindMarker(s: string, from: nat, count: nat): (r: Option<nat>)
    requires count >= 1
    ensures r.Some? ==> from <= r.value <= |s| && MarkerAt(s, r.value, count).Some?
    ensures forall j | from <= j <= |s| && (r.None? || j < r.value) :: MarkerAt(s, j, count).None?
    decreases |s| + 1 - from
  {
    if from > |s| then None
    else if MarkerAt(s, from, count).Some? then Some(from)
    else FindMarker(s, from + 1, count)
  }

  /** `re.search` of the marker pattern: the groups of its leftmost match. */
  function Marker(s: string, count: nat): (r: Option<seq<nat>>)
    requires count >= 1
    ensures r.Some? ==> |r.value| == count
    ensures r.None? <==> forall j | 0 <= j <= |s| :: MarkerAt(s, j, count).None?
    ensures r.Some? ==> exists k | 0 <= k <= |s| ::
      MarkerAt(s, k, count) == r && forall j | 0 <= j < k :: MarkerAt(s, j, count).None?
  {
    match FindMarker(s, 0, count)
    case Some(k) => MarkerAt(s, k, count)
    case None => None
  }

  const DurationField: string := "Duration: "

  /** Exactly two ASCII digits at `i`, as `\d{2}` reads them. */
  function TwoDigits(s: string, i: nat): Option<nat> {
    if i + 2 <= |s| && IsAsciiDigit(s[i]) && IsAsciiDigit(s[i + 1]) then
      Some(DigitValue(s[i]) * 10 + DigitValue(s[i + 1]))
    else None
  }

  /**
   * `Duration: (\d{2}):(\d{2}):(\d{2}\.\d{2})` matched at `i`, in hundredths of a second:
   * `hours * 3600 + minutes * 60 + float(seconds)` scaled by 100.
   */
  function DurationAt(s: string, i: nat): (r: Option<nat>)
    ensures r.Some? ==> OccursAt(s, DurationField, i)
  {
    if !OccursAt(s, DurationField, i) then None
    else
      var b := i + |DurationField|;
      var h :- TwoDigits(s, b);
      var m :- TwoDigits(s, b + 3);
      var sec :- TwoDigits(s, b + 6);
      var frac :- TwoDigits(s, b + 9);
      if s[b + 2] == ':' && s[b + 5] == ':' && s[b + 8] == '.' then
        Some((h * 3600 + m * 60 + sec) * 100 + frac)
      else None
  }

  /** The leftmost position at or after `from` where the duration pattern matches. */
  function FindDurationAt(s: string, from: nat): (r: Option<nat>)
    ensures r.Some? ==> from <= r.value <= |s| && DurationAt(s, r.value).Some?
    ensures forall j | from <= j <= |s| && (r.None? || j < r.value) :: DurationAt(s, j).None?
    decreases |s| + 1 - from
  {
    if from > |s| then None
    else if DurationAt(s, from).Some? then Some(from)
    else FindDurationAt(s, from + 1)
  }

  /** `re.search` of the duration pattern from `from`: the value at its leftmost match. */
  function FindDuration(s: string, from: nat): (r: Option<nat>)
    ensures r.Some? ==> exists j | from <= j <= |s| ::
      DurationAt(s, j) == r && forall m | from <= m < j :: DurationAt(s, m).None?
    ensures r.None? <==> forall j | from <= j <= |s| :: DurationAt(s, j).None?
  {
    match FindDurationAt(s, from)
    case Some(k) => DurationAt(s, k)
    case None => None
  }

  /**
   * `_get_video_duration`: the first `Duration:` field of the probe's stderr, or 0 when there is
   * none or the probe itself raised (`stderr` None).
   */
  function ProbeDuration(stderr: Option<string>): (d: nat)
    ensures stderr.None? ==> d == 0
    ensures stderr.Some? && FindDuration(stderr.value, 0).None? ==> d == 0
    ensures stderr.Some? && FindDuration(stderr.value, 0).Some? ==> d == FindDuration(stderr.value, 0).value
    ensures stderr.Some? && (forall j | 0 <= j <= |stderr.value| :: DurationAt(stderr.value, j).None?) ==> d == 0
    ensures stderr.Some? && (exists j | 0 <= j <= |stderr.value| :: DurationAt(stderr.value, j).Some?) ==>
      exists j | 0 <= j <= |stderr.value| ::
        DurationAt(stderr.value, j) == Some(d) && forall m | 0 <= m < j :: DurationAt(stderr.value, m).None?
  {
    match stderr
    case None => 0
    case Some(e) => FindDuration(e, 0).GetOr(0)
  }

  /** A duration of 0 or less is replaced by one hour. */
  function EffectiveDuration(d: int): (r: int)
    ensures r > 0
    ensures d > 0 ==> r == d
    ensures d <= 0 ==> r == DefaultDuration
  {
    if d <= 0 then DefaultDuration else d
  }

  // ---------------------------------------------------------------- backend progress monitor

  function Clamp(p: int): (r: int)
    ensures 0 <= r <= 100
    ensures 0 <= p <= 100 ==> r == p
  {
    if p < 0 then 0 else if p > 100 then 100 else p
  }

  /** Scaling both sides of `a <= b` by a positive factor. */
  lemma MulMonotone(a: int, b: int, d: int)
    requires a <= b && d > 0
    ensures a * d <= b * d
  {
    assert b * d == a * d + (b - a) * d;
  }

  /** The floor quotient of Euclidean division, with both bounds written as products. */
  lemma QuotientBounds(n: nat, d: int)
    requires d > 0
    ensures (n / d) * d <= n < (n / d + 1) * d
  {
    var q, r := n / d, n % d;
    assert n == d * q + r && 0 <= r < d;
    assert d * q == q * d;
    assert (q + 1) * d == q * d + d;
  }

  /** For a positive divisor, the quotient reaches `k` exactly when the dividend reaches `k * d`. */
  lemma QuotientReaches(n: nat, d: int, k: nat)
    requires d > 0
    ensures n / d >= k <==> n >= k * d
  {
    QuotientBounds(n, d);
    var q := n / d;
    if q >= k {
      MulMonotone(k, q, d);
    } else {
      MulMonotone(q + 1, k, d);
    }
  }

  /**
   * The percentage for `secs` encoded seconds of a `duration` given in hundredths:
   * `int(secs / duration * 100)` clamped to 0..100, and 0 for a non-positive duration.
   */
  function BackendPercent(secs: nat, duration: int): (p: int)
    ensures 0 <= p <= 100
    ensures duration > 0 ==> (p == 100 <==> secs * 100 >= duration)
    ensures duration > 0 && p < 100 ==> p * duration <= secs * 100 * 100 < (p + 1) * duration
    ensures duration <= 0 ==> p == 0
  {
    if duration > 0 then
      var n := secs * 100 * 100;
      QuotientBounds(n, duration);
      QuotientReaches(n, duration, 100);
      Clamp(n / duration)
    else 0
  }

  /** `time=H:M:S` in seconds. */
  function Seconds(g: seq<nat>): nat
    requires |g| == 3
  {
    g[0] * 3600 + g[1] * 60 + g[2]
  }

  /** The clamped percentage of every line that carries a `time=H:M:S` marker, in order. */
  function LinePercents(lines: seq<string>, duration: int): (ps: seq<int>)
    ensures |ps| <= |lines|
    ensures forall i | 0 <= i < |ps| :: 0 <= ps[i] <= 100
  {
    if |lines| == 0 then []
    else
      match Marker(lines[0], 3)
      case Some(g) => [BackendPercent(Seconds(g), duration)] + LinePercents(lines[1..], duration)
      case None => LinePercents(lines[1..], duration)
  }

  /**
   * The writes of `_monitor_progress`'s reader: a percentage is written only when it differs from
   * the last one written, `last` starting at 0.
   */
  function ChangesFrom(ps: seq<int>, last: int): seq<int> {
    if |ps| == 0 then []
    else if ps[0] != last then [ps[0]] + ChangesFrom(ps[1..], ps[0])
    else ChangesFrom(ps[1..], last)
  }

  function MonitorWrites(lines: seq<string>, duration: int): seq<int> {
    ChangesFrom(LinePercents(lines, duration), 0)
  }

  /**
   * Emit-on-change: the first write differs from the starting value, no two consecutive writes
   * are equal, and every write is one of the computed percentages.
   */
  lemma {:induction false} ChangesDiffer(ps: seq<int>, last: int)
    ensures var w := ChangesFrom(ps, last);
      && (|w| > 0 ==> w[0] != last)
      && (forall i | 0 <= i < |w| - 1 :: w[i] != w[i + 1])
      && (forall i | 0 <= i < |w| :: w[i] in ps)
  {
    if |ps| > 0 {
      if ps[0] != last {
        ChangesDiffer(ps[1..], ps[0]);
      } else {
        ChangesDiffer(ps[1..], last);
      }
    }
  }

  predicate NonDecreasing(xs: seq<int>) {
    forall i, j | 0 <= i < j < |xs| :: xs[i] <= xs[j]
  }

  predicate Increasing(xs: seq<int>) {
    forall i, j | 0 <= i < j < |xs| :: xs[i] < xs[j]
  }

  /**
   * When the percentages never fall below the starting value and never go back, the writes
   * strictly increase and all exceed the starting value.
   */
  lemma {:induction false} ChangesOfMonotone(ps: seq<int>, last: int)
    requires NonDecreasing(ps)
    requires forall i | 0 <= i < |ps| :: last <= ps[i]
    ensures Increasing(ChangesFrom(ps, last))
    ensures forall i | 0 <= i < |ChangesFrom(ps, last)| :: last < ChangesFrom(ps, last)[i]
  {
    if |ps| > 0 {
      if ps[0] != last {
        ChangesOfMonotone(ps[1..], ps[0]);
      } else {
        ChangesOfMonotone(ps[1..], last);
      }
    }
  }

  /**
   * With time markers that never go back, the monitor never writes 0 and never repeats a value.
   */
  lemma MonitorNeverWritesZero(lines: seq<string>, duration: int)
    requires NonDecreasing(LinePercents(lines, duration))
    ensures Increasing(MonitorWrites(lines, duration))
    ensures forall i | 0 <= i < |MonitorWrites(lines, duration)| :: MonitorWrites(lines, duration)[i] > 0
  {
    ChangesOfMonotone(LinePercents(lines, duration), 0);
  }

  /** A marker that goes back to the start does get 0 written: the bound above needs monotone markers. */
  lemma ZeroWrittenAfterGoingBack()
    ensures ChangesFrom([50, 0], 0) == [50, 0]
  {
  }

  // ---------------------------------------------------------------- backend transcode_video

  /** The `(success, message)` pair the backend returns for each way ffmpeg can end. */
  function BackendResult(run: Run): (r: Outcome)
    ensures r.Returned?
    ensures r.success <==> run.Exited? && run.code == 0
    ensures run.TimedOut? ==> r.message == TimeoutMessage
    ensures run.Exited? && run.code == 0 ==> r.message == SuccessMessage
    ensures run.Exited? && run.code != 0 ==> r.message == FailurePrefix + run.stderr
    ensures run.Threw? ==> r.message == ExceptionPrefix + run.error
  {
    match run
    case Exited(code, stderr) =>
      if code == 0 then Returned(true, SuccessMessage) else Returned(false, FailurePrefix + stderr)
    case TimedOut => Returned(false, TimeoutMessage)
    case Threw(e) => Returned(false, ExceptionPrefix + e)
  }

  /**
   * `transcode_video` of the backend: it raises, before probing or encoding anything, when ffmpeg
   * is missing or the input file is absent; otherwise it probes the duration, writes the
   * monitor's progress when a task id is given, and maps the run's end to `(success, message)`.
   */
  function BackendTranscode(env: Environment, input: string, hasTask: bool, probe: Option<string>,
                            lines: seq<string>, run: Run): (r: Transcoded)
    ensures !env.ffmpegInstalled ==> r == Transcoded([], Raised(FfmpegMissing))
    ensures env.ffmpegInstalled && !env.inputExists ==> r == Transcoded([], Raised(InputMissingPrefix + input))
    ensures r.outcome.Raised? <==> !(env.ffmpegInstalled && env.inputExists)
    ensures r.outcome.Returned? ==> r.outcome == BackendResult(run)
    ensures !hasTask ==> r.writes == []
    ensures hasTask && r.outcome.Returned? ==>
      r.writes == MonitorWrites(lines, EffectiveDuration(ProbeDuration(probe)))
    ensures forall i | 0 <= i < |r.writes| :: 0 < r.writes[i] <= 100 || (r.writes[i] == 0 && i > 0)
  {
    if !env.ffmpegInstalled then Transcoded([], Raised(FfmpegMissing))
    else if !env.inputExists then Transcoded([], Raised(InputMissingPrefix + input))
    else
      var duration := EffectiveDuration(ProbeDuration(probe));
      var ps := LinePercents(lines, duration);
      ChangesDiffer(ps, 0);
      Transcoded(if hasTask then ChangesFrom(ps, 0) else [], BackendResult(run))
  }

  // ---------------------------------------------------------------- root copy

  /**
   * The root monitor as written: `time=(\d+):(\d+)` takes the first field (ffmpeg's hours) as the
   * total and the second (the minutes) as the position, and writes `int(cur / total * 100)`
   * unclamped for every marker line. A first field of 0 raises ZeroDivisionError, which ends
   * the reading.
   */
  function RootMonitor(lines: seq<string>): (r: (seq<int>, bool))
    ensures forall i | 0 <= i < |r.0| :: r.0[i] >= 0
  {
    if |lines| == 0 then ([], false)
    else
      var rest := RootMonitor(lines[1..]);
      var g := Marker(lines[0], 2);
      if g.None? then rest
      else if g.value[0] == 0 then ([], true)
      else ([RootPercent(g.value[1], g.value[0])] + rest.0, rest.1)
  }

  /** `int(cur / total * 100)` for a positive total. */
  function RootPercent(cur: nat, total: nat): nat
    requires total > 0
  {
    cur * 100 / total
  }

  /** The root monitor divides by zero exactly when some line's first field is 0. */
  lemma {:induction false} RootMonitorDivides(lines: seq<string>)
    ensures RootMonitor(lines).1 <==> exists i | 0 <= i < |lines| :: HoursZero(lines[i])
  {
    if |lines| > 0 {
      RootMonitorDivides(lines[1..]);
      ShiftExists(lines);
    }
  }

  /** Some line of `lines` is the head or some line of the tail. */
  lemma ShiftExists(lines: seq<string>)
    requires |lines| > 0
    ensures (exists i | 0 <= i < |lines| :: HoursZero(lines[i]))
      <==> (HoursZero(lines[0]) || exists i | 0 <= i < |lines[1..]| :: HoursZero(lines[1..][i]))
  {
    if i :| 0 <= i < |lines| && HoursZero(lines[i]) {
      if i > 0 {
        assert lines[1..][i - 1] == lines[i];
      }
    }
    if i :| 0 <= i < |lines[1..]| && HoursZero(lines[1..][i]) {
      assert lines[i + 1] == lines[1..][i];
    }
  }

  /** A line whose first `time=` field is 0: the root monitor divides by zero on it. */
  predicate HoursZero(line: string) {
    var g := Marker(line, 2);
    g.Some? && g.value[0] == 0
  }

  /**
   * The root `transcode_video`: the same two raising preconditions; with a task id the monitor
   * runs first, in the calling thread, and a division by zero there becomes a '转码异常' result.
   * Otherwise exit 0 is success and anything else a failure carrying stderr; with a task id the
   * monitor has already read stderr to its end, so `communicate()` hands back an empty one. There
   * is no timeout.
   */
  function RootTranscode(env: Environment, input: string, hasTask: bool, lines: seq<string>,
                         run: RootRun): (r: Transcoded)
    ensures !env.ffmpegInstalled ==> r == Transcoded([], Raised(FfmpegMissing))
    ensures env.ffmpegInstalled && !env.inputExists ==> r == Transcoded([], Raised(InputMissingPrefix + input))
    ensures r.outcome.Raised? <==> !(env.ffmpegInstalled && env.inputExists)
    ensures !hasTask ==> r.writes == []
    ensures r.outcome.Returned? && !hasTask ==> r.outcome == BackendResult(run.AsRun())
    ensures r.outcome.Returned? && hasTask ==> r.writes == RootMonitor(lines).0
    ensures r.outcome.Returned? && hasTask && (exists i | 0 <= i < |lines| :: HoursZero(lines[i])) ==>
      r.outcome == Returned(false, ExceptionPrefix + DivisionByZero)
    ensures r.outcome.Returned? && hasTask && !(exists i | 0 <= i < |lines| :: HoursZero(lines[i])) ==>
      r.outcome == BackendResult(run.Drained().AsRun())
  {
    if !env.ffmpegInstalled then Transcoded([], Raised(FfmpegMissing))
    else if !env.inputExists then Transcoded([], Raised(InputMissingPrefix + input))
    else if hasTask then
      var (writes, divided) := RootMonitor(lines);
      RootMonitorDivides(lines);
      if divided then Transcoded(writes, Returned(false, ExceptionPrefix + DivisionByZero))
      else Transcoded(writes, BackendResult(run.Drained().AsRun()))
    else Transcoded([], BackendResult(run.AsRun()))
  }

  /** With a task id, a failed encode's message is the bare failure prefix: its stderr was read by the monitor. */
  lemma RootFailureLosesStderr(env: Environment, input: string, lines: seq<string>, code: int, stderr: string)
    requires env.ffmpegInstalled && env.inputExists && code != 0
    requires forall i | 0 <= i < |lines| :: !HoursZero(lines[i])
    ensures RootTranscode(env, input, true, lines, RootExited(code, stderr)).outcome == Returned(false, FailurePrefix)
    ensures RootTranscode(env, input, false, lines, RootExited(code, stderr)).outcome == Returned(false, FailurePrefix + stderr)
  {
    assert FailurePrefix + "" == FailurePrefix;
  }

  /**
   * The two copies agree on the preconditions and, when no task id is given, on every outcome of
   * a run that can happen to both (the root copy cannot time out).
   */
  lemma CopiesAgreeWithoutTask(env: Environment, input: string, probe: Option<string>, lines: seq<string>,
                               run: RootRun)
    ensures BackendTranscode(env, input, false, probe, lines, run.AsRun())
         == RootTranscode(env, input, false, lines, run)
  {
  }

  /** The two-digit field "00" reads as 0. */
  lemma DoubleZero(d: string)
    requires d == "00"
    ensures AllDigits(d) && DigitsValue(d) == 0
  {
    assert d[..1][..0] == [];
    assert DigitsValue(d[..1]) == 0;
  }

  /** A first-hour progress line, as ffmpeg prints for every encode, makes the root monitor divide by zero. */
  lemma RootMonitorDividesInFirstHour()
    ensures RootMonitor(["time=00:00:01.00"]).1
  {
    var line := "time=00:00:01.00";
    FirstHourMarker();
    assert FindMarker(line, 0, 2) == Some(0);
    assert Marker(line, 2) == Some([0, 0]);
    var lines := [line];
    assert lines[0] == line && lines[1..] == [];
  }

  /** The marker of a first-hour progress line reads 0 hours and 0 minutes. */
  lemma FirstHourMarker()
    ensures MarkerAt("time=00:00:01.00", 0, 2) == Some([0, 0])
  {
    var line := "time=00:00:01.00";
    assert OccursAt(line, TimeField, 0);
    assert |TimeField| == 5;
    FirstHourGroups();
  }

  /** The two fields after `time=` in a first-hour progress line. */
  lemma FirstHourGroups()
    ensures Groups("time=00:00:01.00", 5, 2) == Some([0, 0])
  {
    var line := "time=00:00:01.00";
    FirstHourRuns();
    DoubleZero(line[5..7]);
    assert line[7] == ':';
    assert Groups(line, 8, 1) == Some([0]) by {
      DoubleZero(line[8..10]);
    }
    assert [0] + [0] == [0, 0];
  }

  /** The hours and minutes fields of a first-hour progress line are two digits each. */
  lemma FirstHourRuns()
    ensures DigitRun("time=00:00:01.00", 5) == 2 && DigitRun("time=00:00:01.00", 8) == 2
  {
    var line := "time=00:00:01.00";
    assert line[5] == line[6] == line[8] == line[9] == '0' && line[7] == line[10] == ':';
    assert DigitRun(line, 7) == 0 && DigitRun(line, 10) == 0;
    assert DigitRun(line, 6) == 1 && DigitRun(line, 9) == 1;
  }

  // ---------------------------------------------------------------- batch_transcode

  /** The names `batch_transcode` hands to `transcode_video`; every other name is skipped. */
  predicate Transcodable(name: string) {
    EndsWith(name, ".mp4") || EndsWith(name, ".avi") || EndsWith(name, ".mkv") || EndsWith(name, ".flv")
  }

  datatype FailedFile = FailedFile(file: string, error: string)

  datatype BatchReport = BatchReport(total: nat, success: nat, failed: nat, failedFiles: seq<FailedFile>)

  /** The batch progress writes and either the report or the error a `transcode_video` call raised. */
  datatype Batch = Batch(writes: seq<int>, report: Result<BatchReport, string>)

  /** How many of the first `k` names are transcoded. */
  function CountTranscodable(files: seq<string>, k: nat): (n: nat)
    requires k <= |files|
    ensures n <= k
  {
    if k == 0 then 0
    else CountTranscodable(files, k - 1) + (if Transcodable(files[k - 1]) then 1 else 0)
  }

  /** The failures among the first `k` names, in input order. */
  function Failures(files: seq<string>, k: nat, transcode: string -> Outcome): (f: seq<FailedFile>)
    requires k <= |files|
    ensures |f| <= CountTranscodable(files, k)
  {
    if k == 0 then []
    else
      var out := transcode(files[k - 1]);
      Failures(files, k - 1, transcode)
      + (if Transcodable(files[k - 1]) && out.Returned? && !out.success
         then [FailedFile(files[k - 1], out.message)] else [])
  }

  /** After index `i` is processed the batch writes `int((i + 1) / len * 100)`; skipped names write nothing. */
  function BatchWrites(files: seq<string>, k: nat): (w: seq<int>)
    requires k <= |files|
    ensures |w| == CountTranscodable(files, k)
  {
    if k == 0 then []
    else
      BatchWrites(files, k - 1)
      + (if Transcodable(files[k - 1]) then [k * 100 / |files|] else [])
  }

  /** The `i`-th name is transcoded and its call raises. */
  predicate RaisesAt(files: seq<string>, i: nat, transcode: string -> Outcome)
    requires i < |files|
  {
    Transcodable(files[i]) && transcode(files[i]).Raised?
  }

  /** The first name at or after `from` whose call raises, if any. */
  function FirstRaise(files: seq<string>, from: nat, transcode: string -> Outcome): (r: Option<nat>)
    requires from <= |files|
    ensures r.Some? ==> from <= r.value < |files| && RaisesAt(files, r.value, transcode)
    ensures forall j | from <= j < |files| && (r.None? || j < r.value) :: !RaisesAt(files, j, transcode)
    decreases |files| - from
  {
    if from == |files| then None
    else if RaisesAt(files, from, transcode) then Some(from)
    else FirstRaise(files, from + 1, transcode)
  }

  /**
   * `batch_transcode` (both copies: the backend's guard against an empty list sits inside the
   * loop, where the list is never empty). It stops at the first call that raises; otherwise it
   * reports the list length, the successes, and the failures in input order, and with a task id
   * writes the progress after every transcoded name.
   */
  method BatchTranscode(files: seq<string>, hasTask: bool, transcode: string -> Outcome) returns (r: Batch)
    ensures r.report.Err? <==> FirstRaise(files, 0, transcode).Some?
    ensures r.report.Ok? ==>
      && r.report.value.total == |files|
      && r.report.value.failedFiles == Failures(files, |files|, transcode)
      && r.report.value.failed == |r.report.value.failedFiles|
      && r.report.value.success + r.report.value.failed == CountTranscodable(files, |files|)
      && r.writes == (if hasTask then BatchWrites(files, |files|) else [])
    ensures r.report.Err? ==> var i := FirstRaise(files, 0, transcode).value;
      && r.report.error == transcode(files[i]).error
      && r.writes == (if hasTask then BatchWrites(files, i) else [])
  {
    var success, failed := 0, [];
    var writes := [];
    var i := 0;
    while i < |files|
      invariant 0 <= i <= |files|
      invariant FirstRaise(files, i, transcode) == FirstRaise(files, 0, transcode)
      invariant failed == Failures(files, i, transcode)
      invariant success + |failed| == CountTranscodable(files, i)
      invariant writes == (if hasTask then BatchWrites(files, i) else [])
    {
      var name := files[i];
      if Transcodable(name) {
        var out := transcode(name);
        if out.Raised? {
          assert FirstRaise(files, i, transcode) == Some(i);
          return Batch(writes, Err(out.error));
        }
        if out.success {
          success := success + 1;
        } else {
          failed := failed + [FailedFile(name, out.message)];
        }
        if hasTask {
          writes := writes + [(i + 1) * 100 / |files|];
        }
      }
      i := i + 1;
    }
    r := Batch(writes, Ok(BatchReport(|files|, success, |failed|, failed)));
  }

  /** When the last name is transcoded, the last batch write is 100. */
  lemma BatchEndsAtHundred(files: seq<string>)
    requires |files| > 0 && Transcodable(files[|files| - 1])
    ensures var w := BatchWrites(files, |files|); |w| > 0 && w[|w| - 1] == 100
  {
  }

  /** Batch progress never exceeds 100. */
  lemma {:induction false} BatchWritesAtMostHundred(files: seq<string>, k: nat)
    requires k <= |files|
    ensures forall i | 0 <= i < |BatchWrites(files, k)| :: 0 <= BatchWrites(files, k)[i] <= 100
  {
    if k > 0 {
      BatchWritesAtMostHundred(files, k - 1);
      var n := |files|;
      assert k * 100 / n <= 100 by {
        MulMonotone(k, n, 100);
        assert n * 100 < 101 * n;
        QuotientReaches(k * 100, n, 101);
      }
      var w, step := BatchWrites(files, k - 1), if Transcodable(files[k - 1]) then [k * 100 / n] else [];
      assert BatchWrites(files, k) == w + step;
      assert forall i | 0 <= i < |step| :: 0 <= step[i] <= 100;
    }
  }
}

=== FILE: worker.dfy ===
/**
 * The decision logic of the web application (app.py): task creation, retry, the task list's
 * filter, video search, the classification of files found by a scan, and one step of the
 * background download worker. Flask, JSON responses and HTTP codes are not modelled; a response
 * is reduced to what the handler decided.
 */
module Worker {
  import opened Wrappers
  import opened Text
  import Store
  import Detect
  import Download
  import Transcode

  // ---------------------------------------------------------------- create_task

  const MissingUrlMessage: string := "请提供视频链接"
  const DouyinTitle: string := "抖音视频"
  const ParseRejectedPrefix: string := "视频信息解析失败: "

  /** What `create_task` answered. */
  datatype Created =
    | Accepted(taskId: string)
    | MissingUrl
    | ParseRejected(message: string, platform: string, url: string)

  /** The task dict `create_task` stores and enqueues: pending, progress 0, stamped with the creation time. */
  function TaskRecord(id: string, url: string, title: string, platform: string, videoType: string, now: string): (e: Store.Snapshot)
    ensures e.Keys == {"id", "url", "title", "platform", "video_type", "status", "progress", "created_at"}
    ensures e["id"] == Store.Str(id) && e["url"] == Store.Str(url) && e["title"] == Store.Str(title)
    ensures e["status"] == Store.Str("pending") && e["progress"] == Store.Int(0)
    ensures Describes(e, title, platform, videoType, now)
    ensures "save_path" !in e
  {
    map["id" := Store.Str(id), "url" := Store.Str(url), "title" := Store.Str(title),
        "platform" := Store.Str(platform), "video_type" := Store.Str(videoType),
        "status" := Store.Str("pending"), "progress" := Store.Int(0), "created_at" := Store.Str(now)]
  }

  /** A queue entry as `create_task` makes it: pending, progress 0, naming its task and link, no path yet. */
  predicate FreshEntry(e: Store.Snapshot, id: string, url: string) {
    && "save_path" !in e
    && "id" in e && e["id"] == Store.Str(id)
    && "url" in e && e["url"] == Store.Str(url)
    && "status" in e && e["status"] == Store.Str("pending")
    && "progress" in e && e["progress"] == Store.Int(0)
  }

  /** The descriptive fields of a task dict: what the parser said of the link, and when it was created. */
  predicate Describes(e: Store.Snapshot, title: string, platform: string, videoType: string, now: string) {
    && "title" in e && e["title"] == Store.Str(title)
    && "platform" in e && e["platform"] == Store.Str(platform)
    && "video_type" in e && e["video_type"] == Store.Str(videoType)
    && "created_at" in e && e["created_at"] == Store.Str(now)
  }

  /** `set_task` then `add_task_to_queue` of the same dict. */
  function StoreAndEnqueue(s: Store.Store, id: string, e: Store.Snapshot): (r: Store.Store)
    requires Store.Valid(s) && "id" in e
    ensures Store.Valid(r) && id in r.tasks
    ensures r.queue == [e] + s.queue
    ensures Store.Pending(r.queue) == Store.Pending(s.queue) + [e]
    ensures id !in s.tasks ==> r.tasks[id] == Store.RenderAll(e)
    ensures forall k | k in e :: k in r.tasks[id] && r.tasks[id][k] == Store.Render(e[k])
    ensures Store.SameExcept(Store.GetTask(s, id), r.tasks[id], e.Keys)
    ensures Store.OtherTasksUnchanged(s, r, id)
  {
    var stored := Store.SetTask(s, id, e).value;
    var r := Store.AddTaskToQueue(stored, e);
    assert r.tasks == stored.tasks;
    r
  }

  /**
   * `create_task` with the id `uuid4` drew and the creation time as parameters. A falsy link is
   * refused. A link with 'douyin.com' is stored and queued at once under a fixed title. Any other
   * link goes through the root parser first; its failure is answered with the create-time
   * platform and the link, and nothing is stored or queued.
   */
  function CreateTask(s: Store.Store, url: Option<string>, id: string, now: string,
                      fetchTitle: (Detect.Platform, string) -> Result<string, string>): (r: (Created, Store.Store))
    requires Store.Valid(s)
    ensures r.0.MissingUrl? <==> !Truthy(url)
    ensures r.0.ParseRejected? <==>
      Truthy(url) && !Contains(url.value, "douyin.com") && Detect.ParseVideoInfoRoot(url.value, fetchTitle).Err?
    ensures !r.0.Accepted? ==> r.1 == s
    ensures r.0.ParseRejected? ==>
      r.0.platform == Detect.CreatePlatform(url.value) && r.0.url == url.value
      && r.0.message == ParseRejectedPrefix + Detect.ParseVideoInfoRoot(url.value, fetchTitle).error
    ensures r.0.Accepted? ==>
      && r.0.taskId == id && Store.Valid(r.1)
      && |r.1.queue| == |s.queue| + 1 && r.1.queue[1..] == s.queue
      && Store.Pending(r.1.queue) == Store.Pending(s.queue) + [r.1.queue[0]]
      && FreshEntry(r.1.queue[0], id, url.value)
      && (Contains(url.value, "douyin.com") ==> Describes(r.1.queue[0], DouyinTitle, "douyin", Detect.ShortVideo, now))
      && (!Contains(url.value, "douyin.com") ==>
            var info := Detect.ParseVideoInfoRoot(url.value, fetchTitle);
            info.Ok? && Describes(r.1.queue[0], info.value.title, info.value.platform, info.value.videoType, now))
      && (id !in s.tasks ==> id in r.1.tasks && r.1.tasks[id] == Store.RenderAll(r.1.queue[0]))
      && Store.OtherTasksUnchanged(s, r.1, id)
  {
    if !Truthy(url) then (MissingUrl, s)
    else
      var u := url.value;
      var platform := Detect.CreatePlatform(u);
      if platform == "douyin" then
        var e := TaskRecord(id, u, DouyinTitle, "douyin", Detect.ShortVideo, now);
        (Accepted(id), StoreAndEnqueue(s, id, e))
      else CreateParsed(s, u, platform, id, now, Detect.ParseVideoInfoRoot(u, fetchTitle))
  }

  /** `create_task` for a link that is not douyin's, given what the root parser made of it. */
  function CreateParsed(s: Store.Store, u: string, platform: string, id: string, now: string,
                        parsed: Result<Detect.RootInfo, string>): (r: (Created, Store.Store))
    requires Store.Valid(s)
    ensures r.0.ParseRejected? <==> parsed.Err?
    ensures r.0.ParseRejected? ==> r == (ParseRejected(ParseRejectedPrefix + parsed.error, platform, u), s)
    ensures r.0.Accepted? ==>
      && r.0.taskId == id && Store.Valid(r.1)
      && |r.1.queue| == |s.queue| + 1 && r.1.queue[1..] == s.queue
      && Store.Pending(r.1.queue) == Store.Pending(s.queue) + [r.1.queue[0]]
      && FreshEntry(r.1.queue[0], id, u)
      && parsed.Ok? && Describes(r.1.queue[0], parsed.value.title, parsed.value.platform, parsed.value.videoType, now)
      && (id !in s.tasks ==> id in r.1.tasks && r.1.tasks[id] == Store.RenderAll(r.1.queue[0]))
      && Store.OtherTasksUnchanged(s, r.1, id)
  {
    match parsed
    case Err(err) => (ParseRejected(ParseRejectedPrefix + err, platform, u), s)
    case Ok(info) =>
      var e := TaskRecord(id, u, info.title, info.platform, info.videoType, now);
      (Accepted(id), StoreAndEnqueue(s, id, e))
  }

  // ---------------------------------------------------------------- retry_task

  /** What `str()` of the exception gives when `update_task_status` is handed `clear_error`. */
  const UnexpectedClearError: string := "RedisManager.update_task_status() got an unexpected keyword argument 'clear_error'"

  /**
   * `retry_task` against the store as shown: its `update_task_status` takes no `clear_error`, so
   * the call raises before anything is written, and the handler answers with the error.
   */
  function RetryAsWritten(s: Store.Store, id: string): (r: (Result<Store.Store, string>, Store.Store))
    requires Store.Valid(s)
    ensures r.0.Err? && r.1 == s
  {
    (Err(UnexpectedClearError), s)
  }

  /**
   * `retry_task` with the extended update: status back to 'pending' with the stored error message
   * removed, then the task as it is now stored is queued again.
   */
  function Retry(s: Store.Store, id: string, now: string): (r: Store.Store)
    requires Store.Valid(s)
    ensures Store.Valid(r) && id in r.tasks
    ensures "status" in r.tasks[id] && r.tasks[id]["status"] == "pending" && "error_message" !in r.tasks[id]
    ensures Store.SameExcept(Store.GetTask(s, id), r.tasks[id], {"status", "updated_at", "error_message"})
    ensures Store.Pending(r.queue) == Store.Pending(s.queue) + [Store.AsSnapshot(r.tasks[id])]
    ensures Store.OtherTasksUnchanged(s, r, id)
  {
    var updated := Store.UpdateTaskStatusExt(s, id, "pending", None, None, None, true, now);
    assert Store.ExtChanged(None, None, None, true) == {"status", "updated_at", "error_message"};
    var r := Store.AddTaskToQueue(updated, Store.AsSnapshot(Store.GetTask(updated, id)));
    assert r.tasks == updated.tasks;
    r
  }

  /**
   * A retried task leaves the queue as the record it was retried from: the entry written back by
   * a worker's `set_task` is field for field what was stored at retry time.
   */
  lemma RetryEntryIsStoredRecord(s: Store.Store, id: string, now: string)
    requires Store.Valid(s)
    ensures var r := Retry(s, id, now);
      Store.RenderAll(Store.Pending(r.queue)[|r.queue| - 1]) == r.tasks[id]
  {
    var r := Retry(s, id, now);
    Store.RenderAsSnapshot(r.tasks[id]);
  }

  // ---------------------------------------------------------------- get_tasks

  /** `task_id and redis_manager.task_exists(task_id)` for a listed record. */
  predicate Live(s: Store.Store, t: Store.Hash) {
    "id" in t && t["id"] != "" && Store.TaskExists(s, t["id"])
  }

  /** The list `get_tasks` answers with: the live records, in the order they were listed. */
  function ListTasks(s: Store.Store, tasks: seq<Store.Hash>): (r: seq<Store.Hash>)
    ensures |r| <= |tasks|
    ensures forall t :: t in r <==> t in tasks && Live(s, t)
  {
    if |tasks| == 0 then []
    else (if Live(s, tasks[0]) then [tasks[0]] else []) + ListTasks(s, tasks[1..])
  }

  /** The filter works record by record: listing two runs of records lists each run in turn. */
  lemma {:induction false} ListTasksConcat(s: Store.Store, a: seq<Store.Hash>, b: seq<Store.Hash>)
    ensures ListTasks(s, a + b) == ListTasks(s, a) + ListTasks(s, b)
  {
    if |a| > 0 {
      assert (a + b)[0] == a[0];
      assert (a + b)[1..] == a[1..] + b;
      ListTasksConcat(s, a[1..], b);
    } else {
      assert a + b == b;
    }
  }

  /** After `delete_task(id)` no record naming `id` is listed. */
  lemma DeletedTaskHidden(s: Store.Store, id: string, order: seq<string>)
    requires Store.Valid(s)
    requires Store.Enumerates(order, Store.DeleteTask(s, id).1.tasks.Keys)
    ensures var r := Store.DeleteTask(s, id).1;
      forall t | t in ListTasks(r, Store.GetAllTasks(r, order)) :: t["id"] != id
  {
  }

  const MissingTaskExists: string := "'RedisManager' object has no attribute 'task_exists'"

  /**
   * `get_tasks` against the store as shown, which has no `task_exists`: the first record with a
   * non-empty id raises, so the answer is an error as soon as any such record is listed, and an
   * empty list otherwise.
   */
  function ListTasksAsWritten(tasks: seq<Store.Hash>): (r: Result<seq<Store.Hash>, string>)
    ensures r.Err? <==> exists i | 0 <= i < |tasks| :: "id" in tasks[i] && tasks[i]["id"] != ""
    ensures r.Err? ==> r.error == MissingTaskExists
    ensures r.Ok? ==> r.value == []
  {
    if |tasks| == 0 then Ok([])
    else if "id" in tasks[0] && tasks[0]["id"] != "" then Err(MissingTaskExists)
    else
      var rest := ListTasksAsWritten(tasks[1..]);
      assert forall i | 1 <= i < |tasks| :: tasks[i] == tasks[1..][i - 1];
      rest
  }

  /** Every task `create_task` stored carries its own id, so the shown store fails the list as soon as one exists. */
  lemma CreatedTaskBreaksList(s: Store.Store, url: string, id: string, now: string,
                              fetchTitle: (Detect.Platform, string) -> Result<string, string>, order: seq<string>)
    requires Store.Valid(s) && id != "" && url != ""
    requires CreateTask(s, Some(url), id, now, fetchTitle).0.Accepted?
    requires Store.Enumerates(order, CreateTask(s, Some(url), id, now, fetchTitle).1.tasks.Keys)
    ensures ListTasksAsWritten(Store.GetAllTasks(CreateTask(s, Some(url), id, now, fetchTitle).1, order)).Err?
  {
    var r := CreateTask(s, Some(url), id, now, fetchTitle).1;
    var listed := Store.GetAllTasks(r, order);
    var i :| 0 <= i < |order| && order[i] == id;
    assert listed[i] == r.tasks[id];
  }

  // ---------------------------------------------------------------- search_videos

  /** `video.get(key, '')`. */
  function Field(h: Store.Hash, key: string): string {
    if key in h then h[key] else ""
  }

  /** The query, lowered, occurs in the lowered title or the lowered save path. */
  predicate Matches(v: Store.Hash, query: string) {
    Contains(AsciiLower(Field(v, "title")), AsciiLower(query))
    || Contains(AsciiLower(Field(v, "save_path")), AsciiLower(query))
  }

  /** The videos a query keeps, in their order. */
  function MatchingVideos(videos: seq<Store.Hash>, query: string): (r: seq<Store.Hash>)
    ensures |r| <= |videos|
    ensures forall v :: v in r <==> v in videos && Matches(v, query)
  {
    if |videos| == 0 then []
    else (if Matches(videos[0], query) then [videos[0]] else []) + MatchingVideos(videos[1..], query)
  }

  /** `search_videos`: every video for an empty query, otherwise the matching ones. */
  function Search(videos: seq<Store.Hash>, query: string): (r: seq<Store.Hash>)
    ensures query == "" ==> r == videos
    ensures forall v :: v in r <==> v in videos && Matches(v, query)
  {
    if query == "" then
      assert forall v :: Matches(v, query) by {
        forall v
          ensures Matches(v, query)
        {
          assert OccursAt(AsciiLower(Field(v, "title")), "", 0);
        }
      }
      videos
    else MatchingVideos(videos, query)
  }

  /**
   * The filter works video by video: a single video is kept exactly when it matches, and
   * filtering two runs of videos filters each run in turn, so the kept videos stay in list order
   * and duplicates are kept.
   */
  lemma {:induction false} MatchingVideosConcat(a: seq<Store.Hash>, b: seq<Store.Hash>, query: string)
    ensures MatchingVideos(a + b, query) == MatchingVideos(a, query) + MatchingVideos(b, query)
    ensures |a| == 1 ==> MatchingVideos(a, query) == (if Matches(a[0], query) then a else [])
  {
    if |a| > 0 {
      assert (a + b)[0] == a[0];
      assert (a + b)[1..] == a[1..] + b;
      MatchingVideosConcat(a[1..], b, query);
    } else {
      assert a + b == b;
    }
  }

  /** `search_videos` answers runs of videos in turn as well, whatever the query. */
  lemma SearchConcat(a: seq<Store.Hash>, b: seq<Store.Hash>, query: string)
    ensures Search(a + b, query) == Search(a, query) + Search(b, query)
  {
    if query != "" {
      MatchingVideosConcat(a, b, query);
    }
  }

  /** The empty-query shortcut answers what the filter would: the empty text occurs everywhere. */
  lemma {:induction false} EmptyQueryKeepsAll(videos: seq<Store.Hash>)
    ensures MatchingVideos(videos, "") == videos
  {
    if |videos| > 0 {
      assert OccursAt(AsciiLower(Field(videos[0], "title")), "", 0);
      EmptyQueryKeepsAll(videos[1..]);
    }
  }

  /** A query that contains another finds only videos the shorter one finds. */
  lemma SearchNarrows(videos: seq<Store.Hash>, short: string, long: string)
    requires Contains(AsciiLower(long), AsciiLower(short))
    ensures forall v | v in Search(videos, long) :: v in Search(videos, short)
  {
    forall v | v in Search(videos, long)
      ensures Matches(v, short)
    {
      if Contains(AsciiLower(Field(v, "title")), AsciiLower(long)) {
        Detect.ContainsTransitive(AsciiLower(Field(v, "title")), AsciiLower(long), AsciiLower(short));
      } else {
        Detect.ContainsTransitive(AsciiLower(Field(v, "save_path")), AsciiLower(long), AsciiLower(short));
      }
    }
  }

  // ---------------------------------------------------------------- scan_videos

  /** The extensions a scan records, compared after lowering. */
  const VideoExtensions: seq<string> := [".mp4", ".mov", ".avi", ".mkv", ".flv", ".m4v"]

  datatype Scanned = Scanned(platform: string, title: string)

  /**
   * What a scan records for a file, given its path relative to the storage root ('/' separated):
   * nothing unless its lowered extension is a video one; else the first two components as
   * platform and title when there are at least two, and otherwise 'unknown' and the file's stem.
   */
  function ScanFile(relativePath: string): (r: Option<Scanned>)
    ensures var parts := Split(relativePath, '/');
      && (r.Some? <==> AsciiLower(SplitExt(parts[|parts| - 1]).1) in VideoExtensions)
      && (r.Some? && |parts| >= 2 ==> r.value == Scanned(parts[0], parts[1]))
    ensures r.Some? && '/' !in relativePath ==> r.value == Scanned("unknown", SplitExt(relativePath).0)
  {
    var parts := Split(relativePath, '/');
    var file := parts[|parts| - 1];
    if AsciiLower(SplitExt(file).1) !in VideoExtensions then None
    else if |parts| >= 2 then Some(Scanned(parts[0], parts[1]))
    else Some(Scanned("unknown", SplitExt(file).0))
  }

  /** A stem's extension is what follows its only '.'. */
  lemma SplitExtOfMov(stem: string)
    requires stem != "" && '.' !in stem
    ensures SplitExt(stem + ".mov") == (stem, ".mov")
  {
    var name := stem + ".mov";
    assert name[|stem|] == '.';
    var d := LastIndexOfChar(name, '.');
    assert forall k | 0 <= k < |stem| :: name[k] == stem[k];
    assert name[|stem|..] == ".mov";
    assert d == |stem|;
    assert name[0] == stem[0] != '.';
    assert name[..d] == stem;
  }

  /**
   * A file the backend downloader completed, `{platform}/{stem}/{stem}.mov` under the storage
   * root, is scanned back under its platform and its stem.
   */
  lemma ScanFindsDownload(platform: string, stem: string)
    requires '/' !in platform && '/' !in stem && '.' !in stem && stem != ""
    ensures ScanFile(platform + "/" + stem + "/" + stem + ".mov") == Some(Scanned(platform, stem))
  {
    DownloadPathSplits(platform, stem);
    SplitExtOfMov(stem);
    LowerMov();
  }

  /** The components of a downloaded file's path are its platform, its stem and its file name. */
  lemma DownloadPathSplits(platform: string, stem: string)
    requires '/' !in platform && '/' !in stem && '.' !in stem && stem != ""
    ensures Split(platform + "/" + stem + "/" + stem + ".mov", '/') == [platform, stem, stem + ".mov"]
  {
    var file := stem + ".mov";
    var parts := [platform, stem, file];
    assert '/' !in file by {
      forall k | 0 <= k < |file|
        ensures file[k] != '/'
      {
        if k < |stem| {
          assert file[k] == stem[k];
        }
      }
    }
    assert Join(parts, '/') == platform + "/" + stem + "/" + stem + ".mov" by {
      assert parts[1..] == [stem, file];
      assert [stem, file][1..] == [file];
      assert Join([stem, file], '/') == stem + "/" + file;
    }
    SplitJoin(parts, '/');
  }

  lemma LowerMov()
    ensures AsciiLower(".mov") == ".mov"
  {
  }

  // ---------------------------------------------------------------- process_download_queue

  /** One write of the downloader, applied through the extended update. */
  function ApplyWrite(s: Store.Store, id: string, w: Download.Write, now: string): (r: Store.Store)
    requires Store.Valid(s)
    ensures Store.Valid(r) && r == s.(tasks := r.tasks)
    ensures Store.OtherTasksUnchanged(s, r, id)
    ensures id in r.tasks && "status" in r.tasks[id] && r.tasks[id]["status"] == w.status
    ensures SavePathOf(Store.GetTask(r, id)) == if w.savePath.Some? then w.savePath else SavePathOf(Store.GetTask(s, id))
  {
    var r := Store.UpdateTaskStatusExt(s, id, w.status, w.progress, w.savePath, w.errorMessage, false, now);
    assert w.savePath.None? ==> "save_path" !in Store.ExtChanged(w.progress, w.savePath, w.errorMessage, false);
    r
  }

  /** The downloader's writes, in order, to the task `id`. */
  function Apply(s: Store.Store, id: string, writes: seq<Download.Write>, now: string): (r: Store.Store)
    requires Store.Valid(s)
    ensures Store.Valid(r) && r == s.(tasks := r.tasks)
    ensures Store.OtherTasksUnchanged(s, r, id)
    ensures |writes| > 0 ==>
      id in r.tasks && "status" in r.tasks[id] && r.tasks[id]["status"] == writes[|writes| - 1].status
    ensures SavePathOf(Store.GetTask(r, id)) == SavePathAfter(SavePathOf(Store.GetTask(s, id)), writes)
  {
    if |writes| == 0 then s
    else
      var before := Apply(s, id, writes[..|writes| - 1], now);
      var r := ApplyWrite(before, id, writes[|writes| - 1], now);
      Store.OtherTasksChain(s, before, r, id);
      r
  }

  /** The stored `save_path`, if any. */
  function SavePathOf(h: Store.Hash): Option<string> {
    if "save_path" in h then Some(h["save_path"]) else None
  }

  /** The `save_path` a task holds after a run of writes: the last one given, else the one it had. */
  function SavePathAfter(before: Option<string>, writes: seq<Download.Write>): Option<string> {
    if |writes| == 0 then before
    else if writes[|writes| - 1].savePath.Some? then writes[|writes| - 1].savePath
    else SavePathAfter(before, writes[..|writes| - 1])
  }

  /** Writes that never name a path leave the stored one as it was. */
  lemma {:induction false} SavePathKept(before: Option<string>, writes: seq<Download.Write>)
    requires forall i | 0 <= i < |writes| :: writes[i].savePath.None?
    ensures SavePathAfter(before, writes) == before
  {
    if |writes| > 0 {
      SavePathKept(before, writes[..|writes| - 1]);
    }
  }

  /**
   * The status one worker step leaves on the task, from what the world did and the `save_path`
   * the task held before; None when an exception ends the worker thread. The task's stored status
   * is not an input: a paused or cancelled task is processed like any other.
   */
  function Verdict(before: Option<string>, env: Env): Option<string> {
    match env.download.result
    case Err(_) => None
    case Ok((ok, _)) =>
      var path := SavePathAfter(before, env.download.writes);
      if !ok || !Truthy(path) || !env.fileExists(path.value) then Some("failed")
      else if env.parse.Err? || env.transcoded.outcome.Raised? then None
      else if env.transcoded.outcome.success || env.existsAfter(path.value) then Some("completed")
      else Some("failed")
  }

  /** The id a queue entry names: `task_data.get('id')`, which formats as 'None' when missing. */
  function EntryId(e: Store.Snapshot): string {
    if "id" in e then Store.Render(e["id"]) else "None"
  }

  /** `os.path.join(storage, platform, title, f"{title}.mov")`. */
  function VideoPath(storage: string, info: Detect.RootInfo): string {
    Download.PathJoin(Download.PathJoin(Download.PathJoin(storage, info.platform), info.title), info.title + ".mov")
  }

  /** The video record the worker stores for a finished task. */
  function VideoRecord(videoId: string, taskId: string, url: string, info: Detect.RootInfo, path: string, now: string): (v: Store.Snapshot)
    ensures "save_path" in v && v["save_path"] == Store.Str(path)
    ensures "task_id" in v && v["task_id"] == Store.Str(taskId)
  {
    map["id" := Store.Str(videoId), "task_id" := Store.Str(taskId), "title" := Store.Str(info.title),
        "url" := Store.Str(url), "platform" := Store.Str(info.platform), "video_type" := Store.Str(info.videoType),
        "save_path" := Store.Str(path), "created_at" := Store.Str(now)]
  }

  /**
   * What the world did during one worker step: the download (its writes and what
   * `download_video` returned or raised), which files exist, the worker's own parse of the link,
   * and the transcoder's run; plus the id `uuid4` drew for a video record and the clock.
   */
  datatype Env = Env(
    download: Download.Download,
    fileExists: string -> bool,
    parse: Result<Detect.RootInfo, string>,
    transcoded: Transcode.Transcoded,
    existsAfter: string -> bool,
    videoId: string,
    now: string)

  /** One iteration: the queue was empty, an entry was processed, or an exception ended the worker thread. */
  datatype Step = Idle | Processed(s: Store.Store) | Crashed(error: string, s: Store.Store)

  /**
   * One iteration of `process_download_queue`: take the oldest entry; run the download and apply
   * its writes; on failure mark 'failed'. On success, mark 'failed' unless the stored `save_path`
   * names an existing file; otherwise parse the link again, transcode to the computed path,
   * and record a video and 'completed' 100 with the transcoded path, or, when transcoding failed
   * but the downloaded file is still there, with the downloaded path; else 'failed'. The stored
   * status is never looked at. Exceptions outside `download_video` are not caught by the loop.
   */
  function WorkerStep(s: Store.Store, env: Env): (r: Step)
    requires Store.Valid(s)
    ensures r.Idle? <==> |s.queue| == 0
    ensures |s.queue| > 0 ==> var id := EntryId(Store.Pending(s.queue)[0]);
      var v := Verdict(SavePathOf(Store.GetTask(s, id)), env);
      && (r.Processed? <==> v.Some?)
      && (r.Processed? ==> Store.Valid(r.s) && id in r.s.tasks && "status" in r.s.tasks[id] && r.s.tasks[id]["status"] == v.value)
      && (r.Processed? && v.value == "completed" ==> Recorded(r.s, id, env.videoId))
  {
    var (next, s0) := Store.GetNextTask(s);
    match next
    case None => Idle
    case Some(e) => Process(s0, e, Store.GetStoragePath(s), env)
  }

  /** The task is recorded as a video: the video record holds the task's `save_path`. */
  predicate Recorded(s: Store.Store, id: string, videoId: string) {
    && id in s.tasks && "save_path" in s.tasks[id]
    && videoId in s.videos && "save_path" in s.videos[videoId]
    && s.videos[videoId]["save_path"] == s.tasks[id]["save_path"]
  }

  /** `update_task_status(task_id, 'failed')`. */
  function MarkFailed(s: Store.Store, id: string, now: string): (r: Store.Store)
    requires Store.Valid(s)
    ensures Store.Valid(r) && id in r.tasks && "status" in r.tasks[id] && r.tasks[id]["status"] == "failed"
  {
    Store.UpdateTaskStatus(s, id, "failed", None, now)
  }

  /** The step for the entry taken off the queue. */
  function Process(s0: Store.Store, e: Store.Snapshot, storage: string, env: Env): (r: Step)
    requires Store.Valid(s0)
    ensures var id := EntryId(e);
      var v := Verdict(SavePathOf(Store.GetTask(s0, id)), env);
      && !r.Idle?
      && (r.Processed? <==> v.Some?)
      && (r.Processed? ==> Store.Valid(r.s) && id in r.s.tasks && "status" in r.s.tasks[id] && r.s.tasks[id]["status"] == v.value)
      && (r.Processed? && v.value == "completed" ==> Recorded(r.s, id, env.videoId))
  {
    var id := EntryId(e);
    var s1 := Apply(s0, id, env.download.writes, env.now);
    var path := SavePathOf(Store.GetTask(s1, id));
    match env.download.result
    case Err(err) => Crashed(err, s1)
    case Ok((ok, _)) =>
      if !ok || !Truthy(path) || !env.fileExists(path.value) then Processed(MarkFailed(s1, id, env.now))
      else AfterDownload(s1, id, e, path.value, storage, env)
  }

  /**
   * The worker past the download check: parse the link again, transcode the downloaded file to
   * the computed path, and record the result; `existsAfter` is the filesystem once the
   * transcoder has run.
   */
  function AfterDownload(s1: Store.Store, id: string, e: Store.Snapshot, downloaded: string, storage: string, env: Env): (r: Step)
    requires Store.Valid(s1)
    ensures !r.Idle?
    ensures r.Crashed? <==> env.parse.Err? || env.transcoded.outcome.Raised?
    ensures r.Processed? ==> Store.Valid(r.s) && id in r.s.tasks && "status" in r.s.tasks[id]
    ensures r.Processed? ==>
      (r.s.tasks[id]["status"] == "completed" <==> env.transcoded.outcome.success || env.existsAfter(downloaded))
    ensures r.Processed? && r.s.tasks[id]["status"] != "completed" ==> r.s.tasks[id]["status"] == "failed"
    ensures r.Processed? && r.s.tasks[id]["status"] == "completed" ==>
      var path := if env.transcoded.outcome.success then VideoPath(storage, env.parse.value) else downloaded;
      && "progress" in r.s.tasks[id] && r.s.tasks[id]["progress"] == "100"
      && "save_path" in r.s.tasks[id] && r.s.tasks[id]["save_path"] == path
      && env.videoId in r.s.videos && "save_path" in r.s.videos[env.videoId]
      && r.s.videos[env.videoId]["save_path"] == path
  {
    var url := if "url" in e then Store.Render(e["url"]) else "None";
    match env.parse
    case Err(err) => Crashed(err, s1)
    case Ok(info) =>
      var s2 := Apply(s1, id, Download.ProgressWrites("transcoding", env.transcoded.writes), env.now);
      match env.transcoded.outcome
      case Raised(err) => Crashed(err, s2)
      case Returned(success, _) =>
        if !success && !env.existsAfter(downloaded) then
          Processed(MarkFailed(s2, id, env.now))
        else Processed(Record(s2, id, url, info, if success then VideoPath(storage, info) else downloaded, env))
  }

  /** A video record for the task, then 'completed' 100 with the same path. */
  function Record(s: Store.Store, id: string, url: string, info: Detect.RootInfo, path: string, env: Env): (r: Store.Store)
    requires Store.Valid(s)
    ensures Store.Valid(r) && id in r.tasks
    ensures "status" in r.tasks[id] && r.tasks[id]["status"] == "completed"
    ensures "progress" in r.tasks[id] && r.tasks[id]["progress"] == "100"
    ensures "save_path" in r.tasks[id] && r.tasks[id]["save_path"] == path
    ensures env.videoId in r.videos && "save_path" in r.videos[env.videoId] && r.videos[env.videoId]["save_path"] == path
  {
    var withVideo := Store.SetVideo(s, env.videoId, VideoRecord(env.videoId, id, url, info, path, env.now)).value;
    HundredText();
    Store.UpdateTaskStatusExt(withVideo, id, "completed", Some(100), Some(path), None, false, env.now)
  }

  /** What `str()` of the exception gives when the root `update_task_status` is handed `save_path`. */
  const UnexpectedSavePath: string := "RedisManager.update_task_status() got an unexpected keyword argument 'save_path'"

  /**
   * The completion write against the store as shown, whose `update_task_status` takes no
   * `save_path`: the video record is stored, then the call raises before touching the task, and
   * nothing in the worker loop catches it.
   */
  function RecordAsWritten(s: Store.Store, id: string, url: string, info: Detect.RootInfo, path: string, env: Env): (r: (string, Store.Store))
    requires Store.Valid(s)
    ensures r.0 == UnexpectedSavePath
    ensures r.1.tasks == s.tasks && r.1.queue == s.queue && r.1.config == s.config
    ensures env.videoId in r.1.videos && "save_path" in r.1.videos[env.videoId] && r.1.videos[env.videoId]["save_path"] == path
  {
    var withVideo := Store.SetVideo(s, env.videoId, VideoRecord(env.videoId, id, url, info, path, env.now)).value;
    (UnexpectedSavePath, withVideo)
  }

  /**
   * The two completion writes store the same video record, but only the corrected one completes
   * the task: as written the step ends in the TypeError with the task exactly as it was, so a
   * task that was not 'completed' never becomes so while its video is listed.
   */
  lemma CompletionCrashesAsWritten(s: Store.Store, id: string, url: string, info: Detect.RootInfo, path: string, env: Env)
    requires Store.Valid(s)
    ensures var (err, w) := RecordAsWritten(s, id, url, info, path, env);
      var c := Record(s, id, url, info, path, env);
      && err == UnexpectedSavePath
      && w.videos == c.videos
      && w.tasks == s.tasks && w.queue == s.queue
      && c.tasks[id]["status"] == "completed"
  {
    var withVideo := Store.SetVideo(s, env.videoId, VideoRecord(env.videoId, id, url, info, path, env.now)).value;
    var c := Record(s, id, url, info, path, env);
    assert c.videos == withVideo.videos;
  }

  /** The progress text a 100 is stored as. */
  lemma HundredText()
    ensures IntToString(100) == "100"
  {
    assert NatToString(10) == "10";
  }

  // ---------------------------------------------------------------- which downloader the worker runs

  /**
   * A task `create_task` has just stored holds no `save_path`, so the worker sees the path
   * only if the downloader writes one.
   */
  lemma CreatedTaskHasNoPath(s: Store.Store, url: Option<string>, id: string, now: string,
                             fetchTitle: (Detect.Platform, string) -> Result<string, string>)
    requires Store.Valid(s) && id !in s.tasks
    requires CreateTask(s, url, id, now, fetchTitle).0.Accepted?
    ensures SavePathOf(Store.GetTask(CreateTask(s, url, id, now, fetchTitle).1, id)) == None
  {
    var r := CreateTask(s, url, id, now, fetchTitle);
    assert r.1.tasks[id].Keys == r.1.queue[0].Keys;
  }

  /**
   * With the root downloader, whose writes never carry a `save_path`, every task that held no
   * path ends 'failed' (or crashes the worker when the download raised): success of the download,
   * the files on disk and the transcoder play no part.
   */
  lemma RootDownloaderFailsEveryTask(before: Option<string>, env: Env, url: string,
                                     fetchTitle: (Detect.Platform, string) -> Result<string, string>,
                                     run: Download.YtDlpRun)
    requires env.download == Download.RootDownload(url, fetchTitle, run)
    requires !Truthy(before)
    ensures Verdict(before, env) == Some("failed")
  {
    SavePathKept(before, env.download.writes);
  }

  /**
   * With the backend downloader a successful run leaves its non-empty `.mov` path on the task,
   * so the worker goes on to transcode, and a file that exists and transcodes completes the task.
   */
  lemma BackendDownloadReachesTranscode(before: Option<string>, env: Env, url: string, root: string, w: Download.World)
    requires Download.WellFormed(w)
    requires env.download == Download.BackendDownload(url, root, w)
    ensures env.download.result.value.0 ==>
      var p := env.download.writes[|env.download.writes| - 1].savePath;
      && SavePathAfter(before, env.download.writes) == p && Truthy(p)
      && (env.fileExists(p.value) && env.parse.Ok? && env.transcoded.outcome.Returned? && env.transcoded.outcome.success
          ==> Verdict(before, env) == Some("completed"))
    ensures !env.download.result.value.0 ==> Verdict(before, env) == Some("failed")
  {
    SettledVerdict(before, env);
  }

  /** Any settled run: its success leaves its last path on the task, its failure marks 'failed'. */
  lemma SettledVerdict(before: Option<string>, env: Env)
    requires Download.Settled(env.download)
    ensures env.download.result.value.0 ==>
      var p := env.download.writes[|env.download.writes| - 1].savePath;
      && SavePathAfter(before, env.download.writes) == p && Truthy(p)
      && (env.fileExists(p.value) && env.parse.Ok? && env.transcoded.outcome.Returned? && env.transcoded.outcome.success
          ==> Verdict(before, env) == Some("completed"))
    ensures !env.download.result.value.0 ==> Verdict(before, env) == Some("failed")
  {
  }

  /**
   * Pausing or cancelling a task does not stop the worker: the verdict for a queued task is the
   * same whatever status was written to it in the meantime.
   */
  lemma StatusNotConsulted(s: Store.Store, id: string, status: string, now: string, env: Env)
    requires Store.Valid(s)
    ensures Verdict(SavePathOf(Store.GetTask(Store.UpdateTaskStatus(s, id, status, None, now), id)), env)
         == Verdict(SavePathOf(Store.GetTask(s, id)), env)
  {
    var r := Store.UpdateTaskStatus(s, id, status, None, now);
    assert "save_path" !in Store.StatusChanged(None);
    assert SavePathOf(Store.GetTask(r, id)) == SavePathOf(Store.GetTask(s, id));
  }
}

=== FILE: wrappers.dfy ===
/** Failure-compatible Option and Result types shared by every module of the model. */
module Wrappers {

  /** A value that may be missing: Python's `None` versus a present value. */
  datatype Option<+T> = None | Some(value: T) {

    predicate IsFailure() {
      None?
    }

    function PropagateFailure<U>(): Option<U>
      requires None?
    {
      None
    }

    function Extract(): T
      requires Some?
    {
      value
    }

    /** The value, or `default` when it is missing (Python's `x or default` for a present x). */
    function GetOr(default: T): T {
      match this
      case Some(v) => v
      case None => default
    }
  }

  /** Either a value or the error an operation raised or returned. */
  datatype Result<+T, +E> = Ok(value: T) | Err(error: E) {

    predicate IsFailure() {
      Err?
    }

    function PropagateFailure<U>(): Result<U, E>
      requires Err?
    {
      Err(error)
    }

    function Extract(): T
      requires Ok?
    {
      value
    }
  }
}
